=== FILE: README.md ===
# Deer picture hunting game — a Dafny model of its rules

Hunters walk a 40 × 30 grid of EMPTY, TREE, ROCK and BUSH tiles. They photograph deer along the
direction they face. Deer watch, smell and flee the hunters. This project models the game's rules
as pure functions over immutable values and proves what those rules guarantee.

It covers three groups of code:

- **The authoritative multiplayer server.** This is `src/server/game_server.py` with its helpers
  `src/core/type.py`, `src/core/event.py` and `src/server/game_map.py`. The model covers:
  - movement legality (`World.PlayerMove`, `DeerAI.MoveTarget`);
  - photo ray-casting (`World.Photograph`);
  - deer perception and the alert-level state machine (`DeerAI`);
  - the tier parameters and the level → roster formula (`DeerAI.RosterFor`, `DeerAI.DeerWave`);
  - per-tick event deduplication (`Events`);
  - world reset and the LEVEL_SELECTION → PLAYING → FINISHED round cycle (`GameServer`);
  - the strict level loader, which the client map (`src/client/game_map.py`) shares (`LevelLoader`).
- **The single-player rule variants.** These are `src/entity/player.py`, `src/entity/deer.py` and the
  lenient map of `src/core/game_map.py` (`Solo`, `CoreMap`), plus the first prototype
  `2d/main.py` (`Prototype`) and `clip` (`MathUtil`). The prototype's hunter move, photo scan,
  flee and random moves and `get_cell` are the same algorithms as the single-player ones.
  They are modelled once, by `Solo.HunterMove`, `Solo.TakePhoto`, `Solo.SoloMove` and
  `CoreMap.GetCell`. Its `Player.take_photo` compares against the same tiles (2d/main.py:67-108).
  `Prototype` holds what differs: an alert level with no ceiling, and the game's scoring.
- **Score bookkeeping.** `ScoreManager` in `src/util/score_manager.py` keeps top-10 lists sorted
  by score, then time, with dictionary round-tripping (`ScoreBook`). The client's `Scores` table in
  `src/client/game.py` is modelled as `LevelScores`.

Randomness arrives as oracle parameters:

- `DeerAI.DeerRoll` holds, per deer and tick, the 25% wander roll, a shuffle rank and the two
  `sign(0)` coins.
- `Solo.SoloRoll` holds the wander roll and the shuffle rank.
- The `spawn: nat -> Position` stream holds the cells that successive `get_empty_tile` calls
  return. It is an independent oracle: `LevelLoader.GetEmptyTile` models one call's retry loop
  over its own draws, but a reset does not call it, so the model does not prove spawn cells
  EMPTY. `GameServer.ResetValidWhenSpawnsDistinct` takes that as a hypothesis.
- The bush predicate `stop: int -> bool` says whether the photo stops at a bush.

A shuffle rank decodes to a permutation of the candidate list (`Shuffle.Unrank`). So no property
depends on trusting the oracle. The wall clock is one integer reading per pass of the server loop.
Hunters' UUIDs are distinct integers. A deer is identified by its index in the round's roster.
The level table `LEVELS` is a parameter. It is a sequence of layouts whose keys are the level
numbers 1..n.

The server's occupancy invariant is `World.Valid`: no two entities share a cell, and every entity
stands on an in-grid cell that is not TREE or ROCK. Every hunter intent, every deer tick and every
server update keeps it. A reset establishes it only when the spawn draws are distinct
(`GameServer.ResetValidWhenSpawnsDistinct`). `get_empty_tile` does not avoid occupied cells, so
that is not guaranteed (`GameServer.ResetCanStackDeer`).

## Model

| member | source | states |
|---|---|---|
| `Geometry.Unit` | src/server/game_server.py:114-123 | each facing maps to a displacement of Manhattan length 1 |
| `Geometry.AbsMul` | src/core/type.py:28-29 | the absolute value of a product is the product of the absolute values |
| `Geometry.ScaleDistance` | src/core/type.py:14-16 | scaling both components by k scales the Manhattan length by abs(k) |
| `Geometry.Scale` | src/core/type.py:14-16 | `d * 0` is the null displacement, `d * 1` is d, and `(d * k).distance()` is abs(k) times `d.distance()` |
| `Geometry.ScaleLeft` | src/core/type.py:18-19 | `k * d` scales each component of d by k |
| `Geometry.Add` | src/core/type.py:45-47 | translating a cell leaves it in place exactly when the displacement is null |
| `Geometry.Sub` | src/core/type.py:52-54 | the displacement between two cells is null exactly when they are equal |
| `Geometry.Distance` | src/core/type.py:28-29 | the length is 0 exactly for the null displacement |
| `Geometry.DirectionAddAsWritten` | src/core/type.py:21-23 | as written, adding (1, 1) returns the left operand and adding (0, 0) returns (0, 0): the operator multiplies |
| `Geometry.SubUndoesAdd` | src/core/type.py:45-54 | (p + d) − p == d: subtraction undoes a translation |
| `Geometry.AddUndoesSub` | src/core/type.py:45-54 | q + (p − q) == p |
| `Geometry.DistanceZeroIff` | src/core/type.py:28-29 | `distance()` is 0 exactly for the null displacement |
| `Geometry.ManhattanSymmetric` | src/core/type.py:28-29 | the distance between two cells does not depend on their order |
| `Geometry.ScaleBothSides` | src/core/type.py:14-19 | `k * d` and `d * k` agree and scale each component by k |
| `Geometry.RayStep` | src/server/game_server.py:125-126 | the cell at distance k+1 is one step beyond the cell at distance k |
| `Geometry.TranslateBySum` | src/core/type.py:21-23 | the intended direction sum composes translations: (p + a) + b == p + (a + b) |
| `Geometry.DirectionAddAsWrittenBreaksTranslation` | src/core/type.py:21-23 | as written, RIGHT + RIGHT is RIGHT, though stepping right twice moves two cells |
| `MathUtil.Clip` | src/util/math.py:1-3 | result ≥ lower; ≤ upper when lower ≤ upper; a value inside the range is unchanged; a value outside goes to the nearer bound |
| `MathUtil.ClipIdempotent` | src/util/math.py:1-3 | clipping twice equals clipping once, whatever the bounds |
| `Terrain.EmptyGrid` | src/server/game_map.py:49-54 | `_clear` yields a GRID_WIDTH × GRID_HEIGHT grid of EMPTY |
| `Shuffle.Unrank` | src/server/game_server.py:192 | every shuffle outcome is a permutation of the candidate list (same length, same multiset) |
| `Shuffle.UnrankSameElements` | src/entity/deer.py:67 | a shuffled list holds exactly the elements of the list |
| `LevelLoader.ParseTile` | src/server/game_map.py:37-47 | only 'T', 'R', 'B' and '.' decode (to TREE, ROCK, BUSH, EMPTY); any other character is rejected |
| `LevelLoader.SelectLayout` | src/server/game_map.py:33 | a known level selects its own layout, an unknown one the highest level's; an empty table fails |
| `LevelLoader.LoadMapFromFile` | src/server/game_map.py:24-47 | out-of-range level → LevelOutOfRange; empty table → NoLevelData; otherwise success iff every character is in-grid and known, and then cell (x, y) holds row y's character x decoded, cells the layout does not cover keep their tile |
| `LevelLoader.NewGameMap` | src/server/game_map.py:10-22 | construction succeeds iff the level is in 1..20, the table is non-empty and the layout fits; covered cells hold their decoded character, all other cells stay EMPTY |
| `LevelLoader.UnknownLevelLoadsHighest` | src/client/game_map.py:36 | a level without its own layout loads the same map as the highest level |
| `LevelLoader.WellFormedLevelsLoad` | src/client/game_map.py:35-50 | with a well-formed table every level in 1..20 loads |
| `LevelLoader.GetEmptyTile` | src/server/game_map.py:68-80 | the answer is an in-grid EMPTY cell and the first EMPTY draw of the stream; no answer iff no draw is EMPTY |
| `CoreMap.LenientTile` | src/core/game_map.py:51-59 | 'T', 'R', 'B' and only they give TREE, ROCK, BUSH; every other character gives EMPTY |
| `CoreMap.GeneratePredefinedMap` | src/core/game_map.py:44-59 | fails only on an empty table; otherwise each in-grid layout character is decoded leniently, out-of-grid characters are skipped and every other cell is EMPTY from `clear` |
| `CoreMap.GetCell` | src/core/game_map.py:64-68 | None exactly outside the grid, else the cell's tile |
| `Events.NewClientEvent` | src/core/event.py:7-11 | an event is built iff exactly one of a move direction and the picture flag is given, and it carries that intent |
| `Events.RemoveDuplicatesLoop` | src/core/event.py:14-24 | the loop with its `seen` set computes the reference deduplication |
| `Events.RemoveDuplicatesUnique` | src/core/event.py:15-21 | after dedup no two events share a player id |
| `Events.RemoveDuplicatesSubsequence` | src/core/event.py:16-24 | the result is an order-preserving subsequence of the input |
| `Events.RemoveDuplicatesKeepsFirst` | src/core/event.py:17-21 | every player with an event keeps one, and it is that player's first |
| `Events.RemoveDuplicatesIdempotent` | src/core/event.py:14-24 | deduplicating twice equals deduplicating once |
| `World.PlayerMove` | src/server/game_server.py:98-111 | facing always becomes the attempted direction; the hunter moves to old + dir, with a `moved` acknowledgement, iff that cell is in-grid, not TREE/ROCK and holds no deer and no hunter; otherwise it stays and nothing is sent; nothing else changes |
| `World.RayFrom` | src/server/game_server.py:125-134 | the scanned cells are the consecutive cells along the ray, each in-grid and not TREE/ROCK/BUSH, and the scan ends at the range or at the first cell that is not |
| `World.RayExact` | src/server/game_server.py:125-134 | a cell is scanned iff it lies at distance 1..range with every cell up to it clear |
| `World.Photograph` | src/server/game_server.py:113-142 | only the photographer's photographed set and flag change; the set only grows and the flag is never cleared |
| `World.PhotographCaptures` | src/server/game_server.py:140-142 | a deer is in the set after a photo iff it was, or it stands on a cell at distance 1..PHOTO_RANGE with a clear line to it |
| `World.PhotographFlagsPlayer` | src/server/game_server.py:136-138 | the flag is set after a photo iff it was, or some hunter stands on a scanned cell |
| `World.PhotographIdempotent` | src/server/game_server.py:140-142 | a second photo from the same spot changes nothing |
| `World.HandleEvents` | src/server/game_server.py:73-93 | handling a batch changes only this hunter's record and keeps its id |
| `World.HandleEventsIgnoresOthers` | src/server/game_server.py:74-76 | events of other hunters leave the world and the outbox untouched |
| `World.HandleOwnPicture` | src/server/game_server.py:81-83 | an own picture event takes the photo and is always acknowledged with `picture_taken` |
| `World.HandleOwnMove` | src/server/game_server.py:85-93 | an own move event maps UP/DOWN/LEFT/RIGHT to (0,−1)/(0,1)/(−1,0)/(1,0), sets the facing, and moves iff the target can be entered |
| `World.EnterableIsFree` | src/server/game_server.py:390-400 | a cell that can be entered is held by no hunter and no deer |
| `World.PlayerMovePreservesValid` | src/server/game_server.py:105-110 | a hunter move keeps the occupancy invariant |
| `World.PhotographPreservesValid` | src/server/game_server.py:113-142 | taking a picture moves nobody |
| `World.HandleEventsPreservesValid` | src/server/game_server.py:73-93 | handling any batch of intents keeps the occupancy invariant |
| `World.ResetPlayer` | src/server/game_server.py:144-146 | a reset hunter keeps its id and facing, stands on its spawn cell, and has no photographed deer and no photographed-player flag |
| `World.FinalScore` | src/server/game_server.py:459-460 | −1 for a hunter who photographed another hunter, else the number of distinct deer photographed |
| `World.IsPlayerAt` | src/server/game_server.py:390-394 | true iff some hunter of the roster stands on the cell |
| `World.IsDeerAt` | src/server/game_server.py:396-400 | true iff some deer of the roster stands on the cell |
| `DeerAI.NearestAmong` | src/server/game_server.py:264-275 | the chosen hunter is at least distance among all and strictly nearer than every earlier one (ties keep the earlier) |
| `DeerAI.SmellDistance` | src/server/game_server.py:278-314 | 5 for a blind deer and only for it, 6 for the medium and super deer |
| `DeerAI.VisualDistance` | src/server/game_server.py:278-314 | every tier sees two cells farther than it smells (7, 8, 8) |
| `DeerAI.AlertThreshold` | src/server/game_server.py:278-314 | 30 for a super deer and only for it, 40 for the blind and medium deer |
| `DeerAI.NearestPlayer` | src/server/game_server.py:264-275 | there is no nearest hunter exactly when no hunter is connected |
| `DeerAI.FirstPlayerAt` | src/server/game_server.py:259-261 | the first hunter in roster order on a cell, None iff none stands there |
| `DeerAI.FirstSeen` | src/server/game_server.py:248-262 | the hunter returned stands on a scanned cell with nobody on any nearer one; None iff no hunter is on the scanned cells |
| `DeerAI.PlayerInSight` | src/server/game_server.py:236-262 | no hunter is in sight iff none stands on the ray along the deer's facing up to its visual distance, under the photo blocking rules |
| `DeerAI.Perceive` | src/server/game_server.py:161-172 | NoPlayers iff nobody is connected; InSight iff a hunter is in sight; otherwise Smelled iff the nearest hunter is nearer than the smell distance of the deer's tier |
| `DeerAI.NextAlert` | src/server/game_server.py:164-176 | with a hunter connected: +4 in sight, +2 smelled, −1 otherwise, each saturated at 0 and at 10·FRAME_RATE; with nobody connected −1, unclamped |
| `DeerAI.SightRaisesAlert` | src/server/game_server.py:168-176 | n ticks in sight from calm give min(4n, 100) |
| `DeerAI.SmellRaisesAlert` | src/server/game_server.py:170-176 | n ticks of smell from calm give min(2n, 100) |
| `DeerAI.UnnoticedCalms` | src/server/game_server.py:172-176 | n unnoticed ticks lower the alert by n but never below 0 |
| `DeerAI.EmptyServerAlertFalls` | src/server/game_server.py:164-167 | with nobody connected the alert falls by one per tick without bound |
| `DeerAI.SightMakesFlee` | src/server/game_server.py:177-180 | ten ticks in sight reach the blind and medium threshold 40; a super deer needs eight ticks for 30 |
| `DeerAI.StepsAreUnit` | src/server/game_server.py:186-191 | the random-walk candidates are unit steps |
| `DeerAI.WalkMoves` | src/server/game_server.py:182-192 | any shuffle of the walk candidates gives four unit steps |
| `DeerAI.Sign` | src/server/game_server.py:200-206 | always ±1, and it follows the sign of a non-zero value |
| `DeerAI.FleeMoves` | src/server/game_server.py:199-218 | four candidates ending with "stay put" |
| `DeerAI.FirstEnterable` | src/server/game_server.py:220-234 | the first candidate whose target can be entered; None iff none can |
| `DeerAI.MoveTarget` | src/server/game_server.py:220-234 | the deer moves to the target of the first candidate, in list order, that can be entered, and stays iff no candidate target can be entered |
| `DeerAI.StayPutNeverChosen` | src/server/game_server.py:216 | the deer's own cell is occupied, so "stay put" is never taken |
| `DeerAI.FleeMovesGoAway` | src/server/game_server.py:208-215 | every flee candidate but "stay put" strictly increases the distance to the threat |
| `DeerAI.FleeIncreasesDistance` | src/server/game_server.py:199-234 | a fleeing deer either stays or ends strictly farther from the hunter it flees |
| `DeerAI.WalkIsOneStep` | src/server/game_server.py:182-197 | a random walk moves to a 4-neighbour or nowhere |
| `DeerAI.FleeingDeerMoves` | src/server/game_server.py:199-234 | a fleeing deer with an enterable flee candidate leaves its cell and ends strictly farther from the hunter it flees |
| `DeerAI.OpenCandidateMoves` | src/server/game_server.py:220-234 | when some candidate target can be entered, the deer does not stay on its cell |
| `DeerAI.WalkWithOpenNeighbour` | src/server/game_server.py:182-197 | a random walk from a cell with an enterable 4-neighbour moves exactly one cell, for every shuffle |
| `DeerAI.WanderingDeerMoves` | src/server/game_server.py:177-197 | a calm deer whose wander roll succeeds and that has an enterable 4-neighbour moves exactly one cell |
| `DeerAI.RelocatePreservesValid` | src/server/game_server.py:226-233 | moving a deer to its own or an enterable cell keeps the occupancy invariant |
| `DeerAI.PlanFor` | src/server/game_server.py:160-180 | the new alert is the alert update of the perceived stimulus; the deer flees iff a hunter is connected and the alert reaches the tier's threshold, and then it flees the nearest hunter's cell |
| `DeerAI.Destination` | src/server/game_server.py:177-197 | a fleeing deer takes the first enterable flee candidate; a calm deer whose wander roll succeeds takes the first enterable shuffled step; one whose roll fails stays; it always ends on its own cell or an enterable one |
| `DeerAI.DeerUpdate` | src/server/game_server.py:160-180 | only deer k changes: its alert follows the plan, its cell is the destination of its plan and roll, its facing (always UP) and tier are kept, and the occupancy invariant is kept |
| `DeerAI.AlertBounded` | src/server/game_server.py:175 | with a hunter connected the alert lies in [0, 10·FRAME_RATE] after a tick |
| `DeerAI.DeerUpdateMovement` | src/server/game_server.py:177-234 | a fleeing deer never ends nearer to the hunter it flees; a walking one moves at most one cell, and not at all when the wander roll fails |
| `DeerAI.UpdateDeerFrom` | src/server/game_server.py:482 | ticking the deer in order keeps the roster's length, tiers and facings and the occupancy invariant, and changes nothing else in the world |
| `DeerAI.RosterFor` | src/server/game_server.py:346-361 | counts sum to DEER_COUNT; all blind iff level ≤ 5; levels 6..13 have medium = level − 5 and one super; levels ≥ 14 have no blind and super = level − 12 |
| `DeerAI.RosterMonotone` | src/server/game_server.py:350-361 | harder levels never have more blind deer nor fewer super deer |
| `DeerAI.DeerWave` | src/server/game_server.py:346-368 | fails iff the level is outside 1..20; else DEER_COUNT calm deer facing UP on consecutive spawn draws, blind then medium then super |
| `GameServer.Broadcast` | src/server/game_server.py:456-457 | one copy of the message per hunter, in roster order |
| `GameServer.Reset` | src/server/game_server.py:402-411 | fails on a level outside 1..20 or a map that cannot load; else it sets the level and map, resets every hunter onto draws 0..P−1, places the new wave on the next draws and empties the event queue |
| `GameServer.StartGame` | src/server/game_server.py:465-473 | after a successful reset the server is PLAYING, the clock restarts and every hunter is told `game_started` with the level |
| `GameServer.PumpOutsideSelection` | src/server/game_server.py:68-71 | outside LEVEL_SELECTION a pump only appends the received intents to the queue; level selections are ignored |
| `GameServer.SelectionStartsGame` | src/server/game_server.py:68-71 | in LEVEL_SELECTION a level selection starts the game on that level |
| `GameServer.IsLevelResetAllowed` | src/server/game_server.py:462-463 | a level may be selected exactly when the server is neither PLAYING nor FINISHED, i.e. in LEVEL_SELECTION |
| `GameServer.Pump` | src/server/game_server.py:60-71 | outside LEVEL_SELECTION a pump succeeds and keeps the phase and start time; a pump only ever stays in its phase or enters PLAYING; a game entered from LEVEL_SELECTION starts at the pump's time |
| `GameServer.PumpWithoutSelections` | src/server/game_server.py:60-71 | messages with no level selection among them, in any phase, only queue their move and picture intents in arrival order |
| `GameServer.HandleAll` | src/server/game_server.py:478 | every hunter handling the events changes only hunter records and keeps their ids |
| `GameServer.HandleAllPreservesValid` | src/server/game_server.py:478 | all hunters handling the events keeps the occupancy invariant |
| `GameServer.WorldStep` | src/server/game_server.py:476-484 | a tick empties the event queue and keeps the level, map, start time, roster sizes and hunter ids (what it applies: `WorldStepAppliesOwnMove`, `WorldStepWithoutEvents`) |
| `GameServer.HandleAllIgnored` | src/server/game_server.py:478 | hunters whose ids match no queued event leave the world and the outbox unchanged |
| `GameServer.HandleAllOneHunter` | src/server/game_server.py:478 | when every queued event is one hunter's and no other hunter shares its id, the pass over all hunters equals that hunter's own handling |
| `GameServer.HandleAllFrom` | src/server/game_server.py:478 | when the events are all hunter i's and its id is unique, handling from i on equals i's own handling |
| `GameServer.LaterHuntersIgnore` | src/server/game_server.py:478 | hunters after i that share no id with i leave an outcome unchanged |
| `GameServer.SingletonDedup` | src/core/event.py:14-24 | deduplicating a single event keeps it |
| `GameServer.HandleSingleMove` | src/server/game_server.py:85-93 | a hunter's single own move event applies that move and appends its acknowledgements |
| `GameServer.WorldStepAppliesOwnMove` | src/server/game_server.py:476-484 | when the only queued intent is a hunter's move, the tick's hunters and acknowledgements are those of that move, and the deer then advance in roster order on the moved world |
| `GameServer.WorldStepWithoutEvents` | src/server/game_server.py:476-484 | with no intents queued, a tick only advances every deer in roster order and sends nothing |
| `GameServer.Publish` | src/server/game_server.py:486-493 | the outbox gains the tick's acknowledgements, then one `state_update` per hunter with every sprite and the time left, start + GAME_DURATION − now |
| `GameServer.UpdatePreservesValid` | src/server/game_server.py:475-493 | a server tick keeps the occupancy invariant |
| `GameServer.Update` | src/server/game_server.py:475-493 | a tick keeps the phase, level, grid, start time and roster sizes, empties the event queue, and only appends to the outbox, at least one state update per hunter |
| `GameServer.SendScore` | src/server/game_server.py:459-460 | every hunter, in order, is sent its score; nothing else changes |
| `GameServer.RoundEndsOnTime` | src/server/game_server.py:500-507 | a playing round becomes FINISHED exactly on the pass whose clock reaches start + GAME_DURATION, else stays PLAYING |
| `GameServer.FinishSendsScores` | src/server/game_server.py:509-511 | a finished round sends each hunter the number of deer it photographed, or −1 if it photographed a hunter, and returns to LEVEL_SELECTION |
| `GameServer.NoLevelChangeWhilePlaying` | src/server/game_server.py:495-507 | while playing, a pass never changes the level, the map or the start time |
| `GameServer.RunIteration` | src/server/game_server.py:495-511 | a FINISHED pass returns to LEVEL_SELECTION; a PLAYING pass never returns to LEVEL_SELECTION; a pass ends in FINISHED only once the round's time is up |
| `GameServer.IdleSelection` | src/server/game_server.py:497-499 | a LEVEL_SELECTION pass without a level selection only queues the delivered intents and stays in LEVEL_SELECTION |
| `GameServer.SelectionFallsThrough` | src/server/game_server.py:497-507 | a game started by the LEVEL_SELECTION pump starts at the pass's time and, in the same pass, is pumped again and updated, staying PLAYING |
| `GameServer.InitialServer` | src/server/game_server.py:333-344 | a new server waits in LEVEL_SELECTION with level 10 loaded, no hunters, a wave of DEER_COUNT deer and empty queues |
| `GameServer.ResetValidWhenSpawnsDistinct` | src/server/game_server.py:402-411 | spawn draws that are distinct EMPTY cells give a world satisfying the occupancy invariant |
| `GameServer.ResetOccupants` | src/server/game_server.py:407-409 | after a reset, hunters then deer stand on spawn draws 0, 1, 2, … in order |
| `GameServer.ResetCanStackDeer` | src/server/game_map.py:68-80 | a draw stream that repeats one cell stacks the new wave on it, breaking the invariant |
| `Solo.HunterMove` | src/entity/player.py:51-62 | the move succeeds iff the target is in-grid and not TREE/ROCK, and then the hunter is there; otherwise it stays |
| `Solo.BushRayFrom` | src/entity/player.py:84-104 | the scanned cells are consecutive, in-grid and not TREE/ROCK; only the last may be a bush that stopped the scan, which ends at the range, at a blocked cell or at such a bush |
| `Solo.BushRayExact` | src/entity/player.py:84-104 | a cell is scanned iff it lies at distance 1..range with every cell up to it walkable and no earlier bush stopping the scan |
| `Solo.DeerAt` | src/entity/player.py:97-99 | the indices of exactly the deer on the cell |
| `Solo.DeerOnCells` | src/entity/player.py:96-99 | the indices of exactly the deer on some scanned cell |
| `Solo.TakePhoto` | src/entity/player.py:64-107 | a deer is returned iff it stands on a cell the photo scans |
| `Solo.AdjacentDeerPhotographed` | src/entity/player.py:101-104 | a deer on a walkable cell just ahead is photographed even when that cell is a bush that stops the scan |
| `Solo.SoloAlert` | src/entity/deer.py:26-35 | +2 when the hunter is nearer than 5, else −1, saturated at 0 and at 10; always within 0..10 |
| `Solo.SoloFleeMoves` | src/entity/deer.py:45-58 | four candidates ending with "stay put" |
| `Solo.FirstWalkable` | src/entity/deer.py:69-78 | the target of the first candidate, in list order, that is walkable; the current cell iff no candidate is |
| `Solo.SoloMove` | src/entity/deer.py:65-78 | after any shuffle the deer takes the first walkable candidate of the shuffled list, or stays when none is walkable |
| `Solo.FirstWalkableFrom` | src/entity/deer.py:69-78 | the index of the first walkable candidate from a position on; None iff none from there is walkable |
| `Solo.OpenUnitMoveTaken` | src/entity/deer.py:65-78 | when the candidates are unit steps and one is walkable, the deer moves exactly one cell, for every shuffle |
| `Solo.SoloWalkMovesIfOpen` | src/entity/deer.py:60-78 | a random walk with a walkable 4-neighbour moves exactly one cell |
| `Solo.SoloFleeMovesGoAway` | src/entity/deer.py:48-57 | every flee candidate but "stay put" increases the distance to the hunter |
| `Solo.SoloFleeNeverCloser` | src/entity/deer.py:45-58 | a fleeing deer either stays or ends farther from the hunter |
| `Solo.UnitMovesOneStep` | src/entity/deer.py:60-63 | moving along unit candidates goes to a 4-neighbour or nowhere |
| `Solo.SoloStepsAreUnit` | src/entity/deer.py:62 | the random-move candidates are unit steps |
| `Solo.SoloDeerUpdate` | src/entity/deer.py:23-43 | the alert follows the update rule; above 5 the deer takes the first walkable shuffled flee candidate and never ends nearer; otherwise, on a successful wander roll, the first walkable shuffled step, which is one cell away whenever a neighbour is walkable, and on a failed roll it stays |
| `Solo.SoloAlertStaysBounded` | src/entity/deer.py:34-35 | the alert stays within 0..10 over any run of ticks |
| `Solo.ThreeCloseTicksMakeFlee` | src/entity/deer.py:29-39 | a calm deer flees after three ticks with the hunter close (alert 6), not after two (alert 4) |
| `Prototype.PrototypeAlert` | 2d/main.py:127-133 | +2 when the hunter is nearer than 5, with no upper bound; otherwise −1 but not below 0; a calm alert stays ≥ 0 |
| `Prototype.PrototypeAgreesBelowCeiling` | 2d/main.py:124-141 | below the single-player ceiling the prototype and single-player alert rules agree |
| `Prototype.PrototypeAlertUnbounded` | 2d/main.py:130-131 | a hunter that stays close raises the prototype's alert by 2 per tick without bound |
| `Prototype.PrototypeAlertNonNegative` | 2d/main.py:132-133 | from a calm start the prototype's alert never goes negative |
| `Prototype.PrototypeDeerUpdate` | 2d/main.py:124-141 | above 5 the deer takes the first walkable shuffled flee candidate and never ends nearer; otherwise, on a successful wander roll, the first walkable shuffled step, which is one cell away whenever a neighbour is walkable, and on a failed roll it stays |
| `Prototype.ScorePhoto` | 2d/main.py:294-300 | a deer is marked after a photo iff it was marked or was photographed; the score grows exactly by the number of newly marked deer |
| `Prototype.ScoreCountsMarkedDeer` | 2d/main.py:297-300 | starting from a consistent tally, the score equals the number of marked deer |
| `Prototype.ScorePhotoIdempotent` | 2d/main.py:298 | photographing the same deer again scores nothing |
| `ScoreBook.Strip` | src/util/score_manager.py:90 | the result is a slice with only ASCII whitespace (space, \t, \n, \v, \f, \r, \x1c–\x1f) cut on either side, has no such character at its ends, and is empty iff the name is all such characters |
| `ScoreBook.StripIdempotent` | src/util/score_manager.py:159 | stripping twice equals stripping once |
| `ScoreBook.NormaliseName` | src/util/score_manager.py:157-159 | a set name is never empty nor padded; it is the stripped name, or "Player" when stripping leaves nothing |
| `ScoreBook.AddScoreName` | src/util/score_manager.py:86-90 | a missing name is the current one; an empty name becomes "Player"; any other is stripped |
| `ScoreBook.BlankNameRulesDiffer` | src/util/score_manager.py:86-90 | a name of blanks is stored as "" by `add_score` but becomes "Player" in `set_player_name` |
| `ScoreBook.NewEntry` | src/util/score_manager.py:8-14 | name, score and level are kept; a missing or empty date becomes the clock stamp; a non-negative time is kept and a negative one becomes 0 |
| `ScoreBook.FromDict` | src/util/score_manager.py:26-35 | missing keys default to 'Anonymous', 0, 1 and time 0; a non-negative time is kept and a negative one becomes 0; a missing or empty date becomes the clock stamp, any other date is kept |
| `ScoreBook.ToDict` | src/util/score_manager.py:16-24 | every one of the five keys is present and holds the entry's own field |
| `ScoreBook.DictRoundTrip` | src/util/score_manager.py:16-35 | `from_dict(to_dict(e))` gives back every field of an entry that has a date and a non-negative time |
| `ScoreBook.NewEntryRoundTrips` | src/util/score_manager.py:8-35 | every entry built at a non-empty clock stamp survives saving and reloading |
| `ScoreBook.Sort` | src/util/score_manager.py:104 | the result is a permutation of the list in which no entry ranks ahead of an earlier one under (−score, time) |
| `ScoreBook.SortFixesSorted` | src/util/score_manager.py:119-120 | sorting a list already in ranking order leaves it unchanged |
| `ScoreBook.SliceEnd` | src/util/score_manager.py:121 | `s[:n]` ends at min(n, len) for n ≥ 0 and at max(len + n, 0) for negative n |
| `ScoreBook.Top10` | src/util/score_manager.py:103-105 | exactly min(10, n) of the n entries, sorted, drawn from the list, all of them when there are at most 10, and no dropped entry ranks ahead of a kept one |
| `ScoreBook.TieAtCutDropped` | src/util/score_manager.py:104-105 | appending an entry that ranks ahead of none of the first ten of a sorted list leaves the top ten unchanged |
| `ScoreBook.AddScore` | src/util/score_manager.py:83-111 | the level's list becomes min(10, n) of the n entries of the old list plus the new entry, sorted, drawn from them, and none dropped ranks ahead of one kept; other levels and the current name are unchanged |
| `ScoreBook.AddScoreTieAtCut` | src/util/score_manager.py:101-105 | when a level holds ten or more sorted entries and the new one ranks ahead of none of the first ten, those ten are kept and the new one is dropped |
| `ScoreBook.GetHighScores` | src/util/score_manager.py:113-121 | [] for an unknown level; else a sorted selection of the level's entries, as long as the Python slice `[:limit]`, that no left-out entry ranks ahead of |
| `ScoreBook.HighScoresOfStoredTop` | src/util/score_manager.py:113-121 | a stored list that is sorted and at most ten long is exactly what `get_high_scores(level, 10)` returns |
| `ScoreBook.HighScoresAfterAdd` | src/util/score_manager.py:104-121 | after `add_score`, `get_high_scores(level, 10)` is exactly the stored list |
| `ScoreBook.BestOf` | src/util/score_manager.py:135-141 | the first entry of greatest score among the player's entries; None iff the player has none |
| `ScoreBook.GetPersonalBest` | src/util/score_manager.py:127-141 | None iff the player has no entry on the level; else one of the player's entries with no higher-scoring entry of theirs |
| `ScoreBook.MinScore` | src/util/score_manager.py:150 | the least score of the list, attained by one of its entries |
| `ScoreBook.IsHighScore` | src/util/score_manager.py:143-150 | true iff fewer than 10 scores are listed or the score beats some listed one |
| `ScoreBook.HighScoreWhenRoom` | src/util/score_manager.py:143-148 | with fewer than 10 entries, any score is a high score and `add_score` keeps it |
| `ScoreBook.HeadRanksFirst` | src/util/score_manager.py:119-121 | the first entry of the sorted list is ranked behind by no entry of the level |
| `ScoreBook.FirstBestAfterAppend` | src/util/score_manager.py:104 | appending an entry: it becomes the earliest best iff it ranks ahead of the current earliest best, else that one stays |
| `ScoreBook.SortHeadIsFirstBest` | src/util/score_manager.py:119-121 | the head of the stable sort is the earliest stored of the entries that nothing ranks ahead of |
| `ScoreBook.GetLevelRecord` | src/util/score_manager.py:152-155 | None iff the level has no entries; else the earliest stored of the level's entries that no entry ranks ahead of |
| `ScoreBook.SetPlayerName` | src/util/score_manager.py:157-159 | the current name becomes the normalised name and the lists are unchanged |
| `ScoreBook.NewBook` | src/util/score_manager.py:40-43 | a new manager holds the loaded scores and the default name "Player" |
| `ScoreBook.AddScoreUsesCurrentName` | src/util/score_manager.py:86-87 | a score added without a name is recorded under the name last set |
| `LevelScores.NatToString` | src/client/game.py:209 | a level's key is a non-empty string of decimal digits without a leading zero |
| `LevelScores.ParseNatToString` | src/client/game.py:230 | a key read back gives its level |
| `LevelScores.NatToStringInjective` | src/client/game.py:232-234 | distinct levels have distinct keys |
| `LevelScores.LoadScores` | src/client/game.py:211-218 | without a readable score file the table is empty; otherwise it is the file's table |
| `LevelScores.ResetScores` | src/client/game.py:206-209 | exactly the keys "1".."20", each mapped to 0 |
| `LevelScores.Get` | src/client/game.py:228-230 | fails for a level outside 1..20 or a key the table lacks; else the stored score |
| `LevelScores.Set` | src/client/game.py:232-234 | fails for a level outside 1..20; else the level's key holds the score and every other key is unchanged |
| `LevelScores.ResetReadsZero` | src/client/game.py:206-230 | a fresh table reads 0 on every valid level |
| `LevelScores.GetAfterSet` | src/client/game.py:228-234 | after `set(level, s)`, `get(level) == s` |
| `LevelScores.SetOthersUnchanged` | src/client/game.py:232-234 | setting one level leaves what every other level reads unchanged |
| `LevelScores.MissingFileBreaksScreen` | src/client/game.py:336-337 | without a score file `get(1)` fails; after one game over only the level just played can be read |
| `LevelScores.Lookup` | src/client/game.py:337 | the intended read: None exactly for a level the table lacks, else the stored score |
| `LevelScores.LookupTotalOnScreen` | src/client/game.py:332-337 | on every listed level the intended read succeeds, agrees with `get` where `get` succeeds and shows '-' where it fails |
| `LevelScores.RecordOnGameOverAsWritten` | src/client/game.py:599-601 | as written the game-over screen's score replaces the stored one |
| `LevelScores.GameOverCanLowerBest` | src/client/game.py:600 | a stored 7 followed by a round of 5 reads 5 |
| `LevelScores.RecordOnGameOver` | src/client/game.py:207 | the intended record keeps the larger of the stored and the new score and leaves other levels unchanged |
| `LevelScores.RecordNeverLowers` | src/client/game.py:207 | recording a round never lowers what the level reads |

## Left out

- Networking: PodSixNet channels, `Pump` and `Send` are left out. Delivered messages are an input list, and sent messages are an appended outbox of abstract records.
- `Connected`, `Close`, `add_player` and `remove_player` are left out. They are the connection lifecycle: a hunter joins on a spawn draw. A hunter that connects mid-round makes `Connected` fail: `Close` calls `remove_player` on a hunter that was never added, and its `del` raises KeyError (src/server/game_server.py:57-58, 439-454). The model's hunter roster is a plain sequence.
- Wall-clock time: `time.time()` floats and the pygame `Clock` become one integer reading per pass. The broadcast's `time_left` uses that same reading, not a second, later one.
- Randomness is modelled as oracle values, not as a generator: `random.random`, `shuffle`, `choice` and the `get_empty_tile` retry loop. The loop becomes a stream of draws. A stream with no EMPTY draw answers None, where the source would loop forever.
- `generate_random_map` (both copies) and the level data of `src/util/predefined_levels.py`: the level table is a parameter, and its well-formedness is a hypothesis (`LevelLoader.WellFormedLevels`).
- The level table's keys are assumed to be the consecutive numbers 1..n. A table with gaps is not modelled.
- The `Tile` enum's DEER and PLAYER members are left out. No map ever stores them.
- Parsing a direction from a client message (`MoveDirection(data['move_direction'].upper())`) is left out, including its ValueError. A move message already carries a direction.
- The server's `Player.update` and `Deer.handle_events` do nothing, and the unused copy of the deer list in `random_walk` has no effect. None of them is modelled.
- `LevelLoader.GetEmptyTile`: it assumes every draw is in-grid, as `randint`'s bounds ensure.
- `ScoreBook.Sort`: does not state that entries with equal keys keep their order. Python's sort is stable, and the insertion sort modelled is stable too, but the contract only promises a sorted permutation.
- `ScoreBook.Strip`: `str.strip` also removes non-ASCII whitespace, such as U+0085 and U+00A0. `IsSpace` knows only the ASCII whitespace characters that `str.strip` removes.
- `ScoreBook.Top10`: does not state which of several entries tied at the tenth place are kept. The stable sort keeps the earlier ones, and `AddScoreTieAtCut` states this only for a new entry tying with an already sorted list.
- `ScoreBook.AddScore`: beyond `AddScoreTieAtCut`, it does not state which tied entries survive the cut.
- src/util/config.py is not part of this model. `Solo` and `CoreMap` import `GRID_WIDTH` and `GRID_HEIGHT` from it. The model assumes it holds the 40 × 30 of src/core/config.py:6.
- `ScoreBook.GetPersonalBest`: states a greatest-score entry of the player, not that it is the first such entry (`BestOf` states the first).
- Time taken is a `real`. Floating point rounding, NaN and `float()` conversion errors are not modelled. `datetime.now()` is an opaque clock-stamp string parameter.
- File I/O is left out: `_load_scores` and `_save_scores`, and `Scores.load_scores` and `save_scores`. A loaded table is an input (`LevelScores.LoadScores` for the file's presence), and saving is not modelled. The legacy single-score file format is left out.
- `get_all_high_scores` and `get_player_name` only return the stored state and are not modelled.
- Rendering, sounds, UI states and the Panda3D prototype are left out. The only UI code considered is the high-score screen's read of each level (src/client/game.py:332-337), which matters for a finding below.
- Position equality (src/core/type.py:56-58) is the datatype's structural equality and needs no model of its own.

## Findings

| source | as written | input that shows it | evidently intended | confidence | as-written member | corrected member |
|---|---|---|---|---|---|---|
| src/core/type.py:21-23 | `Direction + Direction` returns the component-wise product | `Direction(1, 0) + Direction(1, 0)` gives `Direction(1, 0)`, though two steps right move two cells | the component-wise sum, so that adding displacements composes translations | medium (no modelled caller uses the operator), not executed | `Geometry.DirectionAddAsWrittenBreaksTranslation` | `Geometry.TranslateBySum` |
| src/client/game.py:600 | the game-over screen writes the round's score over the level's stored score | level 1 stores 7, then a round on level 1 scores 5: the table reads 5 | keep the highest score, as the table's own comment at line 207 says | medium, not executed | `LevelScores.GameOverCanLowerBest` | `LevelScores.RecordNeverLowers` |
| src/client/game.py:336 | the high-score screen reads every level with `get`, which raises KeyError for a missing key | no score file: `load_scores` leaves the table empty and `get(1)` fails; after one game over on level 3, `get(1)` still fails | read with a default, as the `None` check at line 337 expects, showing '-' for a missing level | high, not executed | `LevelScores.MissingFileBreaksScreen` | `LevelScores.LookupTotalOnScreen` |

=== FILE: config.dfy ===
/** The load-time constants of the game (GameConfig). */
module Config {
  const MinLevel: int := 1
  const MaxLevel: int := 20

  const GridWidth: int := 40
  const GridHeight: int := 30

  /** Server ticks per second. */
  const FrameRate: int := 10

  const DeerCount: int := 10
  const PhotoRange: int := 10

  /** Length of one round, in seconds. */
  const GameDuration: int := 60

  predicate ValidLevel(level: int) { MinLevel <= level <= MaxLevel }
}

=== FILE: core_map.dfy ===
/**
 * The single-player map (GameMap with GridType cells): a lenient loader that
 * skips out-of-grid characters and reads every unknown character as EMPTY,
 * and `get_cell`, which answers None outside the grid.
 */
module CoreMap {
  import opened Wrappers
  import opened Config
  import opened Geometry
  import opened Terrain
  import opened LevelLoader

  /** The lenient character decoding: T, R and B are obstacles, anything else is EMPTY. */
  function LenientTile(c: char): (t: Tile)
    ensures t == Tree <==> c == 'T'
    ensures t == Rock <==> c == 'R'
    ensures t == Bush <==> c == 'B'
  {
    match c
    case 'T' => Tree
    case 'R' => Rock
    case 'B' => Bush
    case _ => Empty
  }

  /** The tile at (i, j) once every character before (x, y) in row-major order has been read. */
  function PartlyGenerated(layout: Layout, y: int, x: int, i: int, j: int): Tile
  {
    if (j < y || (j == y && i < x)) && Covers(layout, i, j) then LenientTile(layout[j][i]) else Empty
  }

  /**
   * `generate_predefined_map`: clears the grid, picks the layout (falling back to the highest
   * level), and writes the tile of every in-grid character. The only failure is an empty
   * level table (`max()` of no keys).
   */
  method GeneratePredefinedMap(levels: Levels, level: int) returns (r: Option<Grid>)
    ensures r.None? <==> |levels| == 0
    ensures r.Some? ==> forall x, y :: 0 <= x < GridWidth && 0 <= y < GridHeight ==>
              var layout := SelectLayout(levels, level).value;
              r.value[x][y] == (if Covers(layout, x, y) then LenientTile(layout[y][x]) else Empty)
  {
    var grid: Grid := EmptyGrid();
    if |levels| == 0 {
      return None;
    }
    var layout := SelectLayout(levels, level).value;
    var y := 0;
    while y < |layout|
      invariant 0 <= y <= |layout|
      invariant forall i, j :: 0 <= i < GridWidth && 0 <= j < GridHeight ==>
                  grid[i][j] == PartlyGenerated(layout, y, 0, i, j)
    {
      var row := layout[y];
      var x := 0;
      while x < |row|
        invariant 0 <= x <= |row|
        invariant forall i, j :: 0 <= i < GridWidth && 0 <= j < GridHeight ==>
                    grid[i][j] == PartlyGenerated(layout, y, x, i, j)
      {
        if 0 <= x < GridWidth && 0 <= y < GridHeight {
          grid := SetTile(grid, x, y, LenientTile(row[x]));
        }
        x := x + 1;
      }
      y := y + 1;
    }
    return Some(grid);
  }

  /** `get_cell`: the tile of an in-grid cell, None elsewhere. */
  function GetCell(g: Grid, x: int, y: int): (r: Option<Tile>)
    ensures r.None? <==> !InGrid(Position(x, y))
    ensures r.Some? ==> r.value == g[x][y]
  {
    if 0 <= x < GridWidth && 0 <= y < GridHeight then Some(g[x][y]) else None
  }

  /** An obstacle check through `get_cell`: only an in-grid TREE or ROCK blocks movement. */
  predicate BlocksMovement(g: Grid, x: int, y: int)
  {
    var c := GetCell(g, x, y);
    c.Some? && Impassable(c.value)
  }
}

=== FILE: deer_ai.dfy ===
/**
 * The server's deer behaviour: perception (nearest hunter, hunter in direct sight),
 * the alert state machine, random walking and fleeing, and the per-level roster.
 * Randomness arrives as a `DeerRoll` drawn for each deer on each tick.
 */
module DeerAI {
  import opened Wrappers
  import opened Config
  import opened Geometry
  import opened Terrain
  import opened Shuffle
  import opened MathUtil
  import opened World

  /** (smell distance, visual distance, alert threshold) of each tier. */
  function SmellDistance(t: Tier): (r: nat)
    ensures 5 <= r <= 6 && (r == 5 <==> t == Blind)
  {
    match t
    case Blind => 5
    case Medium => 6
    case Super => 6
  }

  function VisualDistance(t: Tier): (r: nat)
    ensures r == SmellDistance(t) + 2
  {
    match t
    case Blind => 7
    case Medium => 8
    case Super => 8
  }

  function AlertThreshold(t: Tier): (r: nat)
    ensures r == 30 <==> t == Super
    ensures t != Super ==> r == 40
  {
    match t
    case Blind => 40
    case Medium => 40
    case Super => 30
  }

  /** The ceiling `clamp` keeps the alert level under: ten seconds of frames. */
  const MaxAlert: int := 10 * FrameRate

  /**
   * One tick's random draws for one deer: whether `random.random() < 0.25` lets it wander,
   * the rank of the shuffle of its four steps, and the `random.choice([-1, 1])` of `sign(0)`
   * for each axis (true meaning +1).
   */
  datatype DeerRoll = DeerRoll(wander: bool, shuffle: nat, tieX: bool, tieY: bool)

  // ---------------------------------------------------------------- perception

  function PlayerDistance(players: seq<Player>, from: Position, j: nat): nat
    requires j < |players|
  {
    Manhattan(from, players[j].pos)
  }

  /**
   * `_get_nearest_player` over the first n hunters: the first hunter of least distance,
   * since a later hunter replaces the current choice only when strictly nearer.
   */
  function NearestAmong(players: seq<Player>, from: Position, n: nat): (r: Option<nat>)
    requires n <= |players|
    ensures r.None? <==> n == 0
    ensures r.Some? ==> r.value < n
    ensures r.Some? ==> forall j :: 0 <= j < n ==>
              PlayerDistance(players, from, r.value) <= PlayerDistance(players, from, j)
    ensures r.Some? ==> forall j :: 0 <= j < r.value ==>
              PlayerDistance(players, from, r.value) < PlayerDistance(players, from, j)
  {
    if n == 0 then None
    else
      var best := NearestAmong(players, from, n - 1);
      if best.None? then Some(n - 1)
      else if PlayerDistance(players, from, n - 1) < PlayerDistance(players, from, best.value) then Some(n - 1)
      else best
  }

  function NearestPlayer(players: seq<Player>, from: Position): (r: Option<nat>)
    ensures r.None? <==> |players| == 0
    ensures r.Some? ==> r.value < |players|
  {
    NearestAmong(players, from, |players|)
  }

  /** The first hunter, in roster order, standing on cell c. */
  function FirstPlayerAt(players: seq<Player>, c: Position, from: nat): (r: Option<nat>)
    requires from <= |players|
    ensures r.Some? ==> from <= r.value < |players| && players[r.value].pos == c
    ensures r.Some? ==> forall j :: from <= j < r.value ==> players[j].pos != c
    ensures r.None? <==> forall j :: from <= j < |players| ==> players[j].pos != c
    decreases |players| - from
  {
    if from == |players| then None
    else if players[from].pos == c then Some(from)
    else FirstPlayerAt(players, c, from + 1)
  }

  /** The hunter seen first along the scanned cells: nearest cell first, then roster order. */
  function FirstSeen(players: seq<Player>, cells: seq<Position>): (r: Option<nat>)
    ensures r.Some? ==> r.value < |players|
    ensures r.Some? ==> exists k :: 0 <= k < |cells| && players[r.value].pos == cells[k] &&
                          forall m, j :: 0 <= m < k && 0 <= j < |players| ==> players[j].pos != cells[m]
    ensures r.None? <==> forall j :: 0 <= j < |players| ==> players[j].pos !in cells
  {
    if |cells| == 0 then None
    else
      var here := FirstPlayerAt(players, cells[0], 0);
      if here.Some? then here
      else
        var r := FirstSeen(players, cells[1..]);
        assert forall k :: 1 <= k < |cells| ==> cells[k] == cells[1..][k - 1];
        assert cells == [cells[0]] + cells[1..];
        r
  }

  /** `_get_any_player_in_direct_sight`: looks along the deer's facing up to its visual distance. */
  function PlayerInSight(ctx: Context, k: nat): (r: Option<nat>)
    requires k < |ctx.deer|
    ensures r.Some? ==> r.value < |ctx.players|
    ensures var d := ctx.deer[k];
            r.None? <==> forall j :: 0 <= j < |ctx.players| ==>
              ctx.players[j].pos !in Ray(ctx.grid, d.pos, Unit(d.facing), VisualDistance(d.tier))
  {
    var d := ctx.deer[k];
    FirstSeen(ctx.players, Ray(ctx.grid, d.pos, Unit(d.facing), VisualDistance(d.tier)))
  }

  // ---------------------------------------------------------------- alert

  /** What a deer perceives on one tick. */
  datatype Stimulus = NoPlayers | InSight | Smelled | Unnoticed

  function Perceive(ctx: Context, k: nat): (s: Stimulus)
    requires k < |ctx.deer|
    ensures s == NoPlayers <==> |ctx.players| == 0
    ensures s == InSight <==> PlayerInSight(ctx, k).Some?
    ensures s == Smelled ==> var near := NearestPlayer(ctx.players, ctx.deer[k].pos);
              near.Some? && PlayerDistance(ctx.players, ctx.deer[k].pos, near.value) < SmellDistance(ctx.deer[k].tier)
    ensures |ctx.players| > 0 && PlayerInSight(ctx, k).None? ==>
              var near := NearestPlayer(ctx.players, ctx.deer[k].pos).value;
              (s == Smelled <==> PlayerDistance(ctx.players, ctx.deer[k].pos, near) < SmellDistance(ctx.deer[k].tier))
  {
    var d := ctx.deer[k];
    var near := NearestPlayer(ctx.players, d.pos);
    var sight := PlayerInSight(ctx, k);
    if near.None? && sight.None? then NoPlayers
    else if sight.Some? then InSight
    else if PlayerDistance(ctx.players, d.pos, near.value) < SmellDistance(d.tier) then Smelled
    else Unnoticed
  }

  /** The alert update of `Deer.update`: +4 in sight, +2 smelled, -1 otherwise, clamped to [0, MaxAlert]
      whenever a hunter is connected; with nobody connected it only decrements, unclamped. */
  function NextAlert(alert: int, s: Stimulus): (r: int)
    ensures s == NoPlayers ==> r == alert - 1
    ensures s != NoPlayers ==> 0 <= r <= MaxAlert
    ensures s == InSight ==> r == (if alert + 4 >= MaxAlert then MaxAlert else if alert + 4 <= 0 then 0 else alert + 4)
    ensures s == Smelled ==> r == (if alert + 2 >= MaxAlert then MaxAlert else if alert + 2 <= 0 then 0 else alert + 2)
    ensures s == Unnoticed ==> r == (if alert - 1 >= MaxAlert then MaxAlert else if alert - 1 <= 0 then 0 else alert - 1)
  {
    match s
    case NoPlayers => alert - 1
    case InSight => Clip(alert + 4, 0, MaxAlert)
    case Smelled => Clip(alert + 2, 0, MaxAlert)
    case Unnoticed => Clip(alert - 1, 0, MaxAlert)
  }

  /** The alert after n ticks of the same stimulus. */
  function AlertAfter(alert: int, s: Stimulus, n: nat): int
  {
    if n == 0 then alert else NextAlert(AlertAfter(alert, s, n - 1), s)
  }

  /** A deer that keeps seeing a hunter goes up by four per tick until the ceiling. */
  lemma {:induction false} SightRaisesAlert(n: nat)
    ensures AlertAfter(0, InSight, n) == if 4 * n <= MaxAlert then 4 * n else MaxAlert
  {
    if n > 0 {
      SightRaisesAlert(n - 1);
    }
  }

  /** A deer that keeps smelling a hunter goes up by two per tick until the ceiling. */
  lemma {:induction false} SmellRaisesAlert(n: nat)
    ensures AlertAfter(0, Smelled, n) == if 2 * n <= MaxAlert then 2 * n else MaxAlert
  {
    if n > 0 {
      SmellRaisesAlert(n - 1);
    }
  }

  /** Unnoticed, a deer calms down one step per tick and never below zero. */
  lemma {:induction false} UnnoticedCalms(alert: int, n: nat)
    requires 0 <= alert <= MaxAlert
    ensures AlertAfter(alert, Unnoticed, n) == if alert >= n then alert - n else 0
  {
    if n > 0 {
      UnnoticedCalms(alert, n - 1);
    }
  }

  /** With nobody connected the alert level keeps falling, below zero: nothing clamps it. */
  lemma {:induction false} EmptyServerAlertFalls(alert: int, n: nat)
    ensures AlertAfter(alert, NoPlayers, n) == alert - n
  {
    if n > 0 {
      EmptyServerAlertFalls(alert, n - 1);
    }
  }

  /** Ten ticks in sight make every tier flee; a super deer needs only eight. */
  lemma SightMakesFlee()
    ensures AlertAfter(0, InSight, 10) >= AlertThreshold(Blind)
    ensures AlertAfter(0, InSight, 10) >= AlertThreshold(Medium)
    ensures AlertAfter(0, InSight, 8) >= AlertThreshold(Super)
    ensures AlertAfter(0, InSight, 7) < AlertThreshold(Super)
  {
    SightRaisesAlert(10);
    SightRaisesAlert(8);
    SightRaisesAlert(7);
  }

  // ---------------------------------------------------------------- moving

  /** The four steps of a random walk before shuffling. */
  const Steps: seq<Direction> := [Direction(0, -1), Direction(0, 1), Direction(-1, 0), Direction(1, 0)]

  lemma StepsAreUnit()
    ensures forall x :: x in Steps ==> Distance(x) == 1
  {
  }

  /** `random.shuffle(possible_moves)` under the rank oracle. */
  function WalkMoves(rank: nat): (r: seq<Direction>)
    ensures |r| == 4 && forall j :: 0 <= j < 4 ==> Distance(r[j]) == 1
  {
    var r := Unrank(Steps, rank);
    UnrankKeepsElements(Steps, rank);
    StepsAreUnit();
    r
  }

  /** `sign` with the coin for zero: true gives +1. */
  function Sign(v: int, tie: bool): (r: int)
    ensures r == 1 || r == -1
    ensures v > 0 ==> r == 1
    ensures v < 0 ==> r == -1
  {
    if v < 0 then -1 else if v > 0 then 1 else if tie then 1 else -1
  }

  /** `flee_from`'s candidates: horizontally away, vertically away, diagonally away, stay put. */
  function FleeMoves(from: Position, threat: Position, tieX: bool, tieY: bool): (r: seq<Direction>)
    ensures |r| == 4 && r[3] == Direction(0, 0)
  {
    var dx := Sign(threat.x - from.x, tieX);
    var dy := Sign(threat.y - from.y, tieY);
    [Direction(-dx, 0), Direction(0, -dy), Direction(-dx, -dy), Direction(0, 0)]
  }

  /** The first candidate, from index `from` on, whose target can be entered. */
  function FirstEnterable(ctx: Context, at: Position, moves: seq<Direction>, from: nat): (r: Option<nat>)
    requires from <= |moves|
    ensures r.Some? ==> from <= r.value < |moves| && CanEnter(ctx, Add(at, moves[r.value]))
    ensures r.Some? ==> forall j :: from <= j < r.value ==> !CanEnter(ctx, Add(at, moves[j]))
    ensures r.None? <==> forall j :: from <= j < |moves| ==> !CanEnter(ctx, Add(at, moves[j]))
    decreases |moves| - from
  {
    if from == |moves| then None
    else if CanEnter(ctx, Add(at, moves[from])) then Some(from)
    else FirstEnterable(ctx, at, moves, from + 1)
  }

  /**
   * p is the cell the first enterable candidate leads to, or `at` when no candidate can be entered
   * (for a deer's own cell, which is never enterable, the two cases are told apart by p == at).
   */
  predicate FirstEnterableCell(ctx: Context, at: Position, moves: seq<Direction>, p: Position)
  {
    && (p == at <==> forall j :: 0 <= j < |moves| ==> !CanEnter(ctx, Add(at, moves[j])))
    && (p != at ==> exists j :: 0 <= j < |moves| && p == Add(at, moves[j]) && CanEnter(ctx, p) &&
                      forall i :: 0 <= i < j ==> !CanEnter(ctx, Add(at, moves[i])))
  }

  /** `move_with_possible_directions`: the cell of the first candidate that can be entered, else where the deer stands. */
  function MoveTarget(ctx: Context, k: nat, moves: seq<Direction>): (p: Position)
    requires k < |ctx.deer|
    ensures p == ctx.deer[k].pos || CanEnter(ctx, p)
    ensures p == ctx.deer[k].pos || exists j :: 0 <= j < |moves| && p == Add(ctx.deer[k].pos, moves[j])
    ensures FirstEnterableCell(ctx, ctx.deer[k].pos, moves, p)
  {
    var at := ctx.deer[k].pos;
    var pick := FirstEnterable(ctx, at, moves, 0);
    assert IsDeerAt(ctx, at);
    if pick.None? then at
    else
      Add(at, moves[pick.value])
  }

  /** The deer's own cell is never enterable, so the "stay put" candidate is never chosen. */
  lemma StayPutNeverChosen(ctx: Context, k: nat)
    requires k < |ctx.deer|
    ensures !CanEnter(ctx, Add(ctx.deer[k].pos, Direction(0, 0)))
  {
    assert IsDeerAt(ctx, ctx.deer[k].pos);
  }

  /** Stepping against the sign of the threat's offset on one axis widens the gap on that axis by one. */
  lemma AwayOnAxis(a: int, t: int, tie: bool)
    ensures Abs(a - Sign(t - a, tie) - t) == Abs(a - t) + 1
  {
  }

  /** Every flee candidate except "stay put" strictly increases the distance to the threat. */
  lemma FleeMovesGoAway(from: Position, threat: Position, tieX: bool, tieY: bool, j: nat)
    requires j < 3
    ensures Manhattan(Add(from, FleeMoves(from, threat, tieX, tieY)[j]), threat) > Manhattan(from, threat)
  {
    var dx := Sign(threat.x - from.x, tieX);
    var dy := Sign(threat.y - from.y, tieY);
    AwayOnAxis(from.x, threat.x, tieX);
    AwayOnAxis(from.y, threat.y, tieY);
    var d := FleeMoves(from, threat, tieX, tieY)[j];
    assert (d.x == 0 || d.x == -dx) && (d.y == 0 || d.y == -dy) && (d.x != 0 || d.y != 0);
    ManhattanAfter(from, d, threat);
  }

  /** The distance to the threat after a displacement, axis by axis. */
  lemma ManhattanAfter(from: Position, d: Direction, threat: Position)
    ensures Manhattan(Add(from, d), threat) == Abs(from.x + d.x - threat.x) + Abs(from.y + d.y - threat.y)
    ensures Manhattan(from, threat) == Abs(from.x - threat.x) + Abs(from.y - threat.y)
  {
  }

  /** A fleeing deer that moves ends up strictly farther from the hunter it flees. */
  lemma FleeIncreasesDistance(ctx: Context, k: nat, threat: Position, tieX: bool, tieY: bool)
    requires k < |ctx.deer|
    ensures var p := MoveTarget(ctx, k, FleeMoves(ctx.deer[k].pos, threat, tieX, tieY));
            p == ctx.deer[k].pos || Manhattan(p, threat) > Manhattan(ctx.deer[k].pos, threat)
  {
    var at := ctx.deer[k].pos;
    var moves := FleeMoves(at, threat, tieX, tieY);
    var pick := FirstEnterable(ctx, at, moves, 0);
    if pick.Some? {
      StayPutNeverChosen(ctx, k);
      FleeMovesGoAway(at, threat, tieX, tieY, pick.value);
    }
  }

  /** A random step moves the deer to a 4-neighbour or nowhere. */
  lemma WalkIsOneStep(ctx: Context, k: nat, rank: nat)
    requires k < |ctx.deer|
    ensures var p := MoveTarget(ctx, k, WalkMoves(rank));
            p == ctx.deer[k].pos || Manhattan(p, ctx.deer[k].pos) == 1
  {
    var p := MoveTarget(ctx, k, WalkMoves(rank));
    if p != ctx.deer[k].pos {
      var j :| 0 <= j < 4 && p == Add(ctx.deer[k].pos, WalkMoves(rank)[j]);
      SubUndoesAdd(ctx.deer[k].pos, WalkMoves(rank)[j]);
    }
  }

  /** Relocating deer k to its own cell or to an enterable one keeps the occupancy invariant. */
  lemma RelocatePreservesValid(ctx: Context, k: nat, d: Deer)
    requires k < |ctx.deer| && Valid(ctx)
    requires d.pos == ctx.deer[k].pos || CanEnter(ctx, d.pos)
    ensures Valid(ctx.(deer := ctx.deer[k := d]))
  {
    var r := ctx.(deer := ctx.deer[k := d]);
    assert PlayerCells(r.players) == PlayerCells(ctx.players);
    assert DeerCells(r.deer) == DeerCells(ctx.deer)[k := d.pos];
    assert Occupants(r) == Occupants(ctx)[|ctx.players| + k := d.pos];
    if d.pos == ctx.deer[k].pos {
      assert Occupants(r) == Occupants(ctx);
    } else {
      EnterableIsFree(ctx, d.pos);
      DistinctUpdate(Occupants(ctx), |ctx.players| + k, d.pos);
    }
  }

  // ---------------------------------------------------------------- update

  /** The alert level and the threat to flee, if any, that one tick decides. */
  datatype Plan = Plan(alert: int, flee: Option<Position>)

  function PlanFor(ctx: Context, k: nat): (r: Plan)
    requires k < |ctx.deer|
    ensures r.alert == NextAlert(ctx.deer[k].alert, Perceive(ctx, k))
    ensures r.flee.Some? <==> |ctx.players| > 0 && r.alert >= AlertThreshold(ctx.deer[k].tier)
    ensures r.flee.Some? ==> var near := NearestPlayer(ctx.players, ctx.deer[k].pos);
              near.Some? && r.flee.value == ctx.players[near.value].pos
  {
    var d := ctx.deer[k];
    var s := Perceive(ctx, k);
    var a := NextAlert(d.alert, s);
    if s == NoPlayers || a < AlertThreshold(d.tier) then Plan(a, None)
    else Plan(a, Some(ctx.players[NearestPlayer(ctx.players, d.pos).value].pos))
  }

  /** Where deer k goes under a plan: flee the threat, wander if the roll says so, or stay. */
  function Destination(ctx: Context, k: nat, plan: Plan, roll: DeerRoll): (p: Position)
    requires k < |ctx.deer|
    ensures p == ctx.deer[k].pos || CanEnter(ctx, p)
    ensures plan.flee.Some? ==>
              FirstEnterableCell(ctx, ctx.deer[k].pos, FleeMoves(ctx.deer[k].pos, plan.flee.value, roll.tieX, roll.tieY), p)
    ensures plan.flee.None? && roll.wander ==> FirstEnterableCell(ctx, ctx.deer[k].pos, WalkMoves(roll.shuffle), p)
    ensures plan.flee.None? && !roll.wander ==> p == ctx.deer[k].pos
  {
    match plan.flee
    case Some(threat) => MoveTarget(ctx, k, FleeMoves(ctx.deer[k].pos, threat, roll.tieX, roll.tieY))
    case None => if roll.wander then MoveTarget(ctx, k, WalkMoves(roll.shuffle)) else ctx.deer[k].pos
  }

  /** `Deer.update`: perceive, update the alert level, then flee or wander (the alert level plays no part in where it can go). */
  function DeerUpdate(ctx: Context, k: nat, roll: DeerRoll): (r: Context)
    requires k < |ctx.deer|
    ensures |r.deer| == |ctx.deer| && r == ctx.(deer := r.deer)
    ensures forall j :: 0 <= j < |ctx.deer| && j != k ==> r.deer[j] == ctx.deer[j]
    ensures var d := ctx.deer[k];
            && r.deer[k].facing == d.facing && r.deer[k].tier == d.tier
            && r.deer[k].alert == PlanFor(ctx, k).alert
            && (r.deer[k].pos == d.pos || CanEnter(ctx, r.deer[k].pos))
    ensures r.deer[k].pos == Destination(ctx, k, PlanFor(ctx, k), roll)
    ensures Valid(ctx) ==> Valid(r)
  {
    var d := ctx.deer[k];
    var plan := PlanFor(ctx, k);
    var moved := d.(pos := Destination(ctx, k, plan, roll), alert := plan.alert);
    if Valid(ctx) then
      RelocatePreservesValid(ctx, k, moved);
      ctx.(deer := ctx.deer[k := moved])
    else
      ctx.(deer := ctx.deer[k := moved])
  }

  /** With a hunter connected the alert level always lies in [0, MaxAlert] after a tick. */
  lemma AlertBounded(ctx: Context, k: nat, roll: DeerRoll)
    requires k < |ctx.deer| && |ctx.players| > 0
    ensures 0 <= DeerUpdate(ctx, k, roll).deer[k].alert <= MaxAlert
  {
  }

  /** A deer that flees never ends nearer to the nearest hunter; a wandering one moves at most one cell. */
  lemma DeerUpdateMovement(ctx: Context, k: nat, roll: DeerRoll)
    requires k < |ctx.deer|
    ensures var d := ctx.deer[k]; var plan := PlanFor(ctx, k); var p := DeerUpdate(ctx, k, roll).deer[k].pos;
            && (plan.flee.Some? ==> p == d.pos || Manhattan(p, plan.flee.value) > Manhattan(d.pos, plan.flee.value))
            && (plan.flee.None? ==> p == d.pos || Manhattan(p, d.pos) == 1)
            && (plan.flee.None? && !roll.wander ==> p == d.pos)
  {
    var plan := PlanFor(ctx, k);
    if plan.flee.Some? {
      FleeIncreasesDistance(ctx, k, plan.flee.value, roll.tieX, roll.tieY);
    } else if roll.wander {
      WalkIsOneStep(ctx, k, roll.shuffle);
    }
  }

  /** A fleeing deer with one of its three moving candidates open does move, and away from the threat. */
  lemma FleeingDeerMoves(ctx: Context, k: nat, roll: DeerRoll, j: nat)
    requires k < |ctx.deer| && PlanFor(ctx, k).flee.Some? && j < 3
    requires var at := ctx.deer[k].pos;
             CanEnter(ctx, Add(at, FleeMoves(at, PlanFor(ctx, k).flee.value, roll.tieX, roll.tieY)[j]))
    ensures var at := ctx.deer[k].pos; var threat := PlanFor(ctx, k).flee.value;
            var p := DeerUpdate(ctx, k, roll).deer[k].pos;
            p != at && Manhattan(p, threat) > Manhattan(at, threat)
  {
    var at := ctx.deer[k].pos;
    var threat := PlanFor(ctx, k).flee.value;
    var moves := FleeMoves(at, threat, roll.tieX, roll.tieY);
    assert !forall i :: 0 <= i < |moves| ==> !CanEnter(ctx, Add(at, moves[i]));
    FleeIncreasesDistance(ctx, k, threat, roll.tieX, roll.tieY);
  }

  /** A deer with some enterable candidate does leave its cell. */
  lemma OpenCandidateMoves(ctx: Context, k: nat, moves: seq<Direction>, x: Direction)
    requires k < |ctx.deer| && x in moves && CanEnter(ctx, Add(ctx.deer[k].pos, x))
    ensures MoveTarget(ctx, k, moves) != ctx.deer[k].pos
  {
    var i :| 0 <= i < |moves| && moves[i] == x;
    assert CanEnter(ctx, Add(ctx.deer[k].pos, moves[i]));
  }

  /** A walk with an open 4-neighbour among the steps ends on a 4-neighbour. */
  lemma WalkWithOpenNeighbour(ctx: Context, k: nat, rank: nat, j: nat)
    requires k < |ctx.deer| && j < 4 && CanEnter(ctx, Add(ctx.deer[k].pos, Steps[j]))
    ensures var p := MoveTarget(ctx, k, WalkMoves(rank));
            p != ctx.deer[k].pos && Manhattan(p, ctx.deer[k].pos) == 1
  {
    UnrankSameElements(Steps, rank, Steps[j]);
    OpenCandidateMoves(ctx, k, WalkMoves(rank), Steps[j]);
    WalkIsOneStep(ctx, k, rank);
  }

  /** A wandering deer with an open 4-neighbour does move, by exactly one cell. */
  lemma WanderingDeerMoves(ctx: Context, k: nat, roll: DeerRoll, j: nat)
    requires k < |ctx.deer| && PlanFor(ctx, k).flee.None? && roll.wander && j < 4
    requires CanEnter(ctx, Add(ctx.deer[k].pos, Steps[j]))
    ensures var p := DeerUpdate(ctx, k, roll).deer[k].pos;
            p != ctx.deer[k].pos && Manhattan(p, ctx.deer[k].pos) == 1
  {
    WalkWithOpenNeighbour(ctx, k, roll.shuffle, j);
  }

  /** `[deer.update(...) for deer in context.deer]`: the deer move one after another from index k on. */
  function UpdateDeerFrom(ctx: Context, k: nat, rolls: nat -> DeerRoll): (r: Context)
    requires k <= |ctx.deer|
    ensures |r.deer| == |ctx.deer| && r == ctx.(deer := r.deer)
    ensures forall j :: 0 <= j < k ==> r.deer[j] == ctx.deer[j]
    ensures forall j :: 0 <= j < |ctx.deer| ==> r.deer[j].tier == ctx.deer[j].tier && r.deer[j].facing == ctx.deer[j].facing
    ensures Valid(ctx) ==> Valid(r)
    decreases |ctx.deer| - k
  {
    if k == |ctx.deer| then ctx
    else UpdateDeerFrom(DeerUpdate(ctx, k, rolls(k)), k + 1, rolls)
  }

  // ---------------------------------------------------------------- roster

  datatype Roster = Roster(blind: nat, medium: nat, super: nat)

  /** `_generate_deer_wave`'s tier counts for a level. */
  function RosterFor(level: int): (r: Roster)
    requires ValidLevel(level)
    ensures r.blind + r.medium + r.super == DeerCount
    ensures level <= 5 <==> r.super == 0 && r.medium == 0
    ensures 6 <= level <= 13 ==> r.super == 1 && r.medium == level - 5
    ensures level >= 14 ==> r.blind == 0 && r.super == level - 12
  {
    if level <= 5 then Roster(DeerCount, 0, 0)
    else if level <= 13 then Roster(DeerCount - (level - 5) - 1, level - 5, 1)
    else Roster(0, DeerCount - (level - 12), level - 12)
  }

  /** Harder levels never have more blind deer nor fewer super deer. */
  lemma RosterMonotone(a: int, b: int)
    requires ValidLevel(a) && ValidLevel(b) && a <= b
    ensures RosterFor(b).blind <= RosterFor(a).blind
    ensures RosterFor(a).super <= RosterFor(b).super
  {
  }

  /** The tier of the k-th deer of a wave: blind ones first, then medium, then super. */
  function TierAt(r: Roster, k: nat): Tier
  {
    if k < r.blind then Blind else if k < r.blind + r.medium then Medium else Super
  }

  /**
   * `_generate_deer_wave`: the level's roster, each deer placed on the next spawn draw
   * (draws `first`, `first + 1`, ...), facing UP and calm. Out-of-range levels fail the assertion.
   */
  function DeerWave(level: int, spawn: nat -> Position, first: nat): (r: Option<seq<Deer>>)
    ensures r.Some? <==> ValidLevel(level)
    ensures r.Some? ==> |r.value| == DeerCount
    ensures r.Some? ==> forall k :: 0 <= k < |r.value| ==>
              r.value[k] == Deer(spawn(first + k), Up, 0, TierAt(RosterFor(level), k))
  {
    if !ValidLevel(level) then None
    else
      var roster := RosterFor(level);
      Some(seq(DeerCount, k requires 0 <= k < DeerCount => Deer(spawn(first + k), Up, 0, TierAt(roster, k))))
  }
}

=== FILE: events.dfy ===
/**
 * Client events: one intent of one player, and the per-tick deduplication
 * that keeps only each player's first event.
 */
module Events {
  import opened Wrappers
  import opened Geometry

  /** What a client asked for; the constructor's assertion makes these the only two shapes. */
  datatype Action = Move(direction: MoveDirection) | TakePicture

  datatype ClientEvent = ClientEvent(playerId: int, action: Action)

  /**
   * The ClientEvent constructor: exactly one of a move direction or the take-picture flag
   * must be given; any other combination fails its assertion.
   */
  function NewClientEvent(playerId: int, moveDirection: Option<MoveDirection>, takePicture: bool): (r: Option<ClientEvent>)
    ensures r.Some? <==> (moveDirection.Some? != takePicture)
    ensures r.Some? ==> r.value.playerId == playerId
    ensures r.Some? && takePicture ==> r.value.action == TakePicture
    ensures r.Some? && !takePicture ==> r.value.action == Move(moveDirection.value)
  {
    if moveDirection.Some? && !takePicture then Some(ClientEvent(playerId, Move(moveDirection.value)))
    else if moveDirection.None? && takePicture then Some(ClientEvent(playerId, TakePicture))
    else None
  }

  /** The set of players that have an event in the list. */
  function Ids(events: seq<ClientEvent>): set<int>
  {
    set e | e in events :: e.playerId
  }

  /** No two events of the list come from the same player. */
  predicate UniqueIds(events: seq<ClientEvent>)
  {
    forall i, j :: 0 <= i < j < |events| ==> events[i].playerId != events[j].playerId
  }

  /** A player's first event in the list, if any. */
  function FirstOf(events: seq<ClientEvent>, id: int): Option<ClientEvent>
  {
    if |events| == 0 then None
    else if events[0].playerId == id then Some(events[0])
    else FirstOf(events[1..], id)
  }

  /** `a` is `b` with some elements dropped, order kept. */
  predicate IsSubsequence<T(==)>(a: seq<T>, b: seq<T>)
    decreases |b|
  {
    if |a| == 0 then true
    else if |b| == 0 then false
    else (a[0] == b[0] && IsSubsequence(a[1..], b[1..])) || IsSubsequence(a, b[1..])
  }

  /** The dedup loop from a given `seen` set: keep an event iff its player is not seen yet. */
  function DedupFrom(events: seq<ClientEvent>, seen: set<int>): seq<ClientEvent>
  {
    if |events| == 0 then []
    else if events[0].playerId in seen then DedupFrom(events[1..], seen)
    else [events[0]] + DedupFrom(events[1..], seen + {events[0].playerId})
  }

  /** `remove_duplicate_client_events`. */
  function RemoveDuplicates(events: seq<ClientEvent>): seq<ClientEvent>
  {
    DedupFrom(events, {})
  }

  /** The loop itself, with the `seen` set and the result list of the source. */
  method RemoveDuplicatesLoop(events: seq<ClientEvent>) returns (result: seq<ClientEvent>)
    ensures result == RemoveDuplicates(events)
  {
    var seen: set<int> := {};
    result := [];
    var k := 0;
    while k < |events|
      invariant 0 <= k <= |events|
      invariant result + DedupFrom(events[k..], seen) == RemoveDuplicates(events)
    {
      var event := events[k];
      assert events[k..] == [event] + events[k + 1..];
      if event.playerId !in seen {
        seen := seen + {event.playerId};
        result := result + [event];
      }
      k := k + 1;
    }
  }

  lemma {:induction false} DedupFromIds(events: seq<ClientEvent>, seen: set<int>)
    ensures Ids(DedupFrom(events, seen)) == Ids(events) - seen
    decreases |events|
  {
    if |events| > 0 {
      var e := events[0];
      assert events == [e] + events[1..];
      assert Ids(events) == {e.playerId} + Ids(events[1..]);
      if e.playerId in seen {
        DedupFromIds(events[1..], seen);
      } else {
        DedupFromIds(events[1..], seen + {e.playerId});
        assert Ids([e] + DedupFrom(events[1..], seen + {e.playerId}))
            == {e.playerId} + Ids(DedupFrom(events[1..], seen + {e.playerId}));
      }
    }
  }

  lemma {:induction false} DedupFromUnique(events: seq<ClientEvent>, seen: set<int>)
    ensures UniqueIds(DedupFrom(events, seen))
    ensures Ids(DedupFrom(events, seen)) !! seen
    decreases |events|
  {
    DedupFromIds(events, seen);
    if |events| > 0 {
      var e := events[0];
      if e.playerId in seen {
        DedupFromUnique(events[1..], seen);
      } else {
        var rest := DedupFrom(events[1..], seen + {e.playerId});
        DedupFromUnique(events[1..], seen + {e.playerId});
        forall j | 0 <= j < |rest| ensures rest[j].playerId != e.playerId {
          assert rest[j] in rest;
          assert rest[j].playerId in Ids(rest);
        }
        var r := [e] + rest;
        forall i, j | 0 <= i < j < |r| ensures r[i].playerId != r[j].playerId {
          if i > 0 {
            assert r[i] == rest[i - 1] && r[j] == rest[j - 1];
          } else {
            assert r[j] == rest[j - 1];
          }
        }
      }
    }
  }

  lemma {:induction false} DedupFromKeepsFirst(events: seq<ClientEvent>, seen: set<int>, e: ClientEvent)
    requires e in DedupFrom(events, seen)
    ensures FirstOf(events, e.playerId) == Some(e)
    decreases |events|
  {
    var h := events[0];
    if h.playerId in seen {
      DedupFromKeepsFirst(events[1..], seen, e);
      DedupFromIds(events[1..], seen);
      assert e.playerId in Ids(DedupFrom(events[1..], seen)) by {
        assert e in DedupFrom(events[1..], seen);
      }
      assert e.playerId != h.playerId;
    } else if e != h {
      var rest := DedupFrom(events[1..], seen + {h.playerId});
      assert e in rest;
      DedupFromKeepsFirst(events[1..], seen + {h.playerId}, e);
      DedupFromIds(events[1..], seen + {h.playerId});
      assert e.playerId in Ids(rest);
      assert e.playerId != h.playerId;
    }
  }

  lemma {:induction false} DedupFromSubsequence(events: seq<ClientEvent>, seen: set<int>)
    ensures IsSubsequence(DedupFrom(events, seen), events)
    decreases |events|
  {
    if |events| > 0 {
      var e := events[0];
      if e.playerId in seen {
        DedupFromSubsequence(events[1..], seen);
        SubsequenceOfTail(DedupFrom(events[1..], seen), events);
      } else {
        DedupFromSubsequence(events[1..], seen + {e.playerId});
        var r := [e] + DedupFrom(events[1..], seen + {e.playerId});
        assert r[1..] == DedupFrom(events[1..], seen + {e.playerId});
      }
    }
  }

  lemma SubsequenceOfTail<T>(a: seq<T>, b: seq<T>)
    requires |b| > 0 && IsSubsequence(a, b[1..])
    ensures IsSubsequence(a, b)
  {
  }

  /** After dedup no two events share a player. */
  lemma RemoveDuplicatesUnique(events: seq<ClientEvent>)
    ensures UniqueIds(RemoveDuplicates(events))
  {
    DedupFromUnique(events, {});
  }

  /** Dedup keeps events in their arrival order and invents none. */
  lemma RemoveDuplicatesSubsequence(events: seq<ClientEvent>)
    ensures IsSubsequence(RemoveDuplicates(events), events)
  {
    DedupFromSubsequence(events, {});
  }

  /** Every player with an event keeps exactly one, and it is that player's first. */
  lemma RemoveDuplicatesKeepsFirst(events: seq<ClientEvent>)
    ensures Ids(RemoveDuplicates(events)) == Ids(events)
    ensures forall e :: e in RemoveDuplicates(events) ==> FirstOf(events, e.playerId) == Some(e)
  {
    DedupFromIds(events, {});
    forall e | e in RemoveDuplicates(events) ensures FirstOf(events, e.playerId) == Some(e) {
      DedupFromKeepsFirst(events, {}, e);
    }
  }

  lemma {:induction false} DedupFromIdentity(events: seq<ClientEvent>, seen: set<int>)
    requires UniqueIds(events) && Ids(events) !! seen
    ensures DedupFrom(events, seen) == events
    decreases |events|
  {
    if |events| > 0 {
      var e := events[0];
      assert e.playerId in Ids(events);
      forall f | f in events[1..] ensures f.playerId != e.playerId {
        var j :| 0 <= j < |events[1..]| && events[1..][j] == f;
        assert events[j + 1] == f;
      }
      assert Ids(events[1..]) !! seen + {e.playerId} by {
        forall id | id in Ids(events[1..]) ensures id !in seen + {e.playerId} {
          var f :| f in events[1..] && f.playerId == id;
          assert f in events;
        }
      }
      assert UniqueIds(events[1..]) by {
        forall i, j | 0 <= i < j < |events[1..]| ensures events[1..][i].playerId != events[1..][j].playerId {
          assert events[1..][i] == events[i + 1] && events[1..][j] == events[j + 1];
        }
      }
      DedupFromIdentity(events[1..], seen + {e.playerId});
      assert events == [e] + events[1..];
    }
  }

  /** Dedup is idempotent. */
  lemma RemoveDuplicatesIdempotent(events: seq<ClientEvent>)
    ensures RemoveDuplicates(RemoveDuplicates(events)) == RemoveDuplicates(events)
  {
    RemoveDuplicatesUnique(events);
    DedupFromIdentity(RemoveDuplicates(events), {});
  }
}

=== FILE: game_server.dfy ===
/**
 * The multiplayer server's round cycle: LEVEL_SELECTION -> PLAYING -> FINISHED -> LEVEL_SELECTION.
 * One `RunIteration` is one pass of the server's main loop; the network pump becomes the list
 * of messages received, the clock one reading per pass, and randomness the roll and spawn oracles.
 */
module GameServer {
  import opened Wrappers
  import opened Config
  import opened Geometry
  import opened Terrain
  import opened Events
  import opened LevelLoader
  import opened World
  import opened DeerAI

  datatype Phase = LevelSelection | Playing | Finished

  /** The server: its phase, its world and every message it has sent so far. */
  datatype Server = Server(phase: Phase, ctx: Context, outbox: seq<Outbound>)

  /** What a client channel can deliver during a pump (`Network_move`, `Network_take_picture`, `Network_select_level`). */
  datatype Incoming =
    | MoveMsg(player: int, direction: MoveDirection)
    | TakePictureMsg(player: int)
    | SelectLevel(player: int, level: int)

  /** `send_to_all`: the same message to every connected hunter, in roster order. */
  function Broadcast(players: seq<Player>, msg: Msg): (r: seq<Outbound>)
    ensures |r| == |players| && forall j :: 0 <= j < |players| ==> r[j] == Outbound(players[j].id, msg)
  {
    seq(|players|, j requires 0 <= j < |players| => Outbound(players[j].id, msg))
  }

  /**
   * `GameServerContext.reset`: checks the level, loads its map, forgets every hunter's photos and
   * respawns them on draws 0..P-1, then generates a new wave on the following draws and drops
   * pending events. `spawn(n)` is the n-th cell `get_empty_tile` returns.
   */
  function Reset(ctx: Context, level: int, levels: Levels, spawn: nat -> Position): (r: Result<Context, MapError>)
    ensures !ValidLevel(level) ==> r == Failure(LevelOutOfRange)
    ensures ValidLevel(level) ==> (r.Success? <==> NewGameMap(levels, level).Success?)
    ensures r.Success? ==>
              && r.value.level == level && r.value.grid == NewGameMap(levels, level).value
              && r.value.events == [] && r.value.startTime == ctx.startTime
              && |r.value.players| == |ctx.players| && |r.value.deer| == DeerCount
              && (forall j :: 0 <= j < |ctx.players| ==>
                    r.value.players[j] == ResetPlayer(ctx.players[j], spawn(j)))
              && (forall k :: 0 <= k < DeerCount ==>
                    r.value.deer[k] == Deer(spawn(|ctx.players| + k), Up, 0, TierAt(RosterFor(level), k)))
  {
    if !ValidLevel(level) then Failure(LevelOutOfRange)
    else
      var grid :- NewGameMap(levels, level);
      var players := seq(|ctx.players|, j requires 0 <= j < |ctx.players| => ResetPlayer(ctx.players[j], spawn(j)));
      var deer := DeerWave(level, spawn, |ctx.players|).value;
      Success(Context(level, grid, players, deer, [], ctx.startTime))
  }

  /** `start_game`: resets the world, enters PLAYING, starts the clock and announces the level to everyone. */
  function StartGame(s: Server, level: int, levels: Levels, spawn: nat -> Position, now: int): (r: Result<Server, MapError>)
    ensures r.Success? <==> Reset(s.ctx, level, levels, spawn).Success?
    ensures r.Success? ==>
              && r.value.phase == Playing
              && r.value.ctx == Reset(s.ctx, level, levels, spawn).value.(startTime := now)
              && r.value.outbox == s.outbox + Broadcast(r.value.ctx.players, GameStarted(level))
  {
    var ctx :- Reset(s.ctx, level, levels, spawn);
    var started := ctx.(startTime := now);
    Success(Server(Playing, started, s.outbox + Broadcast(started.players, GameStarted(level))))
  }

  /** `is_level_reset_allowed`: a level may be chosen only while waiting for a selection. */
  predicate IsLevelResetAllowed(s: Server)
    ensures IsLevelResetAllowed(s) <==> s.phase != Playing && s.phase != Finished
  {
    s.phase == LevelSelection
  }

  /** The event a movement or picture message queues. */
  function EventOf(m: Incoming): Option<ClientEvent>
  {
    match m
    case MoveMsg(p, d) => Some(ClientEvent(p, Move(d)))
    case TakePictureMsg(p) => Some(ClientEvent(p, TakePicture))
    case SelectLevel(_, _) => None
  }

  /** The events a run of messages queues, in arrival order. */
  function EventsOf(msgs: seq<Incoming>): seq<ClientEvent>
  {
    if |msgs| == 0 then []
    else
      var rest := EventsOf(msgs[1..]);
      match EventOf(msgs[0])
      case Some(e) => [e] + rest
      case None => rest
  }

  /**
   * `Pump`: delivers the messages in order. Moves and pictures are queued in any phase;
   * a level selection starts a game only while the server is in LEVEL_SELECTION.
   */
  function Pump(s: Server, msgs: seq<Incoming>, levels: Levels, spawn: nat -> Position, now: int): (r: Result<Server, MapError>)
    ensures s.phase != LevelSelection ==> r.Success? && r.value.phase == s.phase && r.value.ctx.startTime == s.ctx.startTime
    ensures r.Success? ==> r.value.phase == s.phase || r.value.phase == Playing
    ensures s.phase == LevelSelection && r.Success? && r.value.phase == Playing ==> r.value.ctx.startTime == now
    decreases |msgs|
  {
    if |msgs| == 0 then Success(s)
    else
      var next :-
        match msgs[0]
        case SelectLevel(_, level) =>
          if IsLevelResetAllowed(s) then StartGame(s, level, levels, spawn, now) else Success(s)
        case MoveMsg(p, d) => Success(s.(ctx := s.ctx.(events := s.ctx.events + [ClientEvent(p, Move(d))])))
        case TakePictureMsg(p) => Success(s.(ctx := s.ctx.(events := s.ctx.events + [ClientEvent(p, TakePicture)])));
      Pump(next, msgs[1..], levels, spawn, now)
  }

  /** Outside LEVEL_SELECTION a pump only queues events: level selections are ignored. */
  lemma {:induction false} PumpOutsideSelection(s: Server, msgs: seq<Incoming>, levels: Levels, spawn: nat -> Position, now: int)
    requires s.phase != LevelSelection
    ensures Pump(s, msgs, levels, spawn, now) == Success(s.(ctx := s.ctx.(events := s.ctx.events + EventsOf(msgs))))
    decreases |msgs|
  {
    if |msgs| > 0 {
      match msgs[0]
      case SelectLevel(_, _) =>
        assert EventsOf(msgs) == EventsOf(msgs[1..]);
        assert Pump(s, msgs, levels, spawn, now) == Pump(s, msgs[1..], levels, spawn, now);
        PumpOutsideSelection(s, msgs[1..], levels, spawn, now);
      case MoveMsg(p, d) =>
        var e := ClientEvent(p, Move(d));
        var next := s.(ctx := s.ctx.(events := s.ctx.events + [e]));
        assert EventsOf(msgs) == [e] + EventsOf(msgs[1..]);
        assert Pump(s, msgs, levels, spawn, now) == Pump(next, msgs[1..], levels, spawn, now);
        PumpOutsideSelection(next, msgs[1..], levels, spawn, now);
        assert s.ctx.events + EventsOf(msgs) == next.ctx.events + EventsOf(msgs[1..]);
      case TakePictureMsg(p) =>
        var e := ClientEvent(p, TakePicture);
        var next := s.(ctx := s.ctx.(events := s.ctx.events + [e]));
        assert EventsOf(msgs) == [e] + EventsOf(msgs[1..]);
        assert Pump(s, msgs, levels, spawn, now) == Pump(next, msgs[1..], levels, spawn, now);
        PumpOutsideSelection(next, msgs[1..], levels, spawn, now);
        assert s.ctx.events + EventsOf(msgs) == next.ctx.events + EventsOf(msgs[1..]);
    } else {
      assert s.ctx.events + EventsOf(msgs) == s.ctx.events;
    }
  }

  /** Without a level selection among them, pumping messages in any phase only queues their intents. */
  lemma {:induction false} PumpWithoutSelections(s: Server, msgs: seq<Incoming>, levels: Levels, spawn: nat -> Position, now: int)
    requires forall k :: 0 <= k < |msgs| ==> !msgs[k].SelectLevel?
    ensures Pump(s, msgs, levels, spawn, now) == Success(s.(ctx := s.ctx.(events := s.ctx.events + EventsOf(msgs))))
    decreases |msgs|
  {
    if |msgs| > 0 {
      var e := EventOf(msgs[0]).value;
      var next := s.(ctx := s.ctx.(events := s.ctx.events + [e]));
      assert EventsOf(msgs) == [e] + EventsOf(msgs[1..]);
      assert Pump(s, msgs, levels, spawn, now) == Pump(next, msgs[1..], levels, spawn, now);
      PumpWithoutSelections(next, msgs[1..], levels, spawn, now);
      assert s.ctx.events + EventsOf(msgs) == next.ctx.events + EventsOf(msgs[1..]);
    } else {
      assert s.ctx.events + EventsOf(msgs) == s.ctx.events;
    }
  }

  /** In LEVEL_SELECTION a level selection starts the game on that level. */
  lemma SelectionStartsGame(s: Server, p: int, level: int, levels: Levels, spawn: nat -> Position, now: int)
    requires s.phase == LevelSelection
    ensures Pump(s, [SelectLevel(p, level)], levels, spawn, now) == StartGame(s, level, levels, spawn, now)
  {
    assert [SelectLevel(p, level)][1..] == [];
  }

  /** Every hunter, in roster order, handles the whole (deduplicated) event list. */
  function HandleAll(o: Outcome, i: nat, events: seq<ClientEvent>): (r: Outcome)
    requires i <= |o.ctx.players|
    ensures |r.ctx.players| == |o.ctx.players|
    ensures r.ctx == o.ctx.(players := r.ctx.players)
    ensures forall j :: 0 <= j < |o.ctx.players| ==> r.ctx.players[j].id == o.ctx.players[j].id
    decreases |o.ctx.players| - i
  {
    if i == |o.ctx.players| then o
    else HandleAll(HandleEvents(o, i, events), i + 1, events)
  }

  lemma {:induction false} HandleAllPreservesValid(o: Outcome, i: nat, events: seq<ClientEvent>)
    requires i <= |o.ctx.players| && Valid(o.ctx)
    ensures Valid(HandleAll(o, i, events).ctx)
    decreases |o.ctx.players| - i
  {
    if i < |o.ctx.players| {
      var next := HandleEvents(o, i, events);
      HandleEventsPreservesValid(o, i, events);
      HandleAllPreservesValid(next, i + 1, events);
      assert HandleAll(o, i, events) == HandleAll(next, i + 1, events);
    }
  }

  function PlayerSprites(players: seq<Player>): (r: seq<Sprite>)
    ensures |r| == |players| && forall j :: 0 <= j < |players| ==>
              r[j] == Sprite(players[j].pos.x, players[j].pos.y, players[j].facing)
  {
    seq(|players|, j requires 0 <= j < |players| => Sprite(players[j].pos.x, players[j].pos.y, players[j].facing))
  }

  function DeerSprites(deer: seq<Deer>): (r: seq<Sprite>)
    ensures |r| == |deer| && forall j :: 0 <= j < |deer| ==>
              r[j] == Sprite(deer[j].pos.x, deer[j].pos.y, deer[j].facing)
  {
    seq(|deer|, j requires 0 <= j < |deer| => Sprite(deer[j].pos.x, deer[j].pos.y, deer[j].facing))
  }

  /**
   * The world half of `GameServer.update`: deduplicate the queued events, let every hunter handle
   * them, tick every deer and clear the queue; the result carries the acknowledgements sent.
   */
  function WorldStep(ctx: Context, rolls: nat -> DeerRoll): (r: Outcome)
    ensures r.ctx.events == []
    ensures r.ctx.level == ctx.level && r.ctx.grid == ctx.grid && r.ctx.startTime == ctx.startTime
    ensures |r.ctx.players| == |ctx.players| && |r.ctx.deer| == |ctx.deer|
    ensures forall j :: 0 <= j < |ctx.players| ==> r.ctx.players[j].id == ctx.players[j].id
  {
    var events := RemoveDuplicates(ctx.events);
    var handled := HandleAll(Outcome(ctx.(events := events), []), 0, events);
    var ticked := UpdateDeerFrom(handled.ctx, 0, rolls);
    Outcome(ticked.(events := []), handled.sent)
  }

  /** Hunters whose ids differ from every queued event's ignore the whole list. */
  lemma {:induction false} HandleAllIgnored(o: Outcome, k: nat, events: seq<ClientEvent>)
    requires k <= |o.ctx.players|
    requires forall e, j :: 0 <= e < |events| && k <= j < |o.ctx.players| ==> events[e].playerId != o.ctx.players[j].id
    ensures HandleAll(o, k, events) == o
    decreases |o.ctx.players| - k
  {
    if k < |o.ctx.players| {
      HandleEventsIgnoresOthers(o, k, events);
      HandleAllIgnored(o, k + 1, events);
    }
  }

  /** When every queued event is hunter `i`'s and no other hunter shares its id, only `i` acts. */
  lemma {:induction false} HandleAllOneHunter(o: Outcome, k: nat, events: seq<ClientEvent>, i: nat)
    requires k <= i < |o.ctx.players|
    requires forall e :: 0 <= e < |events| ==> events[e].playerId == o.ctx.players[i].id
    requires forall j :: 0 <= j < |o.ctx.players| && j != i ==> o.ctx.players[j].id != o.ctx.players[i].id
    ensures HandleAll(o, k, events) == HandleEvents(o, i, events)
    decreases i - k
  {
    if k < i {
      HandleEventsIgnoresOthers(o, k, events);
      assert HandleAll(o, k, events) == HandleAll(o, k + 1, events);
      HandleAllOneHunter(o, k + 1, events, i);
    } else {
      HandleAllFrom(o, i, events);
    }
  }

  /** The hunter the events belong to acts, and every later hunter ignores them. */
  lemma HandleAllFrom(o: Outcome, i: nat, events: seq<ClientEvent>)
    requires i < |o.ctx.players|
    requires forall e :: 0 <= e < |events| ==> events[e].playerId == o.ctx.players[i].id
    requires forall j :: 0 <= j < |o.ctx.players| && j != i ==> o.ctx.players[j].id != o.ctx.players[i].id
    ensures HandleAll(o, i, events) == HandleEvents(o, i, events)
  {
    var next := HandleEvents(o, i, events);
    assert HandleAll(o, i, events) == HandleAll(next, i + 1, events);
    LaterHuntersIgnore(o, next, i, events);
  }

  /** Hunters after `i`, unchanged from `o`, do not share `i`'s id and so ignore `i`'s events. */
  lemma LaterHuntersIgnore(o: Outcome, next: Outcome, i: nat, events: seq<ClientEvent>)
    requires i < |o.ctx.players| == |next.ctx.players|
    requires forall j :: i < j < |o.ctx.players| ==> next.ctx.players[j] == o.ctx.players[j]
    requires forall e :: 0 <= e < |events| ==> events[e].playerId == o.ctx.players[i].id
    requires forall j :: 0 <= j < |o.ctx.players| && j != i ==> o.ctx.players[j].id != o.ctx.players[i].id
    ensures HandleAll(next, i + 1, events) == next
  {
    forall e, j | 0 <= e < |events| && i + 1 <= j < |next.ctx.players|
      ensures events[e].playerId != next.ctx.players[j].id
    {
      assert next.ctx.players[j] == o.ctx.players[j];
    }
    HandleAllIgnored(next, i + 1, events);
  }

  /**
   * A round tick whose only queued intent is hunter `i`'s move applies exactly that move (with its
   * acknowledgement) and then advances every deer in roster order on the moved world.
   */
  lemma WorldStepAppliesOwnMove(ctx: Context, rolls: nat -> DeerRoll, i: nat, m: MoveDirection)
    requires i < |ctx.players|
    requires ctx.events == [ClientEvent(ctx.players[i].id, Move(m))]
    requires forall j :: 0 <= j < |ctx.players| && j != i ==> ctx.players[j].id != ctx.players[i].id
    ensures var moved := PlayerMove(ctx, i, m);
            && WorldStep(ctx, rolls).ctx.players == moved.ctx.players
            && WorldStep(ctx, rolls).sent == moved.sent
            && WorldStep(ctx, rolls).ctx == UpdateDeerFrom(moved.ctx, 0, rolls).(events := [])
  {
    var events := ctx.events;
    SingletonDedup(events);
    var o := Outcome(ctx, []);
    HandleAllOneHunter(o, 0, events, i);
    HandleSingleMove(o, i, m);
  }

  lemma SingletonDedup(events: seq<ClientEvent>)
    requires |events| == 1
    ensures RemoveDuplicates(events) == events
  {
    assert events[1..] == [];
    assert DedupFrom(events, {}) == [events[0]] + DedupFrom([], {events[0].playerId});
  }

  lemma HandleSingleMove(o: Outcome, i: nat, m: MoveDirection)
    requires i < |o.ctx.players|
    ensures var moved := PlayerMove(o.ctx, i, m);
            HandleEvents(o, i, [ClientEvent(o.ctx.players[i].id, Move(m))]) == Outcome(moved.ctx, o.sent + moved.sent)
  {
    assert [ClientEvent(o.ctx.players[i].id, Move(m))][1..] == [];
  }

  /** With no intents queued, a round tick only advances the deer and sends nothing. */
  lemma WorldStepWithoutEvents(ctx: Context, rolls: nat -> DeerRoll)
    requires ctx.events == []
    ensures WorldStep(ctx, rolls) == Outcome(UpdateDeerFrom(ctx, 0, rolls), [])
  {
    assert RemoveDuplicates([]) == [];
    HandleAllIgnored(Outcome(ctx, []), 0, []);
    assert UpdateDeerFrom(ctx, 0, rolls).events == [];
  }

  /**
   * The broadcast half of `GameServer.update`: after the acknowledgements of the world step, every
   * hunter, in roster order, is sent the new positions and facings and the time left in the round.
   */
  function Publish(s: Server, step: Outcome, now: int): (r: Server)
    ensures r.phase == s.phase && r.ctx == step.ctx
    ensures |r.outbox| == |s.outbox| + |step.sent| + |step.ctx.players|
    ensures r.outbox[..|s.outbox|] == s.outbox && r.outbox[|s.outbox|..|s.outbox| + |step.sent|] == step.sent
    ensures var snapshot := StateUpdate(PlayerSprites(step.ctx.players), DeerSprites(step.ctx.deer),
                                        s.ctx.startTime + GameDuration - now);
            forall j :: 0 <= j < |step.ctx.players| ==>
              r.outbox[|s.outbox| + |step.sent| + j] == Outbound(step.ctx.players[j].id, snapshot)
  {
    var snapshot := StateUpdate(PlayerSprites(step.ctx.players), DeerSprites(step.ctx.deer), s.ctx.startTime + GameDuration - now);
    var acked := s.outbox + step.sent;
    var outbox := acked + Broadcast(step.ctx.players, snapshot);
    assert outbox[..|s.outbox|] == s.outbox;
    assert outbox[|s.outbox|..|acked|] == step.sent;
    Server(s.phase, step.ctx, outbox)
  }

  /** `GameServer.update`: the world step, then the state broadcast. */
  function Update(s: Server, rolls: nat -> DeerRoll, now: int): (r: Server)
    ensures r.phase == s.phase && r.ctx.events == []
    ensures r.ctx.level == s.ctx.level && r.ctx.grid == s.ctx.grid && r.ctx.startTime == s.ctx.startTime
    ensures |r.ctx.players| == |s.ctx.players| && |r.ctx.deer| == |s.ctx.deer|
    ensures |r.outbox| >= |s.outbox| + |s.ctx.players| && r.outbox[..|s.outbox|] == s.outbox
  {
    Publish(s, WorldStep(s.ctx, rolls), now)
  }

  /** A server tick keeps the occupancy invariant. */
  lemma UpdatePreservesValid(s: Server, rolls: nat -> DeerRoll, now: int)
    requires Valid(s.ctx)
    ensures Valid(Update(s, rolls, now).ctx)
  {
    var events := RemoveDuplicates(s.ctx.events);
    var start := Outcome(s.ctx.(events := events), []);
    assert Occupants(start.ctx) == Occupants(s.ctx);
    HandleAllPreservesValid(start, 0, events);
    var handled := HandleAll(start, 0, events);
    var ticked := UpdateDeerFrom(handled.ctx, 0, rolls);
    assert Occupants(ticked.(events := [])) == Occupants(ticked);
  }

  /** `send_score`: every hunter learns its score, -1 when it photographed another hunter. */
  function SendScore(s: Server): (r: Server)
    ensures r.phase == s.phase && r.ctx == s.ctx
    ensures |r.outbox| == |s.outbox| + |s.ctx.players| && r.outbox[..|s.outbox|] == s.outbox
    ensures forall j :: 0 <= j < |s.ctx.players| ==>
              r.outbox[|s.outbox| + j] == Outbound(s.ctx.players[j].id, Score(FinalScore(s.ctx.players[j])))
  {
    var scores := seq(|s.ctx.players|, j requires 0 <= j < |s.ctx.players| =>
                        Outbound(s.ctx.players[j].id, Score(FinalScore(s.ctx.players[j]))));
    s.(outbox := s.outbox + scores)
  }

  /** The inputs of one pass of the main loop. */
  datatype Tick = Tick(
    selection: seq<Incoming>,   // delivered by the LEVEL_SELECTION pump
    playing: seq<Incoming>,     // delivered by the PLAYING pump
    now: int,                   // the clock reading of this pass
    rolls: nat -> DeerRoll,
    spawn: nat -> Position)

  /** One pass of `GameServer.run`. */
  function RunIteration(s: Server, t: Tick, levels: Levels): (r: Result<Server, MapError>)
    ensures s.phase == Finished ==> r.Success? && r.value.phase == LevelSelection
    ensures s.phase == Playing ==> r.Success? && r.value.phase != LevelSelection
    ensures r.Success? && r.value.phase == Finished ==> t.now >= r.value.ctx.startTime + GameDuration
  {
    var s1 :- if s.phase == LevelSelection then Pump(s, t.selection, levels, t.spawn, t.now) else Success(s);
    if s1.phase == Playing then
      var s2 :- Pump(s1, t.playing, levels, t.spawn, t.now);
      var s3 := Update(s2, t.rolls, t.now);
      if t.now >= s3.ctx.startTime + GameDuration then Success(s3.(phase := Finished)) else Success(s3)
    else if s1.phase == Finished then
      Success(SendScore(s1).(phase := LevelSelection))
    else
      Success(s1)
  }

  /** A round in play ends exactly on the pass whose clock reading reaches the start time plus GAME_DURATION. */
  /** A LEVEL_SELECTION pass with no level selection only queues the delivered intents. */
  lemma IdleSelection(s: Server, t: Tick, levels: Levels)
    requires s.phase == LevelSelection
    requires forall k :: 0 <= k < |t.selection| ==> !t.selection[k].SelectLevel?
    ensures RunIteration(s, t, levels) == Success(s.(ctx := s.ctx.(events := s.ctx.events + EventsOf(t.selection))))
  {
    PumpWithoutSelections(s, t.selection, levels, t.spawn, t.now);
  }

  /**
   * A game started by the LEVEL_SELECTION pump is, in the same pass, pumped again and updated:
   * the separate `if PLAYING` of `run` sees the new state, and the fresh round does not end yet.
   */
  lemma SelectionFallsThrough(s: Server, t: Tick, levels: Levels)
    requires s.phase == LevelSelection
    requires Pump(s, t.selection, levels, t.spawn, t.now).Success?
    requires Pump(s, t.selection, levels, t.spawn, t.now).value.phase == Playing
    ensures var s1 := Pump(s, t.selection, levels, t.spawn, t.now).value;
            var s2 := s1.(ctx := s1.ctx.(events := s1.ctx.events + EventsOf(t.playing)));
            && s1.ctx.startTime == t.now
            && RunIteration(s, t, levels) == Success(Update(s2, t.rolls, t.now))
            && Update(s2, t.rolls, t.now).phase == Playing
  {
    var s1 := Pump(s, t.selection, levels, t.spawn, t.now).value;
    PumpOutsideSelection(s1, t.playing, levels, t.spawn, t.now);
  }

  lemma RoundEndsOnTime(s: Server, t: Tick, levels: Levels)
    requires s.phase == Playing
    ensures var r := RunIteration(s, t, levels);
            r.Success? &&
            (r.value.phase == Finished <==> t.now >= s.ctx.startTime + GameDuration) &&
            (r.value.phase != Finished ==> r.value.phase == Playing)
  {
    PumpOutsideSelection(s, t.playing, levels, t.spawn, t.now);
  }

  /** A finished round sends every hunter its score and returns to level selection; the world is kept. */
  lemma FinishSendsScores(s: Server, t: Tick, levels: Levels)
    requires s.phase == Finished
    ensures var r := RunIteration(s, t, levels);
            && r.Success? && r.value.phase == LevelSelection && r.value.ctx == s.ctx
            && forall j :: 0 <= j < |s.ctx.players| ==>
                 r.value.outbox[|s.outbox| + j] == Outbound(s.ctx.players[j].id, Score(FinalScore(s.ctx.players[j])))
  {
  }

  /** While a round is being played, a level selection changes nothing but the event queue. */
  lemma NoLevelChangeWhilePlaying(s: Server, t: Tick, levels: Levels)
    requires s.phase == Playing
    ensures var r := RunIteration(s, t, levels);
            r.Success? && r.value.ctx.level == s.ctx.level && r.value.ctx.grid == s.ctx.grid &&
            r.value.ctx.startTime == s.ctx.startTime
  {
    PumpOutsideSelection(s, t.playing, levels, t.spawn, t.now);
  }

  /** `GameServer.__init__`: level 10 loaded, no hunters, a level-10 wave, waiting for a level selection. */
  function InitialServer(levels: Levels, spawn: nat -> Position, now: int): (r: Result<Server, MapError>)
    ensures r.Success? <==> NewGameMap(levels, 10).Success?
    ensures r.Success? ==>
              && r.value.phase == LevelSelection && r.value.ctx.level == 10
              && r.value.ctx.players == [] && r.value.ctx.events == [] && r.value.outbox == []
              && |r.value.ctx.deer| == DeerCount && r.value.ctx.startTime == now
  {
    var grid :- NewGameMap(levels, 10);
    Success(Server(LevelSelection, Context(10, grid, [], DeerWave(10, spawn, 0).value, [], now), []))
  }

  /**
   * Spawn draws that are pairwise different EMPTY cells yield a world satisfying the occupancy
   * invariant; `get_empty_tile` itself does not avoid occupied cells.
   */
  lemma ResetValidWhenSpawnsDistinct(ctx: Context, level: int, levels: Levels, spawn: nat -> Position)
    requires ValidLevel(level) && NewGameMap(levels, level).Success?
    requires forall n: nat :: n < |ctx.players| + DeerCount ==>
               InGrid(spawn(n)) && TileAt(NewGameMap(levels, level).value, spawn(n)) == Empty
    requires forall a: nat, b: nat :: a < b < |ctx.players| + DeerCount ==> spawn(a) != spawn(b)
    ensures Valid(Reset(ctx, level, levels, spawn).value)
  {
    var r := Reset(ctx, level, levels, spawn).value;
    var grid := NewGameMap(levels, level).value;
    var n := |ctx.players| + DeerCount;
    ResetOccupants(ctx, level, levels, spawn);
    var occ := Occupants(r);
    forall a, b | 0 <= a < b < |occ| ensures occ[a] != occ[b] {
      assert occ[a] == spawn(a) && occ[b] == spawn(b);
    }
    forall c | c in occ ensures InGrid(c) && !Impassable(TileAt(r.grid, c)) {
      var j :| 0 <= j < n && occ[j] == c;
      assert c == spawn(j);
    }
  }

  /** After a reset the occupants, hunters then deer, stand on spawn draws 0, 1, 2, ... in order. */
  lemma ResetOccupants(ctx: Context, level: int, levels: Levels, spawn: nat -> Position)
    requires ValidLevel(level) && NewGameMap(levels, level).Success?
    ensures var r := Reset(ctx, level, levels, spawn).value;
            && r.grid == NewGameMap(levels, level).value
            && |Occupants(r)| == |ctx.players| + DeerCount
            && forall j :: 0 <= j < |ctx.players| + DeerCount ==> Occupants(r)[j] == spawn(j)
  {
    var r := Reset(ctx, level, levels, spawn).value;
    var occ := Occupants(r);
    forall j | 0 <= j < |ctx.players| + DeerCount ensures occ[j] == spawn(j) {
      if j < |ctx.players| {
        assert occ[j] == r.players[j].pos;
      } else {
        assert occ[j] == r.deer[j - |ctx.players|].pos;
      }
    }
  }

  /** Without that care, a constant draw stacks every deer of a fresh wave on one cell. */
  lemma ResetCanStackDeer(ctx: Context, level: int, levels: Levels, c: Position)
    requires ValidLevel(level) && NewGameMap(levels, level).Success?
    ensures var r := Reset(ctx, level, levels, (n: nat) => c).value;
            r.deer[0].pos == r.deer[1].pos && !Valid(r)
  {
    var r := Reset(ctx, level, levels, (n: nat) => c).value;
    var occ := Occupants(r);
    assert occ[|ctx.players|] == r.deer[0].pos;
    assert occ[|ctx.players| + 1] == r.deer[1].pos;
  }
}

=== FILE: geometry.dfy ===
/**
 * Integer grid vectors: a Position is a cell, a Direction is a displacement.
 * Positions and directions are values; equality is structural on (x, y).
 */
module Geometry {

  datatype Direction = Direction(x: int, y: int)

  datatype Position = Position(x: int, y: int)

  /** The four facings a hunter or a deer can have. */
  datatype MoveDirection = Up | Down | Left | Right

  function Abs(n: int): (r: nat)
    ensures r == n || r == -n
  {
    if n < 0 then -n else n
  }

  lemma AbsMul(a: int, k: int)
    ensures Abs(a * k) == Abs(a) * Abs(k)
  {
    if a < 0 && k < 0 {
      assert a * k == (-a) * (-k);
    } else if a < 0 {
      assert a * k == -((-a) * k);
    } else if k < 0 {
      assert a * k == -(a * (-k));
    }
  }

  lemma ScaleDistance(d: Direction, k: int)
    ensures Abs(d.x * k) + Abs(d.y * k) == Abs(k) * (Abs(d.x) + Abs(d.y))
  {
    AbsMul(d.x, k);
    AbsMul(d.y, k);
    var a, b, c := Abs(d.x), Abs(d.y), Abs(k);
    assert a * c == c * a && b * c == c * b;
    assert c * (a + b) == c * a + c * b;
  }

  /** `direction * scalar`: scales each component. */
  function Scale(d: Direction, k: int): (r: Direction)
    ensures k == 0 ==> r == Direction(0, 0)
    ensures k == 1 ==> r == d
    ensures Distance(r) == Abs(k) * Distance(d)
  {
    ScaleDistance(d, k);
    Direction(d.x * k, d.y * k)
  }

  /** `scalar * direction` delegates to `direction * scalar`. */
  function ScaleLeft(k: int, d: Direction): (r: Direction)
    ensures r.x == k * d.x && r.y == k * d.y
  {
    Scale(d, k)
  }

  /** `position + direction`. */
  function Add(p: Position, d: Direction): (r: Position)
    ensures d == Direction(0, 0) <==> r == p
  {
    Position(p.x + d.x, p.y + d.y)
  }

  /** `position - position` is the displacement from the second to the first. */
  function Sub(p: Position, q: Position): (r: Direction)
    ensures r == Direction(0, 0) <==> p == q
  {
    Direction(p.x - q.x, p.y - q.y)
  }

  /** Manhattan length of a displacement. */
  function Distance(d: Direction): (r: nat)
    ensures r == 0 <==> d == Direction(0, 0)
  {
    Abs(d.x) + Abs(d.y)
  }

  /** Manhattan distance between two cells, as the source computes it. */
  function Manhattan(p: Position, q: Position): nat
  {
    Distance(Sub(p, q))
  }

  /** The unit displacement of a facing (y grows downwards). */
  function Unit(m: MoveDirection): (r: Direction)
    ensures Distance(r) == 1
  {
    match m
    case Up => Direction(0, -1)
    case Down => Direction(0, 1)
    case Left => Direction(-1, 0)
    case Right => Direction(1, 0)
  }

  /** `direction + direction` as the source writes it: the component-wise PRODUCT. */
  function DirectionAddAsWritten(a: Direction, b: Direction): (r: Direction)
    ensures b == Direction(1, 1) ==> r == a
    ensures b == Direction(0, 0) ==> r == Direction(0, 0)
  {
    Direction(a.x * b.x, a.y * b.y)
  }

  /** The evidently intended `direction + direction`: the component-wise sum. */
  function DirectionSum(a: Direction, b: Direction): (r: Direction)
  {
    Direction(a.x + b.x, a.y + b.y)
  }

  /** Subtracting the start undoes a translation: (p + d) - p == d. */
  lemma SubUndoesAdd(p: Position, d: Direction)
    ensures Sub(Add(p, d), p) == d
  {
  }

  /** Adding a displacement to its start recovers the end: q + (p - q) == p. */
  lemma AddUndoesSub(p: Position, q: Position)
    ensures Add(q, Sub(p, q)) == p
  {
  }

  /** Manhattan length is zero exactly for the null displacement. */
  lemma DistanceZeroIff(d: Direction)
    ensures Distance(d) == 0 <==> d == Direction(0, 0)
  {
  }

  /** Manhattan distance does not depend on the order of the two cells. */
  lemma ManhattanSymmetric(p: Position, q: Position)
    ensures Manhattan(p, q) == Manhattan(q, p)
  {
  }

  /** Both spellings of scalar multiplication scale each component by k. */
  lemma ScaleBothSides(k: int, d: Direction)
    ensures ScaleLeft(k, d) == Scale(d, k)
    ensures Scale(d, k).x == k * d.x && Scale(d, k).y == k * d.y
  {
  }

  /** Stepping a ray one cell further: p + (k+1)*d == (p + k*d) + d. */
  lemma RayStep(p: Position, d: Direction, k: int)
    ensures Add(p, Scale(d, k + 1)) == Add(Add(p, Scale(d, k)), d)
  {
  }

  /** The sum of displacements composes translations. */
  lemma TranslateBySum(p: Position, a: Direction, b: Direction)
    ensures Add(Add(p, a), b) == Add(p, DirectionSum(a, b))
  {
  }

  /** As written, adding two directions does not compose translations: one step right twice
      is two cells right, but RIGHT + RIGHT is RIGHT again. */
  lemma DirectionAddAsWrittenBreaksTranslation()
    ensures Add(Add(Position(0, 0), Direction(1, 0)), Direction(1, 0)) == Position(2, 0)
    ensures DirectionAddAsWritten(Direction(1, 0), Direction(1, 0)) == Direction(1, 0)
  {
    var right := Direction(1, 0);
    assert DirectionAddAsWritten(right, right) == Direction(1 * 1, 0 * 0);
  }
}

=== FILE: level_loader.dfy ===
/**
 * Level layouts and the strict level loader used by the multiplayer server map
 * and by the client map (both GameMap classes run the same loader).
 * A layout is a list of rows; character x of row y describes cell (x, y).
 */
module LevelLoader {
  import opened Wrappers
  import opened Config
  import opened Geometry
  import opened Terrain

  type Layout = seq<string>

  /**
   * The LEVELS table. Its keys are the consecutive level numbers 1..|levels|,
   * so key k holds levels[k - 1] and the highest key is |levels|.
   */
  type Levels = seq<Layout>

  predicate HasLevel(levels: Levels, level: int)
  {
    1 <= level <= |levels|
  }

  /** Why a map could not be built (all are raised errors in the source). */
  datatype MapError =
    | LevelOutOfRange   // the level assertion
    | NoLevelData       // `max()` of an empty key set
    | BadLayout         // a layout character outside the grid or not one of T, R, B, '.'

  /** The strict character decoding; any other character is rejected. */
  function ParseTile(c: char): (r: Option<Tile>)
    ensures r.Some? <==> (c == 'T' || c == 'R' || c == 'B' || c == '.')
  {
    match c
    case 'T' => Some(Tree)
    case 'R' => Some(Rock)
    case 'B' => Some(Bush)
    case '.' => Some(Empty)
    case _ => None
  }

  /** `LEVELS.get(level, LEVELS[max(LEVELS.keys())])`; None when the table is empty. */
  function SelectLayout(levels: Levels, level: int): (r: Option<Layout>)
    ensures r.None? <==> |levels| == 0
    ensures HasLevel(levels, level) ==> r == Some(levels[level - 1])
    ensures |levels| > 0 && !HasLevel(levels, level) ==> r == Some(levels[|levels| - 1])
  {
    if |levels| == 0 then None
    else if HasLevel(levels, level) then Some(levels[level - 1])
    else Some(levels[|levels| - 1])
  }

  /** Character x of row y exists. */
  predicate Covers(layout: Layout, x: int, y: int)
  {
    0 <= y < |layout| && 0 <= x < |layout[y]|
  }

  /** Row y passes the loader's assertions: every character is in-grid and decodes. */
  predicate RowFits(row: string, y: int)
  {
    forall x :: 0 <= x < |row| ==> x < GridWidth && y < GridHeight && ParseTile(row[x]).Some?
  }

  /** The first n rows pass the loader's assertions. */
  predicate RowsFit(layout: Layout, n: int)
    requires n <= |layout|
  {
    forall y :: 0 <= y < n ==> RowFits(layout[y], y)
  }

  /** The whole layout passes the loader's assertions. */
  predicate LayoutFits(layout: Layout)
  {
    RowsFit(layout, |layout|)
  }

  /** The tile the loader leaves at (x, y) when it starts from grid g. */
  function LoadedTile(g: Grid, layout: Layout, x: int, y: int): Tile
    requires 0 <= x < GridWidth && 0 <= y < GridHeight
  {
    if Covers(layout, x, y) && ParseTile(layout[y][x]).Some? then ParseTile(layout[y][x]).value
    else g[x][y]
  }

  /** Reference result of loading a fitting layout onto grid g. */
  function LoadedGrid(g: Grid, layout: Layout): (r: Grid)
    ensures forall x, y :: 0 <= x < GridWidth && 0 <= y < GridHeight ==> r[x][y] == LoadedTile(g, layout, x, y)
  {
    seq(GridWidth, x requires 0 <= x < GridWidth => seq(GridHeight, y requires 0 <= y < GridHeight => LoadedTile(g, layout, x, y)))
  }

  /** The tile at (i, j) once the loader has handled every character before (x, y) in row-major order. */
  function PartlyLoaded(g: Grid, layout: Layout, y: int, x: int, i: int, j: int): Tile
    requires 0 <= i < GridWidth && 0 <= j < GridHeight
  {
    if (j < y || (j == y && i < x)) && Covers(layout, i, j) && ParseTile(layout[j][i]).Some?
    then ParseTile(layout[j][i]).value
    else g[i][j]
  }

  /**
   * `load_map_from_file`: checks the level, picks the layout, then walks it row by row,
   * asserting each character is in-grid and known and writing its tile into the grid.
   */
  method LoadMapFromFile(g: Grid, levels: Levels, level: int) returns (r: Result<Grid, MapError>)
    ensures !ValidLevel(level) ==> r == Failure(LevelOutOfRange)
    ensures ValidLevel(level) && |levels| == 0 ==> r == Failure(NoLevelData)
    ensures ValidLevel(level) && |levels| > 0 ==>
              var layout := SelectLayout(levels, level).value;
              && (r.Success? <==> LayoutFits(layout))
              && (r.Failure? ==> r.error == BadLayout)
              && (r.Success? ==> forall x, y :: 0 <= x < GridWidth && 0 <= y < GridHeight ==>
                                   r.value[x][y] == LoadedTile(g, layout, x, y))
  {
    if !ValidLevel(level) {
      return Failure(LevelOutOfRange);
    }
    if |levels| == 0 {
      return Failure(NoLevelData);
    }
    var layout := SelectLayout(levels, level).value;
    var grid := g;
    var y := 0;
    while y < |layout|
      invariant 0 <= y <= |layout|
      invariant RowsFit(layout, y)
      invariant forall i, j :: 0 <= i < GridWidth && 0 <= j < GridHeight ==>
                  grid[i][j] == PartlyLoaded(g, layout, y, 0, i, j)
    {
      var row := layout[y];
      var x := 0;
      while x < |row|
        invariant 0 <= x <= |row|
        invariant RowsFit(layout, y)
        invariant RowFits(row[..x], y)
        invariant forall i, j :: 0 <= i < GridWidth && 0 <= j < GridHeight ==>
                    grid[i][j] == PartlyLoaded(g, layout, y, x, i, j)
      {
        if !(0 <= x < GridWidth && 0 <= y < GridHeight) {
          assert !RowFits(layout[y], y);
          return Failure(BadLayout);
        }
        var tile := ParseTile(row[x]);
        if tile.None? {
          assert !RowFits(layout[y], y);
          return Failure(BadLayout);
        }
        grid := SetTile(grid, x, y, tile.value);
        assert row[..x + 1] == row[..x] + [row[x]];
        x := x + 1;
      }
      assert row[..x] == row;
      y := y + 1;
    }
    assert forall i, j :: 0 <= i < GridWidth && 0 <= j < GridHeight ==>
             PartlyLoaded(g, layout, y, 0, i, j) == LoadedTile(g, layout, i, j);
    return Success(grid);
  }

  /** The GameMap constructor: level check, `_clear`, then the loader. */
  function NewGameMap(levels: Levels, level: int): (r: Result<Grid, MapError>)
    ensures r.Success? <==> ValidLevel(level) && |levels| > 0 && LayoutFits(SelectLayout(levels, level).value)
    ensures r.Success? ==> forall x, y :: 0 <= x < GridWidth && 0 <= y < GridHeight ==>
              var layout := SelectLayout(levels, level).value;
              r.value[x][y] == (if Covers(layout, x, y) then ParseTile(layout[y][x]).value else Empty)
  {
    if !ValidLevel(level) then Failure(LevelOutOfRange)
    else if |levels| == 0 then Failure(NoLevelData)
    else
      var layout := SelectLayout(levels, level).value;
      if LayoutFits(layout) then Success(LoadedGrid(EmptyGrid(), layout)) else Failure(BadLayout)
  }

  /** Every character of every row decodes and lies in the grid. */
  predicate WellFormedLevels(levels: Levels)
  {
    forall k :: 0 <= k < |levels| ==> LayoutFits(levels[k])
  }

  /** A level number without its own layout loads the highest level's map. */
  lemma UnknownLevelLoadsHighest(levels: Levels, level: int)
    requires ValidLevel(level) && |levels| > 0 && !HasLevel(levels, level)
    requires ValidLevel(|levels|)
    ensures NewGameMap(levels, level) == NewGameMap(levels, |levels|)
  {
  }

  /** With a well-formed table every valid level loads, cell (x, y) taking character x of row y. */
  lemma WellFormedLevelsLoad(levels: Levels, level: int)
    requires WellFormedLevels(levels) && |levels| > 0 && ValidLevel(level)
    ensures NewGameMap(levels, level).Success?
  {
    if HasLevel(levels, level) {
      assert LayoutFits(levels[level - 1]);
    } else {
      assert LayoutFits(levels[|levels| - 1]);
    }
  }

  /**
   * `get_empty_tile` over its stream of random draws (each draw is in-grid, as `randint` ensures):
   * the first draw whose tile is EMPTY. The source retries forever; when no draw of the stream
   * is EMPTY the model answers None.
   */
  function GetEmptyTile(g: Grid, draws: seq<Position>): (r: Option<Position>)
    requires forall k :: 0 <= k < |draws| ==> InGrid(draws[k])
    ensures r.Some? ==> InGrid(r.value) && TileAt(g, r.value) == Empty
    ensures r.Some? ==> exists k :: 0 <= k < |draws| && draws[k] == r.value &&
                          forall j :: 0 <= j < k ==> TileAt(g, draws[j]) != Empty
    ensures r.None? <==> forall k :: 0 <= k < |draws| ==> TileAt(g, draws[k]) != Empty
  {
    if |draws| == 0 then None
    else if TileAt(g, draws[0]) == Empty then
      Some(draws[0])
    else
      var r := GetEmptyTile(g, draws[1..]);
      assert forall k :: 1 <= k < |draws| ==> draws[k] == draws[1..][k - 1];
      r
  }
}

=== FILE: level_scores.dfy ===
/**
 * The client's `Scores` table: the best score per level, keyed by the level number written
 * in decimal. Reading and writing the JSON file is not modelled: a loaded table is an input.
 */
module LevelScores {
  import opened Wrappers
  import opened Config

  // ---------------------------------------------------------------- decimal keys

  function DigitChar(d: nat): (c: char)
    requires d < 10
    ensures '0' <= c <= '9' && c as int - '0' as int == d
  {
    ('0' as int + d) as char
  }

  /** `str(n)` for a natural number: decimal digits, no leading zero. */
  function NatToString(n: nat): (s: string)
    ensures |s| > 0 && forall k :: 0 <= k < |s| ==> '0' <= s[k] <= '9'
    ensures |s| > 1 ==> s[0] != '0'
    decreases n
  {
    if n < 10 then [DigitChar(n)] else NatToString(n / 10) + [DigitChar(n % 10)]
  }

  /** The value of a string of decimal digits; None for an empty string or any other character. */
  function ParseNat(s: string): (r: Option<nat>)
    ensures r.Some? <==> |s| > 0 && forall k :: 0 <= k < |s| ==> '0' <= s[k] <= '9'
  {
    if |s| == 0 || !('0' <= s[|s| - 1] <= '9') then None
    else if |s| == 1 then Some(s[0] as int - '0' as int)
    else
      var init := ParseNat(s[..|s| - 1]);
      assert forall k :: 0 <= k < |s| - 1 ==> s[..|s| - 1][k] == s[k];
      if init.None? then None else Some(10 * init.value + (s[|s| - 1] as int - '0' as int))
  }

  /** Reading back a number's decimal form gives the number. */
  lemma {:induction false} ParseNatToString(n: nat)
    ensures ParseNat(NatToString(n)) == Some(n)
    decreases n
  {
    if n >= 10 {
      ParseNatToString(n / 10);
      var s := NatToString(n);
      assert s[..|s| - 1] == NatToString(n / 10);
    }
  }

  /** Distinct numbers have distinct decimal forms. */
  lemma NatToStringInjective(a: nat, b: nat)
    requires NatToString(a) == NatToString(b)
    ensures a == b
  {
    ParseNatToString(a);
    ParseNatToString(b);
  }

  /** The table key of a level: `str(level)`. */
  function Key(level: nat): string
  {
    NatToString(level)
  }

  // ---------------------------------------------------------------- the table

  type Table = map<string, int>

  /** `get` and `set` assert the level range; `get` also fails on a key the loaded file lacks. */
  datatype ScoresError = LevelNotAllowed | NoScoreStored

  /** `reset_scores`: every level from MinLevel to MaxLevel scores 0, and nothing else is stored. */
  function ResetScores(): (t: Table)
    ensures forall l :: ValidLevel(l) ==> Key(l) in t && t[Key(l)] == 0
    ensures forall k :: k in t ==> exists l :: ValidLevel(l) && k == Key(l)
  {
    map l: nat | MinLevel <= l <= MaxLevel :: Key(l) := 0
  }

  /** `Scores.get`. */
  function Get(t: Table, level: int): (r: Result<int, ScoresError>)
    ensures !ValidLevel(level) ==> r == Failure(LevelNotAllowed)
    ensures ValidLevel(level) ==> (r.Failure? <==> Key(level) !in t)
    ensures r.Failure? ==> r.error == LevelNotAllowed || r.error == NoScoreStored
    ensures r.Success? ==> Key(level) in t && r.value == t[Key(level)]
  {
    if !ValidLevel(level) then Failure(LevelNotAllowed)
    else if Key(level) !in t then Failure(NoScoreStored)
    else Success(t[Key(level)])
  }

  /** `Scores.set`: overwrite the level's entry, leaving every other key as it was. */
  function Set(t: Table, level: int, score: int): (r: Result<Table, ScoresError>)
    ensures r.Success? <==> ValidLevel(level)
    ensures r.Failure? ==> r.error == LevelNotAllowed
    ensures r.Success? ==> r.value.Keys == t.Keys + {Key(level)} && r.value[Key(level)] == score
    ensures r.Success? ==> forall k :: k in t && k != Key(level) ==> r.value[k] == t[k]
  {
    if !ValidLevel(level) then Failure(LevelNotAllowed) else Success(t[Key(level) := score])
  }

  /** A fresh table reads 0 on every valid level. */
  lemma ResetReadsZero(level: int)
    requires ValidLevel(level)
    ensures Get(ResetScores(), level) == Success(0)
  {
  }

  /** Reading a level back after setting it gives the score set. */
  lemma GetAfterSet(t: Table, level: int, score: int)
    requires ValidLevel(level)
    ensures Set(t, level, score).Success? && Get(Set(t, level, score).value, level) == Success(score)
  {
  }

  /** Setting one level leaves what every other level reads unchanged. */
  lemma SetOthersUnchanged(t: Table, level: int, other: int, score: int)
    requires ValidLevel(level) && other != level
    ensures Get(Set(t, level, score).value, other) == Get(t, other)
  {
    if ValidLevel(other) {
      if Key(level) == Key(other) {
        NatToStringInjective(level, other);
      }
    }
  }

  /** `load_scores`: the table stored in the score file; a missing or unreadable file leaves it empty. */
  function LoadScores(file: Option<Table>): (r: Table)
    ensures file.None? ==> r == map[]
    ensures file.Some? ==> r == file.value
  {
    if file.Some? then file.value else map[]
  }

  // ---------------------------------------------------------------- the high-score screen

  /**
   * As written, the high-score screen reads each level with `get`, which fails on a missing key:
   * with no score file nothing can be read, and after one game over only the level just played.
   */
  lemma MissingFileBreaksScreen()
    ensures Get(LoadScores(None), 1) == Failure(NoScoreStored)
    ensures var after := Set(LoadScores(None), 3, 5).value;
            Get(after, 3) == Success(5) && Get(after, 1) == Failure(NoScoreStored)
  {
    assert Key(1) == "1" && Key(3) == "3";
  }

  /** The read the screen's `None` check expects: the stored score, or None for a level the table lacks. */
  function Lookup(t: Table, level: int): (r: Result<Option<int>, ScoresError>)
    ensures r.Failure? <==> !ValidLevel(level)
    ensures r.Failure? ==> r.error == LevelNotAllowed
    ensures r.Success? ==> (r.value.None? <==> Key(level) !in t)
    ensures r.Success? && r.value.Some? ==> r.value.value == t[Key(level)]
  {
    if !ValidLevel(level) then Failure(LevelNotAllowed)
    else if Key(level) !in t then Success(None)
    else Success(Some(t[Key(level)]))
  }

  /** On every listed level the lookup succeeds: it agrees with `get` where `get` succeeds and shows '-' where it fails. */
  lemma LookupTotalOnScreen(t: Table, level: int)
    requires ValidLevel(level)
    ensures Lookup(t, level).Success?
    ensures Get(t, level).Success? ==> Lookup(t, level) == Success(Some(Get(t, level).value))
    ensures Get(t, level).Failure? ==> Lookup(t, level) == Success(None)
  {
  }

  // ---------------------------------------------------------------- the game-over screen

  /** `GameOverState.enter` as written: the round's score replaces the stored one. */
  function RecordOnGameOverAsWritten(t: Table, level: int, score: int): (r: Result<Table, ScoresError>)
    ensures r.Success? <==> ValidLevel(level)
    ensures r.Success? ==> Get(r.value, level) == Success(score)
  {
    Set(t, level, score)
  }

  /** A weaker round wipes out the best score the table stores for the level. */
  lemma GameOverCanLowerBest()
    ensures var t := ResetScores()[Key(1) := 7];
            Get(RecordOnGameOverAsWritten(t, 1, 5).value, 1) == Success(5)
  {
  }

  /** The table as its comment describes it: the stored score is the best one seen. */
  function RecordOnGameOver(t: Table, level: int, score: int): (r: Result<Table, ScoresError>)
    ensures r.Success? <==> ValidLevel(level)
    ensures r.Success? ==> var stored := Get(t, level);
            Get(r.value, level) == Success(if stored.Success? && stored.value > score then stored.value else score)
    ensures r.Success? ==> forall other :: other != level ==> Get(r.value, other) == Get(t, other)
  {
    if !ValidLevel(level) then Failure(LevelNotAllowed)
    else
      var stored := Get(t, level);
      var best := if stored.Success? && stored.value > score then stored.value else score;
      forall other | other != level ensures Get(t[Key(level) := best], other) == Get(t, other) {
        SetOthersUnchanged(t, level, other, best);
      }
      Success(t[Key(level) := best])
  }

  /** Recording a round never lowers what a level reads. */
  lemma RecordNeverLowers(t: Table, level: int, score: int)
    requires ValidLevel(level) && Get(t, level).Success?
    ensures Get(RecordOnGameOver(t, level, score).value, level).value >= Get(t, level).value
    ensures Get(RecordOnGameOver(t, level, score).value, level).value >= score
  {
  }
}

=== FILE: math_util.dfy ===
/** `clip` (and the server's identical `clamp`): max(lower, min(value, upper)). */
module MathUtil {

  function Clip(value: int, lower: int, upper: int): (r: int)
    ensures r >= lower
    ensures lower <= upper ==> r <= upper
    ensures lower <= value <= upper ==> r == value
    ensures lower <= upper && value < lower ==> r == lower
    ensures lower <= upper && value > upper ==> r == upper
  {
    var m := if value < upper then value else upper;
    if lower < m then m else lower
  }

  /** Clipping an already clipped value changes nothing, whatever the bounds. */
  lemma ClipIdempotent(value: int, lower: int, upper: int)
    ensures Clip(Clip(value, lower, upper), lower, upper) == Clip(value, lower, upper)
  {
  }
}

=== FILE: prototype.dfy ===
/**
 * The rules of the first prototype (`2d/main.py`) where they differ from the single-player
 * entities: an alert level with no upper bound, and the game's photo scoring. Its hunter move,
 * photo scan, deer flee/random moves and `get_cell` are the algorithms of `Solo` and `CoreMap`.
 */
module Prototype {
  import opened Geometry
  import opened Terrain
  import opened Shuffle
  import opened Solo

  /** The prototype's alert update: +2 when the hunter is nearer than 5, else calm down to no less than 0. */
  function PrototypeAlert(alert: int, distance: nat): (r: int)
    ensures alert >= 0 ==> r >= 0
    ensures distance < 5 ==> r > alert
    ensures distance >= 5 ==> r <= alert || r == 0
    ensures distance < 5 ==> r == alert + 2
    ensures distance >= 5 ==> r == (if alert >= 1 then alert - 1 else 0)
  {
    if distance < 5 then alert + 2 else if alert - 1 > 0 then alert - 1 else 0
  }

  /** Below the single-player ceiling the two rule sets agree. */
  lemma PrototypeAgreesBelowCeiling(alert: int, distance: nat)
    requires 0 <= alert <= MaxAlertLevel - 2
    ensures PrototypeAlert(alert, distance) == SoloAlert(alert, distance)
  {
  }

  /** The alert level after a run of ticks at the given distances. */
  function PrototypeAlertAfter(alert: int, distances: seq<nat>): int
    decreases |distances|
  {
    if |distances| == 0 then alert else PrototypeAlertAfter(PrototypeAlert(alert, distances[0]), distances[1..])
  }

  /** A hunter that stays close raises the alert by two per tick forever: nothing caps it at 10. */
  lemma {:induction false} PrototypeAlertUnbounded(alert: int, n: nat)
    ensures PrototypeAlertAfter(alert, seq(n, _ => 0)) == alert + 2 * n
    decreases n
  {
    if n > 0 {
      var close := seq(n, _ => 0);
      assert close[1..] == seq(n - 1, _ => 0);
      PrototypeAlertUnbounded(alert + 2, n - 1);
    }
  }

  /** The alert level never goes negative from a calm start. */
  lemma {:induction false} PrototypeAlertNonNegative(alert: int, distances: seq<nat>)
    requires alert >= 0
    ensures PrototypeAlertAfter(alert, distances) >= 0
    decreases |distances|
  {
    if |distances| > 0 {
      PrototypeAlertNonNegative(PrototypeAlert(alert, distances[0]), distances[1..]);
    }
  }

  /** The prototype `Deer.update`: flee when the alert exceeds 5, else wander on a 25% roll. */
  function PrototypeDeerUpdate(g: Grid, d: SoloDeer, hunter: Position, roll: SoloRoll): (r: SoloDeer)
    ensures r.alert == PrototypeAlert(d.alert, Manhattan(d.pos, hunter))
    ensures r.alert > 5 ==> r.pos == d.pos || Manhattan(r.pos, hunter) > Manhattan(d.pos, hunter)
    ensures r.alert <= 5 && !roll.wander ==> r.pos == d.pos
    ensures r.alert <= 5 ==> r.pos == d.pos || Manhattan(r.pos, d.pos) == 1
    ensures r.pos == d.pos || Walkable(g, r.pos)
    ensures r.alert > 5 ==> FirstWalkableCell(g, d.pos, Unrank(SoloFleeMoves(d.pos, hunter), roll.shuffle), r.pos)
    ensures r.alert <= 5 && roll.wander ==> FirstWalkableCell(g, d.pos, Unrank(SoloSteps, roll.shuffle), r.pos)
    ensures r.alert <= 5 && roll.wander && (exists j :: 0 <= j < |SoloSteps| && Walkable(g, Add(d.pos, SoloSteps[j]))) ==>
              Manhattan(r.pos, d.pos) == 1
  {
    var alert := PrototypeAlert(d.alert, Manhattan(d.pos, hunter));
    if alert > 5 then
      SoloFleeNeverCloser(g, d.pos, hunter, roll.shuffle);
      SoloDeer(SoloMove(g, d.pos, SoloFleeMoves(d.pos, hunter), roll.shuffle), alert)
    else if roll.wander then
      SoloStepsAreUnit();
      UnitMovesOneStep(g, d.pos, SoloSteps, roll.shuffle);
      SoloWalkMovesIfOpen(g, d.pos, roll.shuffle);
      SoloDeer(SoloMove(g, d.pos, SoloSteps, roll.shuffle), alert)
    else
      SoloDeer(d.pos, alert)
  }

  // ---------------------------------------------------------------- scoring

  /** The number of deer marked as photographed. */
  function CountMarked(marked: seq<bool>): nat
  {
    if |marked| == 0 then 0 else (if marked[0] then 1 else 0) + CountMarked(marked[1..])
  }

  lemma {:induction false} MarkOneMore(marked: seq<bool>, h: nat)
    requires h < |marked| && !marked[h]
    ensures CountMarked(marked[h := true]) == CountMarked(marked) + 1
    decreases |marked|
  {
    if h > 0 {
      assert marked[h := true][1..] == marked[1..][h - 1 := true];
      MarkOneMore(marked[1..], h - 1);
    }
  }

  /** The game's score and the deer's photographed flags. */
  datatype Tally = Tally(score: int, marked: seq<bool>)

  /**
   * `Game.take_photo`: each deer the photo returns is marked and scores one point, unless it
   * was already marked.
   */
  function ScorePhoto(t: Tally, hits: seq<nat>): (r: Tally)
    requires forall k :: 0 <= k < |hits| ==> hits[k] < |t.marked|
    ensures |r.marked| == |t.marked|
    ensures forall j :: 0 <= j < |t.marked| ==> (r.marked[j] <==> t.marked[j] || j in hits)
    ensures r.score - CountMarked(r.marked) == t.score - CountMarked(t.marked)
    decreases |hits|
  {
    if |hits| == 0 then t
    else
      var h := hits[0];
      assert forall j :: j in hits <==> j == h || j in hits[1..];
      if t.marked[h] then ScorePhoto(t, hits[1..])
      else
        MarkOneMore(t.marked, h);
        ScorePhoto(Tally(t.score + 1, t.marked[h := true]), hits[1..])
  }

  /** Starting from no photos, the score always equals the number of marked deer. */
  lemma ScoreCountsMarkedDeer(t: Tally, hits: seq<nat>)
    requires t.score == CountMarked(t.marked)
    requires forall k :: 0 <= k < |hits| ==> hits[k] < |t.marked|
    ensures ScorePhoto(t, hits).score == CountMarked(ScorePhoto(t, hits).marked)
  {
  }

  /** Photographing the same deer again scores nothing. */
  lemma ScorePhotoIdempotent(t: Tally, hits: seq<nat>)
    requires forall k :: 0 <= k < |hits| ==> hits[k] < |t.marked|
    ensures ScorePhoto(ScorePhoto(t, hits), hits).score == ScorePhoto(t, hits).score
  {
    var once := ScorePhoto(t, hits);
    var twice := ScorePhoto(once, hits);
    assert twice.marked == once.marked;
  }
}

=== FILE: score_book.dfy ===
/**
 * `ScoreManager`: per-level top-10 lists ordered by score (higher first) and then by time
 * taken (shorter first), the dictionary form entries are saved in, and the player-name rules.
 * The JSON file is not modelled: the loaded table is an input.
 */
module ScoreBook {
  import opened Wrappers

  // ---------------------------------------------------------------- names

  /** The ASCII characters `str.strip` removes: space, tab, LF, VT, FF, CR and the separators FS, GS, RS, US. */
  predicate IsSpace(c: char)
  {
    c == ' ' || (9 <= c as int <= 13) || (28 <= c as int <= 31)
  }

  /** The number of leading whitespace characters. */
  function LeadCount(s: string): (n: nat)
    ensures n <= |s| && forall k :: 0 <= k < n ==> IsSpace(s[k])
    ensures n < |s| ==> !IsSpace(s[n])
  {
    if |s| > 0 && IsSpace(s[0]) then
      var n := LeadCount(s[1..]);
      assert forall k :: 1 <= k <= n ==> s[k] == s[1..][k - 1];
      1 + n
    else 0
  }

  /** The length left once trailing whitespace is removed. */
  function TrailEnd(s: string): (n: nat)
    ensures n <= |s| && forall k :: n <= k < |s| ==> IsSpace(s[k])
    ensures n > 0 ==> !IsSpace(s[n - 1])
  {
    if |s| > 0 && IsSpace(s[|s| - 1]) then
      var n := TrailEnd(s[..|s| - 1]);
      assert forall k :: n <= k < |s| - 1 ==> s[k] == s[..|s| - 1][k];
      n
    else |s|
  }

  /** The leading count and the trailing end of s: they cross only when s is all whitespace. */
  lemma StripSlice(s: string, i: nat, j: nat)
    requires i == LeadCount(s) && j == TrailEnd(s)
    ensures i < |s| ==> i < j
    ensures i == |s| <==> forall k :: 0 <= k < |s| ==> IsSpace(s[k])
  {
    if i < |s| {
      assert !IsSpace(s[i]);
    }
  }

  /** `s[i..j]` is `s` with only whitespace cut on either side. */
  predicate IsStripCut(s: string, i: int, j: int)
  {
    && 0 <= i <= j <= |s|
    && (forall k :: 0 <= k < i ==> IsSpace(s[k]))
    && (forall k :: j <= k < |s| ==> IsSpace(s[k]))
  }

  /** `str.strip`: the slice left once leading and trailing whitespace is removed. */
  function Strip(s: string): (r: string)
    ensures exists i, j :: IsStripCut(s, i, j) && r == s[i..j]
    ensures |r| > 0 ==> !IsSpace(r[0]) && !IsSpace(r[|r| - 1])
    ensures r == [] <==> forall k :: 0 <= k < |s| ==> IsSpace(s[k])
  {
    var i := LeadCount(s);
    var j := TrailEnd(s);
    StripSlice(s, i, j);
    if i < |s| then
      assert IsStripCut(s, i, j);
      s[i..j]
    else
      assert IsStripCut(s, |s|, |s|);
      []
  }

  /** A string with no surrounding whitespace is its own strip. */
  lemma StripTrimmed(s: string)
    requires |s| > 0 ==> !IsSpace(s[0]) && !IsSpace(s[|s| - 1])
    ensures Strip(s) == s
  {
    assert LeadCount(s) == 0;
    assert TrailEnd(s) == |s|;
    assert s[0..|s|] == s;
  }

  /** Stripping twice is stripping once. */
  lemma StripIdempotent(s: string)
    ensures Strip(Strip(s)) == Strip(s)
  {
    StripTrimmed(Strip(s));
  }

  /** `set_player_name`'s rule: the stripped name, or "Player" when nothing is left. */
  function NormaliseName(name: string): (r: string)
    ensures |r| > 0 && !IsSpace(r[0]) && !IsSpace(r[|r| - 1])
    ensures Strip(name) != [] ==> r == Strip(name)
    ensures Strip(name) == [] ==> r == "Player"
  {
    var s := Strip(name);
    if s == [] then "Player" else s
  }

  /** `add_score`'s rule: a missing name is the current one; then "Player" if empty, else stripped. */
  function AddScoreName(name: Option<string>, current: string): (r: string)
    ensures name.Some? && name.value != [] ==> r == Strip(name.value)
    ensures name.Some? && name.value == [] ==> r == "Player"
    ensures name.None? ==> r == (if current == [] then "Player" else Strip(current))
  {
    var n := if name.Some? then name.value else current;
    if n == [] then "Player" else Strip(n)
  }

  /** The two rules differ on a name of blanks: `add_score` stores it empty, `set_player_name` makes it "Player". */
  lemma BlankNameRulesDiffer()
    ensures AddScoreName(Some("  "), "Player") == []
    ensures NormaliseName("  ") == "Player"
  {
    assert forall k :: 0 <= k < |"  "| ==> IsSpace("  "[k]);
  }

  // ---------------------------------------------------------------- entries

  datatype ScoreEntry = ScoreEntry(playerName: string, score: int, level: int, date: string, timeTaken: real)

  /** The `ScoreEntry` constructor: a missing or empty date becomes `now`; a negative time becomes 0. */
  function NewEntry(name: string, score: int, level: int, date: Option<string>, timeTaken: real, now: string): (e: ScoreEntry)
    ensures e.playerName == name && e.score == score && e.level == level
    ensures e.timeTaken >= 0.0
    ensures timeTaken >= 0.0 ==> e.timeTaken == timeTaken
    ensures timeTaken < 0.0 ==> e.timeTaken == 0.0
    ensures date.Some? && date.value != [] ==> e.date == date.value
    ensures date.None? || date.value == [] ==> e.date == now
  {
    var d := if date.Some? && date.value != [] then date.value else now;
    ScoreEntry(name, score, level, d, if timeTaken > 0.0 then timeTaken else 0.0)
  }

  /** The saved form of an entry: a dictionary whose keys may be missing. */
  datatype ScoreDict = ScoreDict(
    playerName: Option<string>, score: Option<int>, level: Option<int>, date: Option<string>, timeTaken: Option<real>)

  function ToDict(e: ScoreEntry): (d: ScoreDict)
    ensures d.playerName == Some(e.playerName) && d.score == Some(e.score) && d.level == Some(e.level)
    ensures d.date == Some(e.date) && d.timeTaken == Some(e.timeTaken)
  {
    ScoreDict(Some(e.playerName), Some(e.score), Some(e.level), Some(e.date), Some(e.timeTaken))
  }

  function GetOr<T>(o: Option<T>, default: T): (r: T)
    ensures o.Some? ==> r == o.value
    ensures o.None? ==> r == default
  {
    if o.Some? then o.value else default
  }

  /** `from_dict`: missing keys default to 'Anonymous', 0, 1, '' and 0, then the constructor runs. */
  function FromDict(d: ScoreDict, now: string): (e: ScoreEntry)
    ensures e.playerName == GetOr(d.playerName, "Anonymous")
    ensures e.score == GetOr(d.score, 0) && e.level == GetOr(d.level, 1)
    ensures e.timeTaken >= 0.0
    ensures d.timeTaken.None? ==> e.timeTaken == 0.0
    ensures d.timeTaken.Some? && d.timeTaken.value >= 0.0 ==> e.timeTaken == d.timeTaken.value
    ensures d.timeTaken.Some? && d.timeTaken.value < 0.0 ==> e.timeTaken == 0.0
    ensures d.date.Some? && d.date.value != [] ==> e.date == d.date.value
    ensures d.date.None? || d.date.value == [] ==> e.date == now
  {
    NewEntry(GetOr(d.playerName, "Anonymous"), GetOr(d.score, 0), GetOr(d.level, 1),
             Some(GetOr(d.date, "")), GetOr(d.timeTaken, 0.0), now)
  }

  /** Saving and reloading keeps every field of an entry that has a date and a non-negative time. */
  lemma DictRoundTrip(e: ScoreEntry, now: string)
    requires e.date != [] && e.timeTaken >= 0.0
    ensures FromDict(ToDict(e), now) == e
  {
  }

  /** Every entry the constructor builds at a non-empty clock stamp survives a save and reload. */
  lemma NewEntryRoundTrips(name: string, score: int, level: int, date: Option<string>, timeTaken: real, now: string, later: string)
    requires now != []
    ensures var e := NewEntry(name, score, level, date, timeTaken, now);
            FromDict(ToDict(e), later) == e
  {
    DictRoundTrip(NewEntry(name, score, level, date, timeTaken, now), later);
  }

  // ---------------------------------------------------------------- ordering

  /** a ranks strictly ahead of b under the sort key (-score, time_taken). */
  predicate Ahead(a: ScoreEntry, b: ScoreEntry)
  {
    a.score > b.score || (a.score == b.score && a.timeTaken < b.timeTaken)
  }

  /** No entry ranks strictly ahead of an entry listed before it. */
  predicate Sorted(s: seq<ScoreEntry>)
  {
    forall i, j :: 0 <= i < j < |s| ==> !Ahead(s[j], s[i])
  }

  /** Where stable insertion puts x: before the first entry x ranks strictly ahead of. */
  function InsertPos(s: seq<ScoreEntry>, x: ScoreEntry): (i: nat)
    ensures i <= |s|
    ensures forall k :: 0 <= k < i ==> !Ahead(x, s[k])
    ensures i < |s| ==> Ahead(x, s[i])
  {
    if |s| == 0 || Ahead(x, s[0]) then 0
    else
      var i := InsertPos(s[1..], x);
      assert forall k :: 1 <= k <= i ==> s[k] == s[1..][k - 1];
      1 + i
  }

  /** Stable insertion of x into s. */
  function Insert(s: seq<ScoreEntry>, x: ScoreEntry): (r: seq<ScoreEntry>)
    ensures |r| == |s| + 1
    ensures multiset(r) == multiset(s) + multiset{x}
  {
    var i := InsertPos(s, x);
    assert s == s[..i] + s[i..];
    s[..i] + [x] + s[i..]
  }

  lemma InsertKeepsSorted(s: seq<ScoreEntry>, x: ScoreEntry)
    requires Sorted(s)
    ensures Sorted(Insert(s, x))
  {
    var r := Insert(s, x);
    var i := InsertPos(s, x);
    assert r == s[..i] + [x] + s[i..];
    assert forall k :: 0 <= k < i ==> r[k] == s[k];
    assert r[i] == x;
    assert forall k :: i < k < |r| ==> r[k] == s[k - 1];
    forall a, b | 0 <= a < b < |r| ensures !Ahead(r[b], r[a]) {
      if a == i && b > i {
        AheadOfUnbeaten(x, s[i], s[b - 1]);
      }
    }
  }

  /** `list.sort(key=lambda x: (-x.score, x.time_taken))` as repeated stable insertion. */
  function Sort(s: seq<ScoreEntry>): (r: seq<ScoreEntry>)
    ensures |r| == |s| && multiset(r) == multiset(s)
    ensures Sorted(r)
  {
    if |s| == 0 then []
    else
      var init := Sort(s[..|s| - 1]);
      assert s == s[..|s| - 1] + [s[|s| - 1]];
      InsertKeepsSorted(init, s[|s| - 1]);
      Insert(init, s[|s| - 1])
  }

  /** An entry ranking ahead of nothing in s goes to the end. */
  lemma InsertAtEnd(s: seq<ScoreEntry>, x: ScoreEntry)
    requires forall k :: 0 <= k < |s| ==> !Ahead(x, s[k])
    ensures Insert(s, x) == s + [x]
  {
    assert InsertPos(s, x) == |s|;
  }

  /** Sorting a list already in ranking order leaves it as it is. */
  lemma {:induction false} SortFixesSorted(s: seq<ScoreEntry>)
    requires Sorted(s)
    ensures Sort(s) == s
  {
    if |s| > 0 {
      var init := s[..|s| - 1];
      var last := s[|s| - 1];
      PrefixOfSorted(s, |s| - 1);
      SortFixesSorted(init);
      assert forall k :: 0 <= k < |init| ==> !Ahead(last, init[k]) by {
        assert forall k :: 0 <= k < |init| ==> init[k] == s[k];
      }
      InsertAtEnd(init, last);
      assert init + [last] == s;
    }
  }

  /** Where Python's slice `s[:n]` ends on a list of the given length, negative n counting from the end. */
  function SliceEnd(length: nat, n: int): (e: nat)
    ensures e <= length
    ensures n >= 0 ==> e == if n < length then n else length
    ensures n < 0 ==> e == if length + n > 0 then length + n else 0
  {
    if n >= 0 then (if n < length then n else length)
    else if length + n > 0 then length + n else 0
  }

  /** A prefix of a sorted list is sorted and draws on the list's entries. */
  lemma PrefixOfSorted(s: seq<ScoreEntry>, e: nat)
    requires Sorted(s) && e <= |s|
    ensures Sorted(s[..e])
    ensures multiset(s[..e]) + multiset(s[e..]) == multiset(s)
  {
    assert s == s[..e] + s[e..];
  }

  /**
   * `kept` is what keeping the first ten of `entries` in ranking order yields: min(10, n) entries,
   * sorted, drawn from `entries`, all of them when there are at most ten, and none of the dropped
   * entries ranks ahead of a kept one.
   */
  predicate IsTop10(entries: seq<ScoreEntry>, kept: seq<ScoreEntry>)
  {
    && |kept| == (if |entries| < 10 then |entries| else 10)
    && Sorted(kept)
    && multiset(kept) <= multiset(entries)
    && (|entries| <= 10 ==> multiset(kept) == multiset(entries))
    && forall k, d :: k in kept && d in multiset(entries) - multiset(kept) ==> !Ahead(d, k)
  }

  /** The first ten entries of `entries` in ranking order. */
  function Top10(entries: seq<ScoreEntry>): (kept: seq<ScoreEntry>)
    ensures |kept| == if |entries| < 10 then |entries| else 10
    ensures Sorted(kept)
    ensures multiset(kept) <= multiset(entries)
    ensures |entries| <= 10 ==> multiset(kept) == multiset(entries)
    ensures forall k, d :: k in kept && d in multiset(entries) - multiset(kept) ==> !Ahead(d, k)
  {
    var sorted := Sort(entries);
    var e := SliceEnd(|sorted|, 10);
    PrefixOfSorted(sorted, e);
    var kept := sorted[..e];
    assert multiset(entries) - multiset(kept) == multiset(sorted[e..]);
    DroppedRankBehind(sorted, e);
    kept
  }

  /** In a sorted list nothing after position e ranks ahead of anything before it. */
  lemma DroppedRankBehind(sorted: seq<ScoreEntry>, e: nat)
    requires Sorted(sorted) && e <= |sorted|
    ensures forall k, d :: k in sorted[..e] && d in multiset(sorted[e..]) ==> !Ahead(d, k)
  {
    forall k, d | k in sorted[..e] && d in multiset(sorted[e..]) ensures !Ahead(d, k) {
      var a :| 0 <= a < e && sorted[a] == k;
      assert d in sorted[e..];
      var c :| e <= c < |sorted| && sorted[c] == d;
    }
  }

  /**
   * Appending an entry that ranks ahead of none of the first ten of a sorted list of at least ten
   * leaves the top ten as they were: the stable sort puts it after every entry it ties with.
   */
  lemma TieAtCutDropped(s: seq<ScoreEntry>, x: ScoreEntry)
    requires Sorted(s) && |s| >= 10
    requires forall k :: 0 <= k < 10 ==> !Ahead(x, s[k])
    ensures Top10(s + [x]) == s[..10]
  {
    var t := s + [x];
    assert t[..|t| - 1] == s;
    assert t[|t| - 1] == x;
    SortFixesSorted(s);
    assert Sort(t) == Insert(s, x);
    var i := InsertPos(s, x);
    assert i >= 10;
    assert Insert(s, x)[..10] == s[..10];
  }

  // ---------------------------------------------------------------- the manager

  /** The manager's state: per-level lists and the current player name. */
  datatype Book = Book(scores: map<int, seq<ScoreEntry>>, currentName: string)

  /** `ScoreManager.__init__` with the loaded table as input. */
  function NewBook(loaded: map<int, seq<ScoreEntry>>): (b: Book)
    ensures b.scores == loaded && b.currentName == "Player"
  {
    Book(loaded, "Player")
  }

  function Listed(b: Book, level: int): seq<ScoreEntry>
  {
    if level in b.scores then b.scores[level] else []
  }

  /** The entry `add_score` records: normalised name, stamped with `now`, time clamped at 0. */
  function AddedEntry(b: Book, level: int, score: int, timeTaken: real, name: Option<string>, now: string): ScoreEntry
  {
    NewEntry(AddScoreName(name, b.currentName), score, level, None, timeTaken, now)
  }

  /** The book with one level's list replaced. */
  function Store(b: Book, level: int, kept: seq<ScoreEntry>): (r: Book)
    ensures r.currentName == b.currentName
    ensures level in r.scores && r.scores[level] == kept
    ensures forall l :: l != level ==> (l in r.scores <==> l in b.scores)
    ensures forall l :: l in b.scores && l != level ==> r.scores[l] == b.scores[l]
  {
    b.(scores := b.scores[level := kept])
  }

  /**
   * `add_score`: append the new entry, sort by (-score, time_taken) and keep the first 10;
   * what it drops ranks no better than anything it keeps. It always reports success.
   */
  function AddScore(b: Book, level: int, score: int, timeTaken: real, name: Option<string>, now: string): (r: Book)
    ensures r.currentName == b.currentName
    ensures level in r.scores && forall l :: l != level ==> (l in r.scores <==> l in b.scores)
    ensures forall l :: l in b.scores && l != level ==> r.scores[l] == b.scores[l]
    ensures IsTop10(Listed(b, level) + [AddedEntry(b, level, score, timeTaken, name, now)], r.scores[level])
  {
    var entries := Listed(b, level) + [AddedEntry(b, level, score, timeTaken, name, now)];
    var kept := Top10(entries);
    assert IsTop10(entries, kept);
    Store(b, level, kept)
  }

  /**
   * Ties at the cut: when a level already holds ten or more sorted entries and the new one ranks
   * ahead of none of the first ten, `add_score` keeps exactly those ten and drops the new one.
   */
  lemma AddScoreTieAtCut(b: Book, level: int, score: int, timeTaken: real, name: Option<string>, now: string)
    requires Sorted(Listed(b, level)) && |Listed(b, level)| >= 10
    requires forall k :: 0 <= k < 10 ==> !Ahead(AddedEntry(b, level, score, timeTaken, name, now), Listed(b, level)[k])
    ensures AddScore(b, level, score, timeTaken, name, now).scores[level] == Listed(b, level)[..10]
  {
    TieAtCutDropped(Listed(b, level), AddedEntry(b, level, score, timeTaken, name, now));
  }

  /** `get_high_scores`: the level's entries in ranking order, cut at `limit` as Python slices. */
  function GetHighScores(b: Book, level: int, limit: int): (r: seq<ScoreEntry>)
    ensures level !in b.scores ==> r == []
    ensures Sorted(r) && multiset(r) <= multiset(Listed(b, level))
    ensures |r| == SliceEnd(|Listed(b, level)|, limit)
    ensures forall k, d :: k in r && d in multiset(Listed(b, level)) - multiset(r) ==> !Ahead(d, k)
  {
    if level !in b.scores then []
    else
      var sorted := Sort(b.scores[level]);
      var e := SliceEnd(|sorted|, limit);
      PrefixOfSorted(sorted, e);
      assert multiset(Listed(b, level)) - multiset(sorted[..e]) == multiset(sorted[e..]);
      DroppedRankBehind(sorted, e);
      sorted[..e]
  }

  /** A stored list that is sorted and at most ten long is exactly what `get_high_scores(level, 10)` gives. */
  lemma HighScoresOfStoredTop(b: Book, level: int)
    requires level in b.scores && Sorted(b.scores[level]) && |b.scores[level]| <= 10
    ensures GetHighScores(b, level, 10) == b.scores[level]
  {
    var kept := b.scores[level];
    SortFixesSorted(kept);
    assert SliceEnd(|kept|, 10) == |kept|;
    assert kept[..|kept|] == kept;
  }

  /** After `add_score`, the level's high-score list is exactly the list it stored. */
  lemma HighScoresAfterAdd(b: Book, level: int, score: int, timeTaken: real, name: Option<string>, now: string)
    ensures var r := AddScore(b, level, score, timeTaken, name, now);
            GetHighScores(r, level, 10) == r.scores[level]
  {
    var r := AddScore(b, level, score, timeTaken, name, now);
    assert IsTop10(Listed(b, level) + [AddedEntry(b, level, score, timeTaken, name, now)], r.scores[level]);
    HighScoresOfStoredTop(r, level);
  }

  /** The first entry of highest score among those of one player, from index n on. */
  function BestOf(s: seq<ScoreEntry>, name: string, n: nat): (r: Option<nat>)
    requires n <= |s|
    ensures r.None? <==> forall k :: 0 <= k < n ==> s[k].playerName != name
    ensures r.Some? ==> r.value < n && s[r.value].playerName == name
    ensures r.Some? ==> forall k :: 0 <= k < n && s[k].playerName == name ==> s[k].score <= s[r.value].score
    ensures r.Some? ==> forall k :: 0 <= k < r.value && s[k].playerName == name ==> s[k].score < s[r.value].score
  {
    if n == 0 then None
    else
      var best := BestOf(s, name, n - 1);
      if s[n - 1].playerName != name then best
      else if best.None? then Some(n - 1)
      else if s[n - 1].score > s[best.value].score then Some(n - 1)
      else best
  }

  /** `get_personal_best`: that player's first entry of highest score on the level, if any. */
  function GetPersonalBest(b: Book, level: int, name: Option<string>): (r: Option<ScoreEntry>)
    ensures var who := GetOr(name, b.currentName);
            r.None? <==> forall e :: e in Listed(b, level) ==> e.playerName != who
    ensures var who := GetOr(name, b.currentName);
            r.Some? ==> r.value in Listed(b, level) && r.value.playerName == who &&
                        forall e :: e in Listed(b, level) && e.playerName == who ==> e.score <= r.value.score
  {
    var who := GetOr(name, b.currentName);
    var s := Listed(b, level);
    var best := BestOf(s, who, |s|);
    if best.None? then None else Some(s[best.value])
  }

  /** The least score of a non-empty list. */
  function MinScore(s: seq<ScoreEntry>): (m: int)
    requires |s| > 0
    ensures exists k :: 0 <= k < |s| && s[k].score == m
    ensures forall k :: 0 <= k < |s| ==> m <= s[k].score
  {
    if |s| == 1 then s[0].score
    else
      var rest := MinScore(s[1..]);
      assert forall k :: 1 <= k < |s| ==> s[k] == s[1..][k - 1];
      if s[0].score < rest then s[0].score else rest
  }

  /** `is_high_score`: true while fewer than 10 entries are listed, else iff the score beats the lowest listed one. */
  function IsHighScore(b: Book, level: int, score: int): (r: bool)
    ensures var top := GetHighScores(b, level, 10);
            r <==> |top| < 10 || exists k :: 0 <= k < |top| && score > top[k].score
  {
    var top := GetHighScores(b, level, 10);
    if |top| < 10 then true else score > MinScore(top)
  }

  /** With room on the list, any score is a high score and `add_score` keeps it. */
  lemma HighScoreWhenRoom(b: Book, level: int, score: int, timeTaken: real, name: Option<string>, now: string)
    requires |Listed(b, level)| < 10
    ensures IsHighScore(b, level, score)
    ensures AddedEntry(b, level, score, timeTaken, name, now) in AddScore(b, level, score, timeTaken, name, now).scores[level]
  {
    var entry := AddedEntry(b, level, score, timeTaken, name, now);
    var kept := AddScore(b, level, score, timeTaken, name, now).scores[level];
    assert entry in multiset(kept);
  }

  /** The head of a sorted arrangement of s is ranked behind by no entry of s. */
  lemma HeadRanksFirst(sorted: seq<ScoreEntry>, s: seq<ScoreEntry>)
    requires Sorted(sorted) && multiset(sorted) == multiset(s) && |sorted| > 0
    ensures forall e :: e in s ==> !Ahead(e, sorted[0])
  {
    forall e | e in s ensures !Ahead(e, sorted[0]) {
      assert e in multiset(sorted);
      var k :| 0 <= k < |sorted| && sorted[k] == e;
    }
  }

  /**
   * `s[i]` is the entry a stable sort puts first: nothing ranks ahead of it, and every entry
   * stored before it ranks strictly behind it, so among tied best entries it is the earliest.
   */
  predicate IsFirstBest(s: seq<ScoreEntry>, i: int)
  {
    && 0 <= i < |s|
    && (forall k :: 0 <= k < |s| ==> !Ahead(s[k], s[i]))
    && (forall k :: 0 <= k < i ==> Ahead(s[i], s[k]))
  }

  lemma AheadOfUnbeaten(a: ScoreEntry, b: ScoreEntry, c: ScoreEntry)
    requires Ahead(a, b) && !Ahead(c, b)
    ensures Ahead(a, c) && !Ahead(c, a)
  {
  }

  /** Appending one entry: either it beats the first best and takes over, or the first best stays. */
  lemma FirstBestAfterAppend(init: seq<ScoreEntry>, x: ScoreEntry, i0: int)
    requires IsFirstBest(init, i0)
    ensures Ahead(x, init[i0]) ==> IsFirstBest(init + [x], |init|)
    ensures !Ahead(x, init[i0]) ==> IsFirstBest(init + [x], i0)
  {
    var s := init + [x];
    forall k | 0 <= k < |init| ensures s[k] == init[k] && (Ahead(x, init[i0]) ==> Ahead(x, s[k]) && !Ahead(s[k], x)) {
      if Ahead(x, init[i0]) {
        AheadOfUnbeaten(x, init[i0], init[k]);
      }
    }
  }

  lemma InsertHead(t: seq<ScoreEntry>, x: ScoreEntry)
    requires |t| > 0
    ensures Insert(t, x)[0] == if Ahead(x, t[0]) then x else t[0]
  {
  }

  /** The head of `Sort(s)` is the earliest stored of the best entries of `s`. */
  lemma {:induction false} SortHeadIsFirstBest(s: seq<ScoreEntry>)
    requires |s| > 0
    ensures exists i :: IsFirstBest(s, i) && Sort(s)[0] == s[i]
  {
    var n := |s|;
    var init := s[..n - 1];
    var x := s[n - 1];
    assert s == init + [x];
    assert Sort(s) == Insert(Sort(init), x);
    if n == 1 {
      assert IsFirstBest(s, 0);
    } else {
      SortHeadIsFirstBest(init);
      var i0 :| IsFirstBest(init, i0) && Sort(init)[0] == init[i0];
      InsertHead(Sort(init), x);
      FirstBestAfterAppend(init, x, i0);
      if Ahead(x, init[i0]) {
        assert IsFirstBest(s, n - 1) && Sort(s)[0] == s[n - 1];
      } else {
        assert IsFirstBest(s, i0) && Sort(s)[0] == s[i0];
      }
    }
  }

  /** `get_level_record`: the entry no other entry of the level ranks ahead of, or None for an empty level. */
  function GetLevelRecord(b: Book, level: int): (r: Option<ScoreEntry>)
    ensures r.None? <==> |Listed(b, level)| == 0
    ensures r.Some? ==> r.value in Listed(b, level) && forall e :: e in Listed(b, level) ==> !Ahead(e, r.value)
    ensures r.Some? ==> exists i :: IsFirstBest(Listed(b, level), i) && r.value == Listed(b, level)[i]
  {
    var top := GetHighScores(b, level, 1);
    if |top| == 0 then None
    else
      var sorted := Sort(b.scores[level]);
      assert top[0] == sorted[0];
      assert top[0] in multiset(Listed(b, level));
      HeadRanksFirst(sorted, b.scores[level]);
      SortHeadIsFirstBest(b.scores[level]);
      Some(top[0])
  }

  /** `set_player_name`. */
  function SetPlayerName(b: Book, name: string): (r: Book)
    ensures r.scores == b.scores && r.currentName == NormaliseName(name)
  {
    b.(currentName := NormaliseName(name))
  }

  /** A score added without a name is recorded under the name last set. */
  lemma AddScoreUsesCurrentName(b: Book, name: string, level: int, score: int, timeTaken: real, now: string)
    ensures var named := SetPlayerName(b, name);
            AddedEntry(named, level, score, timeTaken, None, now).playerName == NormaliseName(name)
  {
    StripTrimmed(NormaliseName(name));
  }
}

=== FILE: shuffle.dfy ===
/**
 * `random.shuffle` as an oracle: a natural number ranks one ordering of a list.
 * Every rank decodes to a permutation, so the model never needs to trust its oracle.
 */
module Shuffle {

  function Remove<T>(s: seq<T>, i: nat): (r: seq<T>)
    requires i < |s|
    ensures |r| == |s| - 1
    ensures multiset(r) + multiset{s[i]} == multiset(s)
  {
    assert s == s[..i] + [s[i]] + s[i + 1..];
    s[..i] + s[i + 1..]
  }

  /** Decodes `rank` as a mixed-radix choice of which remaining element comes next. */
  function Unrank<T>(s: seq<T>, rank: nat): (r: seq<T>)
    ensures |r| == |s|
    ensures multiset(r) == multiset(s)
    decreases |s|
  {
    if |s| == 0 then []
    else
      var i := rank % |s|;
      [s[i]] + Unrank(Remove(s, i), rank / |s|)
  }

  /** Every element of a shuffled list was in the list, and conversely. */
  lemma UnrankSameElements<T>(s: seq<T>, rank: nat, x: T)
    ensures x in Unrank(s, rank) <==> x in s
  {
    assert x in Unrank(s, rank) <==> x in multiset(Unrank(s, rank));
  }

  /** Every position of a shuffled list holds an element of the list. */
  lemma UnrankKeepsElements<T>(s: seq<T>, rank: nat)
    ensures forall j :: 0 <= j < |s| ==> Unrank(s, rank)[j] in s
  {
    forall j | 0 <= j < |s| ensures Unrank(s, rank)[j] in s {
      UnrankSameElements(s, rank, Unrank(s, rank)[j]);
    }
  }
}

=== FILE: solo.dfy ===
/**
 * The single-player rules of `src/entity/player.py` and `src/entity/deer.py`, played on the
 * map of `src/core/game_map.py`: one hunter, deer that ignore each other, a 0..10 alert level,
 * and bushes that may stop a photo.
 */
module Solo {
  import opened Wrappers
  import opened Config
  import opened Geometry
  import opened Terrain
  import opened Shuffle
  import opened MathUtil
  import opened World

  /** The outcome of a hunter move: whether it happened, and where the hunter now stands. */
  datatype MoveResult = MoveResult(ok: bool, pos: Position)

  /** A cell a single-player entity can stand on: in-grid and not TREE or ROCK. */
  predicate Walkable(g: Grid, p: Position)
  {
    InGrid(p) && !Impassable(TileAt(g, p))
  }

  /** `Player.move(dx, dy)`: the step succeeds exactly when its target is walkable; other entities do not block it. */
  function HunterMove(g: Grid, at: Position, d: Direction): (r: MoveResult)
    ensures r.ok <==> Walkable(g, Add(at, d))
    ensures r.ok ==> r.pos == Add(at, d)
    ensures !r.ok ==> r.pos == at
  {
    var target := Add(at, d);
    if Walkable(g, target) then MoveResult(true, target) else MoveResult(false, at)
  }

  // ---------------------------------------------------------------- photos

  /**
   * The cells a single-player photo scans from distance k on: it stops at the grid edge or
   * before a TREE or ROCK; a BUSH cell is scanned and then ends the scan when `stop(k)` holds
   * (the `random.random() < 0.5` draw made at that bush).
   */
  function BushRayFrom(g: Grid, origin: Position, d: Direction, k: int, range: int, stop: int -> bool): (cells: seq<Position>)
    ensures k + |cells| <= range + 1 || |cells| == 0
    ensures forall j :: 0 <= j < |cells| ==>
              && cells[j] == Cell(origin, d, k + j) && Walkable(g, cells[j])
              && (j < |cells| - 1 ==> !(TileAt(g, cells[j]) == Bush && stop(k + j)))
    ensures k + |cells| <= range ==>
              !Walkable(g, Cell(origin, d, k + |cells|)) ||
              (|cells| > 0 && Walkable(g, cells[|cells| - 1]) && TileAt(g, cells[|cells| - 1]) == Bush &&
               stop(k + |cells| - 1))
    decreases range - k + 1
  {
    if k > range then []
    else
      var c := Cell(origin, d, k);
      if !Walkable(g, c) then []
      else if TileAt(g, c) == Bush && stop(k) then [c]
      else [c] + BushRayFrom(g, origin, d, k + 1, range, stop)
  }

  /** Every cell from distance 1 to k is walkable, and no bush before distance k stopped the scan. */
  predicate OpenUpTo(g: Grid, origin: Position, d: Direction, k: int, stop: int -> bool)
  {
    forall m :: 1 <= m <= k ==>
      Walkable(g, Cell(origin, d, m)) && (m < k ==> !(TileAt(g, Cell(origin, d, m)) == Bush && stop(m)))
  }

  /** A cell is scanned exactly when it lies at some distance 1..range with an open line up to it. */
  lemma BushRayExact(g: Grid, origin: Position, d: Direction, range: int, stop: int -> bool, c: Position)
    ensures c in BushRayFrom(g, origin, d, 1, range, stop) <==>
            exists k :: 1 <= k <= range && c == Cell(origin, d, k) && OpenUpTo(g, origin, d, k, stop)
  {
    var cells := BushRayFrom(g, origin, d, 1, range, stop);
    if c in cells {
      var j :| 0 <= j < |cells| && cells[j] == c;
      forall m | 1 <= m <= j + 1
        ensures Walkable(g, Cell(origin, d, m)) && (m < j + 1 ==> !(TileAt(g, Cell(origin, d, m)) == Bush && stop(m)))
      {
        assert cells[m - 1] == Cell(origin, d, m);
      }
      assert OpenUpTo(g, origin, d, j + 1, stop);
    }
    if exists k :: 1 <= k <= range && c == Cell(origin, d, k) && OpenUpTo(g, origin, d, k, stop) {
      var k :| 1 <= k <= range && c == Cell(origin, d, k) && OpenUpTo(g, origin, d, k, stop);
      assert cells[k - 1] == c;
    }
  }

  /** The indices of the deer standing on cell c, in list order. */
  function DeerAt(deer: seq<Position>, c: Position, from: nat): (r: seq<nat>)
    requires from <= |deer|
    ensures forall j :: j in r <==> from <= j < |deer| && deer[j] == c
    decreases |deer| - from
  {
    if from == |deer| then []
    else if deer[from] == c then [from] + DeerAt(deer, c, from + 1)
    else DeerAt(deer, c, from + 1)
  }

  /** The deer found on each scanned cell, cell by cell. */
  function DeerOnCells(deer: seq<Position>, cells: seq<Position>): (r: seq<nat>)
    ensures forall j: nat :: j in r <==> j < |deer| && deer[j] in cells
  {
    if |cells| == 0 then []
    else
      var r := DeerAt(deer, cells[0], 0) + DeerOnCells(deer, cells[1..]);
      assert forall c :: c in cells <==> c == cells[0] || c in cells[1..];
      r
  }

  /**
   * `Player.take_photo`: the deer (as indices into the deer list) on the cells scanned along the
   * facing up to distance 10. A deer is returned exactly when it stands on a scanned cell.
   */
  function TakePhoto(g: Grid, at: Position, facing: MoveDirection, deer: seq<Position>, stop: int -> bool): (r: seq<nat>)
    ensures forall j :: j in r ==> j < |deer|
    ensures forall j: nat :: j in r <==> j < |deer| && deer[j] in BushRayFrom(g, at, Unit(facing), 1, PhotoRange, stop)
  {
    DeerOnCells(deer, BushRayFrom(g, at, Unit(facing), 1, PhotoRange, stop))
  }

  /** A deer on the first cell ahead is always photographed when that cell is walkable, bush or not. */
  lemma AdjacentDeerPhotographed(g: Grid, at: Position, facing: MoveDirection, deer: seq<Position>, stop: int -> bool, j: nat)
    requires j < |deer| && deer[j] == Add(at, Unit(facing)) && Walkable(g, deer[j])
    ensures j in TakePhoto(g, at, facing, deer, stop)
  {
    var d := Unit(facing);
    assert Cell(at, d, 1) == deer[j];
    BushRayExact(g, at, d, PhotoRange, stop, deer[j]);
    assert OpenUpTo(g, at, d, 1, stop);
  }

  // ---------------------------------------------------------------- deer

  datatype SoloDeer = SoloDeer(pos: Position, alert: int)

  const MaxAlertLevel: int := 10

  /** One tick's random draws: the 25% wander roll and the rank of the shuffle `_move` applies. */
  datatype SoloRoll = SoloRoll(wander: bool, shuffle: nat)

  /** The alert update of `Deer.update`: +2 when the hunter is nearer than 5, else calm down to no less than 0; then clipped to [0, 10]. */
  function SoloAlert(alert: int, distance: nat): (r: int)
    ensures 0 <= r <= MaxAlertLevel
    ensures distance < 5 ==>
              r == (if alert + 2 >= MaxAlertLevel then MaxAlertLevel else if alert + 2 <= 0 then 0 else alert + 2)
    ensures distance >= 5 ==>
              r == (if alert - 1 >= MaxAlertLevel then MaxAlertLevel else if alert - 1 <= 0 then 0 else alert - 1)
  {
    var raised := if distance < 5 then alert + 2 else if alert - 1 > 0 then alert - 1 else 0;
    Clip(raised, 0, MaxAlertLevel)
  }

  /** `flee`'s candidate steps; a hunter on the same column or row counts as being on the minus side. */
  function SoloFleeMoves(from: Position, hunter: Position): (r: seq<Direction>)
    ensures |r| == 4 && r[3] == Direction(0, 0)
  {
    var dx := if from.x < hunter.x then 1 else -1;
    var dy := if from.y < hunter.y then 1 else -1;
    [Direction(-dx, 0), Direction(0, -dy), Direction(-dx, -dy), Direction(0, 0)]
  }

  /** `random_move`'s candidate steps before shuffling. */
  const SoloSteps: seq<Direction> := [Direction(0, 1), Direction(1, 0), Direction(0, -1), Direction(-1, 0)]

  /**
   * p is where the first walkable candidate leads, or `at` when no candidate is walkable
   * (the loop with its `break` in `_move`).
   */
  predicate FirstWalkableCell(g: Grid, at: Position, moves: seq<Direction>, p: Position)
  {
    if forall j :: 0 <= j < |moves| ==> !Walkable(g, Add(at, moves[j])) then p == at
    else exists j :: 0 <= j < |moves| && p == Add(at, moves[j]) && Walkable(g, p) &&
                     forall i :: 0 <= i < j ==> !Walkable(g, Add(at, moves[i]))
  }

  /** The index of the first walkable candidate from index `from` on. */
  function FirstWalkableFrom(g: Grid, at: Position, moves: seq<Direction>, from: nat): (r: Option<nat>)
    requires from <= |moves|
    ensures r.Some? ==> from <= r.value < |moves| && Walkable(g, Add(at, moves[r.value]))
    ensures r.Some? ==> forall j :: from <= j < r.value ==> !Walkable(g, Add(at, moves[j]))
    ensures r.None? <==> forall j :: from <= j < |moves| ==> !Walkable(g, Add(at, moves[j]))
    decreases |moves| - from
  {
    if from == |moves| then None
    else if Walkable(g, Add(at, moves[from])) then Some(from)
    else FirstWalkableFrom(g, at, moves, from + 1)
  }

  /** The first walkable target among the candidates, or the current cell. */
  function FirstWalkable(g: Grid, at: Position, moves: seq<Direction>): (p: Position)
    ensures p == at || exists j :: 0 <= j < |moves| && p == Add(at, moves[j]) && Walkable(g, p)
    ensures FirstWalkableCell(g, at, moves, p)
  {
    var pick := FirstWalkableFrom(g, at, moves, 0);
    if pick.None? then at else Add(at, moves[pick.value])
  }

  /** `_move`: shuffle the candidates, then take the first walkable one of the shuffled order. */
  function SoloMove(g: Grid, at: Position, moves: seq<Direction>, rank: nat): (p: Position)
    ensures p == at || exists j :: 0 <= j < |moves| && p == Add(at, moves[j]) && Walkable(g, p)
    ensures FirstWalkableCell(g, at, Unrank(moves, rank), p)
  {
    var shuffled := Unrank(moves, rank);
    var p := FirstWalkable(g, at, shuffled);
    UnrankKeepsElements(moves, rank);
    p
  }

  /** Moving along unit candidates, one of which leads to a walkable cell, always takes one step. */
  lemma OpenUnitMoveTaken(g: Grid, at: Position, moves: seq<Direction>, rank: nat, x: Direction)
    requires forall j :: 0 <= j < |moves| ==> Distance(moves[j]) == 1
    requires x in moves && Walkable(g, Add(at, x))
    ensures Manhattan(SoloMove(g, at, moves, rank), at) == 1
  {
    var shuffled := Unrank(moves, rank);
    UnrankSameElements(moves, rank, x);
    var i :| 0 <= i < |shuffled| && shuffled[i] == x;
    assert Walkable(g, Add(at, shuffled[i]));
    var p := SoloMove(g, at, moves, rank);
    var m :| 0 <= m < |shuffled| && p == Add(at, shuffled[m]) && Walkable(g, p);
    UnrankSameElements(moves, rank, shuffled[m]);
    SubUndoesAdd(at, shuffled[m]);
    UnitMovesOneStep(g, at, moves, rank);
  }

  /** A random move with a walkable 4-neighbour always takes one step. */
  lemma SoloWalkMovesIfOpen(g: Grid, at: Position, rank: nat)
    ensures (exists j :: 0 <= j < |SoloSteps| && Walkable(g, Add(at, SoloSteps[j]))) ==>
              Manhattan(SoloMove(g, at, SoloSteps, rank), at) == 1
  {
    if exists j :: 0 <= j < |SoloSteps| && Walkable(g, Add(at, SoloSteps[j])) {
      var j :| 0 <= j < |SoloSteps| && Walkable(g, Add(at, SoloSteps[j]));
      SoloStepsAreUnit();
      OpenUnitMoveTaken(g, at, SoloSteps, rank, SoloSteps[j]);
    }
  }

  /** Every flee candidate keeps or increases the distance to the hunter; only "stay put" keeps it. */
  lemma SoloFleeMovesGoAway(from: Position, hunter: Position, j: nat)
    requires j < 4
    ensures var m := SoloFleeMoves(from, hunter)[j];
            j < 3 ==> Manhattan(Add(from, m), hunter) > Manhattan(from, hunter)
  {
  }

  /** A fleeing single-player deer never ends up nearer to the hunter. */
  lemma SoloFleeNeverCloser(g: Grid, from: Position, hunter: Position, rank: nat)
    ensures var p := SoloMove(g, from, SoloFleeMoves(from, hunter), rank);
            p == from || Manhattan(p, hunter) > Manhattan(from, hunter)
  {
    var moves := SoloFleeMoves(from, hunter);
    var p := SoloMove(g, from, moves, rank);
    if p != from {
      var j :| 0 <= j < 4 && p == Add(from, moves[j]) && Walkable(g, p);
      SoloFleeMovesGoAway(from, hunter, j);
    }
  }

  /** Moving along candidates of length one goes to a 4-neighbour or nowhere. */
  lemma UnitMovesOneStep(g: Grid, at: Position, moves: seq<Direction>, rank: nat)
    requires forall j :: 0 <= j < |moves| ==> Distance(moves[j]) == 1
    ensures var p := SoloMove(g, at, moves, rank);
            p == at || Manhattan(p, at) == 1
  {
    var p := SoloMove(g, at, moves, rank);
    if p != at {
      var j :| 0 <= j < |moves| && p == Add(at, moves[j]) && Walkable(g, p);
      SubUndoesAdd(at, moves[j]);
    }
  }

  lemma SoloStepsAreUnit()
    ensures forall j :: 0 <= j < |SoloSteps| ==> Distance(SoloSteps[j]) == 1
  {
    forall j | 0 <= j < |SoloSteps|
      ensures Distance(SoloSteps[j]) == 1
    {
      var d := SoloSteps[j];
      assert Abs(d.x) + Abs(d.y) == 1;
    }
  }

  /** `Deer.update` for one tick against the single hunter. */
  function SoloDeerUpdate(g: Grid, d: SoloDeer, hunter: Position, roll: SoloRoll): (r: SoloDeer)
    ensures r.alert == SoloAlert(d.alert, Manhattan(d.pos, hunter))
    ensures r.alert > 5 ==> r.pos == d.pos || Manhattan(r.pos, hunter) > Manhattan(d.pos, hunter)
    ensures r.alert <= 5 && !roll.wander ==> r.pos == d.pos
    ensures r.alert <= 5 ==> r.pos == d.pos || Manhattan(r.pos, d.pos) == 1
    ensures r.pos == d.pos || Walkable(g, r.pos)
    ensures r.alert > 5 ==> FirstWalkableCell(g, d.pos, Unrank(SoloFleeMoves(d.pos, hunter), roll.shuffle), r.pos)
    ensures r.alert <= 5 && roll.wander ==> FirstWalkableCell(g, d.pos, Unrank(SoloSteps, roll.shuffle), r.pos)
    ensures r.alert <= 5 && roll.wander && (exists j :: 0 <= j < |SoloSteps| && Walkable(g, Add(d.pos, SoloSteps[j]))) ==>
              Manhattan(r.pos, d.pos) == 1
  {
    var alert := SoloAlert(d.alert, Manhattan(d.pos, hunter));
    if alert > 5 then
      SoloFleeNeverCloser(g, d.pos, hunter, roll.shuffle);
      SoloDeer(SoloMove(g, d.pos, SoloFleeMoves(d.pos, hunter), roll.shuffle), alert)
    else if roll.wander then
      SoloStepsAreUnit();
      UnitMovesOneStep(g, d.pos, SoloSteps, roll.shuffle);
      SoloWalkMovesIfOpen(g, d.pos, roll.shuffle);
      SoloDeer(SoloMove(g, d.pos, SoloSteps, roll.shuffle), alert)
    else
      SoloDeer(d.pos, alert)
  }

  /** The alert level stays within 0..10 over any number of ticks, whatever the hunter does. */
  lemma {:induction false} SoloAlertStaysBounded(alert: int, distances: seq<nat>)
    requires 0 <= alert <= MaxAlertLevel
    ensures 0 <= SoloAlertAfter(alert, distances) <= MaxAlertLevel
    decreases |distances|
  {
    if |distances| > 0 {
      SoloAlertStaysBounded(SoloAlert(alert, distances[0]), distances[1..]);
    }
  }

  /** The alert level after a sequence of ticks at the given distances. */
  function SoloAlertAfter(alert: int, distances: seq<nat>): int
    decreases |distances|
  {
    if |distances| == 0 then alert else SoloAlertAfter(SoloAlert(alert, distances[0]), distances[1..])
  }

  /** Three ticks with the hunter close make a calm deer flee (alert 6 > 5). */
  lemma ThreeCloseTicksMakeFlee()
    ensures SoloAlertAfter(0, [0, 0, 0]) == 6
    ensures SoloAlertAfter(0, [0, 0]) == 4
  {
    assert [0, 0, 0][1..] == [0, 0];
    assert [0, 0][1..] == [0];
    assert [0][1..] == [];
  }
}

=== FILE: terrain.dfy ===
/**
 * Terrain tiles and the fixed-size tile grid shared by every map variant.
 * A grid is indexed column first, `grid[x][y]`, as the source stores it.
 */
module Terrain {
  import opened Config
  import opened Geometry

  /** Map tiles. (The source enum also lists DEER and PLAYER markers, which no map ever holds.) */
  datatype Tile = Empty | Tree | Rock | Bush

  predicate InGrid(p: Position)
  {
    0 <= p.x < GridWidth && 0 <= p.y < GridHeight
  }

  predicate IsGridShape(g: seq<seq<Tile>>)
  {
    |g| == GridWidth && forall x :: 0 <= x < |g| ==> |g[x]| == GridHeight
  }

  type Grid = g: seq<seq<Tile>> | IsGridShape(g) witness EmptyGrid()

  /** `_clear`: a GRID_WIDTH x GRID_HEIGHT grid of EMPTY tiles. */
  function EmptyGrid(): (g: seq<seq<Tile>>)
    ensures IsGridShape(g)
    ensures forall x, y :: 0 <= x < GridWidth && 0 <= y < GridHeight ==> g[x][y] == Empty
  {
    seq(GridWidth, _ => seq(GridHeight, _ => Empty))
  }

  /** `get_tile`: defined only on in-grid positions. */
  function TileAt(g: Grid, p: Position): Tile
    requires InGrid(p)
  {
    g[p.x][p.y]
  }

  /** The grid with one cell replaced. */
  function SetTile(g: Grid, x: int, y: int, t: Tile): (r: Grid)
    requires 0 <= x < GridWidth && 0 <= y < GridHeight
    ensures r[x][y] == t
    ensures forall i, j :: 0 <= i < GridWidth && 0 <= j < GridHeight && (i != x || j != y) ==> r[i][j] == g[i][j]
  {
    g[x := g[x][y := t]]
  }

  /** TREE and ROCK cannot be entered; BUSH can. */
  predicate Impassable(t: Tile)
  {
    t == Tree || t == Rock
  }

  /** The multiplayer server stops photos and sight at TREE, ROCK and BUSH. */
  predicate Opaque(t: Tile)
  {
    t == Tree || t == Rock || t == Bush
  }
}

=== FILE: world.dfy ===
/**
 * The authoritative server world: hunters (players), deer, the map and the
 * event queue, and the hunters' intents (move, take a picture).
 */
module World {
  import opened Wrappers
  import opened Config
  import opened Geometry
  import opened Terrain
  import opened Events

  /** A connected hunter: identity, cell, facing, and this round's photography results. */
  datatype Player = Player(
    id: int,
    pos: Position,
    facing: MoveDirection,
    photographed: set<nat>,     // indices into the round's deer roster
    photographedPlayer: bool)

  /** The three deer tiers; they differ only in their perception parameters. */
  datatype Tier = Blind | Medium | Super

  datatype Deer = Deer(pos: Position, facing: MoveDirection, alert: int, tier: Tier)

  /** GameServerContext: the one mutable world of a running server. */
  datatype Context = Context(
    level: int,
    grid: Grid,
    players: seq<Player>,
    deer: seq<Deer>,
    events: seq<ClientEvent>,
    startTime: int)

  /** One entity of a `state_update` snapshot. */
  datatype Sprite = Sprite(x: int, y: int, direction: MoveDirection)

  /** Messages the server pushes to one client. */
  datatype Msg =
    | Moved
    | PictureTaken
    | GameStarted(level: int)
    | StateUpdate(players: seq<Sprite>, deer: seq<Sprite>, timeLeft: int)
    | Score(score: int)

  datatype Outbound = Outbound(to: int, msg: Msg)

  /** A new world together with the messages sent while producing it. */
  datatype Outcome = Outcome(ctx: Context, sent: seq<Outbound>)

  predicate IsPlayerAt(ctx: Context, p: Position)
    ensures IsPlayerAt(ctx, p) <==> p in PlayerCells(ctx.players)
  {
    exists j :: 0 <= j < |ctx.players| && ctx.players[j].pos == p
  }

  predicate IsDeerAt(ctx: Context, p: Position)
    ensures IsDeerAt(ctx, p) <==> p in DeerCells(ctx.deer)
  {
    exists j :: 0 <= j < |ctx.deer| && ctx.deer[j].pos == p
  }

  /** The legality test shared by hunter moves and deer moves. */
  predicate CanEnter(ctx: Context, p: Position)
  {
    InGrid(p) && !Impassable(TileAt(ctx.grid, p)) && !IsDeerAt(ctx, p) && !IsPlayerAt(ctx, p)
  }

  // ---------------------------------------------------------------- movement

  /**
   * `Player.move`: the facing always becomes the attempted direction; the hunter steps
   * onto the target cell, and is acknowledged, exactly when the cell can be entered.
   */
  function PlayerMove(ctx: Context, i: nat, m: MoveDirection): (r: Outcome)
    requires i < |ctx.players|
    ensures |r.ctx.players| == |ctx.players|
    ensures r.ctx == ctx.(players := r.ctx.players)
    ensures forall j :: 0 <= j < |ctx.players| && j != i ==> r.ctx.players[j] == ctx.players[j]
    ensures var p := ctx.players[i]; var target := Add(p.pos, Unit(m));
            && r.ctx.players[i].facing == m
            && r.ctx.players[i] == p.(pos := r.ctx.players[i].pos, facing := m)
            && (CanEnter(ctx, target) ==> r.ctx.players[i].pos == target && r.sent == [Outbound(p.id, Moved)])
            && (!CanEnter(ctx, target) ==> r.ctx.players[i].pos == p.pos && r.sent == [])
  {
    var p := ctx.players[i];
    var target := Add(p.pos, Unit(m));
    if CanEnter(ctx, target) then
      Outcome(ctx.(players := ctx.players[i := p.(pos := target, facing := m)]), [Outbound(p.id, Moved)])
    else
      Outcome(ctx.(players := ctx.players[i := p.(facing := m)]), [])
  }

  // ---------------------------------------------------------------- rays

  /** The k-th cell along a ray. */
  function Cell(origin: Position, d: Direction, k: int): Position
  {
    Add(origin, Scale(d, k))
  }

  /** A cell a photo (or a deer's gaze) can see into: in-grid and not TREE, ROCK or BUSH. */
  predicate Clear(g: Grid, c: Position)
  {
    InGrid(c) && !Opaque(TileAt(g, c))
  }

  /** The cells scanned from distance k on, up to `range`. */
  function RayFrom(g: Grid, origin: Position, d: Direction, k: int, range: int): (cells: seq<Position>)
    ensures k + |cells| <= range + 1 || |cells| == 0
    ensures forall j :: 0 <= j < |cells| ==> cells[j] == Cell(origin, d, k + j) && Clear(g, cells[j])
    ensures k + |cells| <= range ==> !Clear(g, Cell(origin, d, k + |cells|))
    decreases range - k + 1
  {
    if k > range then []
    else
      var c := Cell(origin, d, k);
      if !Clear(g, c) then [] else [c] + RayFrom(g, origin, d, k + 1, range)
  }

  /** The cells at distance 1..range that the loop scans before it stops. */
  function Ray(g: Grid, origin: Position, d: Direction, range: int): seq<Position>
  {
    RayFrom(g, origin, d, 1, range)
  }

  /** Every cell from distance 1 to k is clear. */
  predicate ClearUpTo(g: Grid, origin: Position, d: Direction, k: int)
  {
    forall m :: 1 <= m <= k ==> Clear(g, Cell(origin, d, m))
  }

  /** A cell is scanned exactly when it is at some distance 1..range with a clear line up to it. */
  lemma RayExact(g: Grid, origin: Position, d: Direction, range: int, c: Position)
    ensures c in Ray(g, origin, d, range) <==>
            exists k :: 1 <= k <= range && c == Cell(origin, d, k) && ClearUpTo(g, origin, d, k)
  {
    var cells := Ray(g, origin, d, range);
    if c in cells {
      var j :| 0 <= j < |cells| && cells[j] == c;
      forall m | 1 <= m <= j + 1 ensures Clear(g, Cell(origin, d, m)) {
        assert cells[m - 1] == Cell(origin, d, m);
      }
      assert ClearUpTo(g, origin, d, j + 1);
    }
    if exists k :: 1 <= k <= range && c == Cell(origin, d, k) && ClearUpTo(g, origin, d, k) {
      var k :| 1 <= k <= range && c == Cell(origin, d, k) && ClearUpTo(g, origin, d, k);
      assert cells[k - 1] == c;
    }
  }

  // ---------------------------------------------------------------- photos

  /** The deer standing on one of the given cells. */
  function DeerOn(deer: seq<Deer>, cells: seq<Position>): set<nat>
  {
    set j: nat | j < |deer| && deer[j].pos in cells
  }

  predicate AnyPlayerOn(players: seq<Player>, cells: seq<Position>)
  {
    exists j :: 0 <= j < |players| && players[j].pos in cells
  }

  /**
   * `Player.take_picture`: scans the photo ray along the facing; every deer on a scanned cell
   * joins the photographed set and any hunter on one sets the photographed-a-player flag.
   */
  function Photograph(ctx: Context, i: nat): (r: Context)
    requires i < |ctx.players|
    ensures |r.players| == |ctx.players|
    ensures r == ctx.(players := r.players)
    ensures forall j :: 0 <= j < |ctx.players| && j != i ==> r.players[j] == ctx.players[j]
    ensures var p := ctx.players[i];
            r.players[i] == p.(photographed := r.players[i].photographed,
                               photographedPlayer := r.players[i].photographedPlayer)
    ensures ctx.players[i].photographed <= r.players[i].photographed
    ensures ctx.players[i].photographedPlayer ==> r.players[i].photographedPlayer
  {
    var p := ctx.players[i];
    var cells := Ray(ctx.grid, p.pos, Unit(p.facing), PhotoRange);
    var caught := DeerOn(ctx.deer, cells);
    var sawPlayer := AnyPlayerOn(ctx.players, cells);
    ctx.(players := ctx.players[i := p.(photographed := p.photographed + caught,
                                         photographedPlayer := p.photographedPlayer || sawPlayer)])
  }

  /** A deer is in the photographed set after a photo iff it was before, or it stands at some
      distance 1..PHOTO_RANGE along the facing with a clear line up to its cell. */
  lemma PhotographCaptures(ctx: Context, i: nat, j: nat)
    requires i < |ctx.players|
    ensures var p := ctx.players[i]; var d := Unit(p.facing);
            j in Photograph(ctx, i).players[i].photographed <==>
              j in p.photographed ||
              (j < |ctx.deer| && exists k :: 1 <= k <= PhotoRange && ctx.deer[j].pos == Cell(p.pos, d, k)
                                             && ClearUpTo(ctx.grid, p.pos, d, k))
  {
    var p := ctx.players[i];
    if j < |ctx.deer| {
      RayExact(ctx.grid, p.pos, Unit(p.facing), PhotoRange, ctx.deer[j].pos);
    }
  }

  /** The flag is set after a photo iff it was set, or some hunter stands on a scanned cell. */
  lemma PhotographFlagsPlayer(ctx: Context, i: nat)
    requires i < |ctx.players|
    ensures var p := ctx.players[i]; var d := Unit(p.facing);
            Photograph(ctx, i).players[i].photographedPlayer <==>
              p.photographedPlayer ||
              exists j, k :: 0 <= j < |ctx.players| && 1 <= k <= PhotoRange &&
                             ctx.players[j].pos == Cell(p.pos, d, k) && ClearUpTo(ctx.grid, p.pos, d, k)
  {
    var p := ctx.players[i];
    var d := Unit(p.facing);
    forall j | 0 <= j < |ctx.players| {
      RayExact(ctx.grid, p.pos, d, PhotoRange, ctx.players[j].pos);
    }
  }

  /** Photographing again from the same spot adds nothing: the score cannot be farmed. */
  lemma PhotographIdempotent(ctx: Context, i: nat)
    requires i < |ctx.players|
    ensures Photograph(Photograph(ctx, i), i) == Photograph(ctx, i)
  {
    var once := Photograph(ctx, i);
    var p := ctx.players[i];
    var cells := Ray(ctx.grid, p.pos, Unit(p.facing), PhotoRange);
    assert once.players[i].pos == p.pos && once.players[i].facing == p.facing;
    forall j | 0 <= j < |ctx.players| ensures once.players[j].pos == ctx.players[j].pos {
    }
    assert AnyPlayerOn(once.players, cells) == AnyPlayerOn(ctx.players, cells);
  }

  // ---------------------------------------------------------------- intents

  /**
   * `Player.handle_events`: applies, in order, the events that carry this hunter's id;
   * a picture is always acknowledged, a move only when it succeeds.
   */
  function HandleEvents(o: Outcome, i: nat, events: seq<ClientEvent>): (r: Outcome)
    requires i < |o.ctx.players|
    ensures |r.ctx.players| == |o.ctx.players|
    ensures r.ctx == o.ctx.(players := r.ctx.players)
    ensures forall j :: 0 <= j < |o.ctx.players| && j != i ==> r.ctx.players[j] == o.ctx.players[j]
    ensures r.ctx.players[i].id == o.ctx.players[i].id
    decreases |events|
  {
    if |events| == 0 then o
    else
      var e := events[0];
      var p := o.ctx.players[i];
      var next :=
        if e.playerId != p.id then o
        else match e.action
          case TakePicture => Outcome(Photograph(o.ctx, i), o.sent + [Outbound(p.id, PictureTaken)])
          case Move(m) =>
            var moved := PlayerMove(o.ctx, i, m);
            Outcome(moved.ctx, o.sent + moved.sent);
      HandleEvents(next, i, events[1..])
  }

  /** Events of other hunters are ignored entirely. */
  lemma {:induction false} HandleEventsIgnoresOthers(o: Outcome, i: nat, events: seq<ClientEvent>)
    requires i < |o.ctx.players|
    requires forall k :: 0 <= k < |events| ==> events[k].playerId != o.ctx.players[i].id
    ensures HandleEvents(o, i, events) == o
    decreases |events|
  {
    if |events| > 0 {
      HandleEventsIgnoresOthers(o, i, events[1..]);
    }
  }

  /** A hunter's own picture event is acknowledged with `picture_taken`, even when nothing is caught. */
  lemma HandleOwnPicture(o: Outcome, i: nat)
    requires i < |o.ctx.players|
    ensures var p := o.ctx.players[i];
            HandleEvents(o, i, [ClientEvent(p.id, TakePicture)])
              == Outcome(Photograph(o.ctx, i), o.sent + [Outbound(p.id, PictureTaken)])
  {
    var p := o.ctx.players[i];
    var evs := [ClientEvent(p.id, TakePicture)];
    assert evs[1..] == [];
  }

  /** A hunter's own move event maps UP/DOWN/LEFT/RIGHT to (0,-1)/(0,1)/(-1,0)/(1,0). */
  lemma HandleOwnMove(o: Outcome, i: nat, m: MoveDirection)
    requires i < |o.ctx.players|
    ensures var p := o.ctx.players[i];
            var r := HandleEvents(o, i, [ClientEvent(p.id, Move(m))]);
            && r.ctx.players[i].facing == m
            && (CanEnter(o.ctx, Add(p.pos, Unit(m))) <==> r.ctx.players[i].pos == Add(p.pos, Unit(m)))
            && (m == Up ==> Unit(m) == Direction(0, -1))
            && (m == Down ==> Unit(m) == Direction(0, 1))
            && (m == Left ==> Unit(m) == Direction(-1, 0))
            && (m == Right ==> Unit(m) == Direction(1, 0))
  {
    var p := o.ctx.players[i];
    var evs := [ClientEvent(p.id, Move(m))];
    assert evs[1..] == [];
  }

  /** `Player.reset`: a new round forgets the photographs and the flag. */
  function ResetPlayer(p: Player, spawn: Position): (r: Player)
    ensures r.id == p.id && r.facing == p.facing
    ensures r.photographed == {} && !r.photographedPlayer && r.pos == spawn
  {
    p.(pos := spawn, photographed := {}, photographedPlayer := false)
  }

  /** The score a hunter receives at the end of the round. */
  function FinalScore(p: Player): (s: int)
    ensures p.photographedPlayer ==> s == -1
    ensures !p.photographedPlayer ==> s == |p.photographed|
  {
    if p.photographedPlayer then -1 else |p.photographed|
  }
  // ---------------------------------------------------------------- occupancy

  function PlayerCells(players: seq<Player>): (r: seq<Position>)
    ensures |r| == |players| && forall j :: 0 <= j < |players| ==> r[j] == players[j].pos
  {
    seq(|players|, j requires 0 <= j < |players| => players[j].pos)
  }

  function DeerCells(deer: seq<Deer>): (r: seq<Position>)
    ensures |r| == |deer| && forall j :: 0 <= j < |deer| ==> r[j] == deer[j].pos
  {
    seq(|deer|, j requires 0 <= j < |deer| => deer[j].pos)
  }

  /** Every occupied cell: the hunters' first, then the deer's. */
  function Occupants(ctx: Context): seq<Position>
  {
    PlayerCells(ctx.players) + DeerCells(ctx.deer)
  }

  predicate Distinct(s: seq<Position>)
  {
    forall a, b :: 0 <= a < b < |s| ==> s[a] != s[b]
  }

  /**
   * The occupancy invariant the movement rules keep: no two entities share a cell,
   * and every entity stands on an in-grid cell that is not TREE or ROCK.
   */
  predicate Valid(ctx: Context)
  {
    && Distinct(Occupants(ctx))
    && forall c :: c in Occupants(ctx) ==> InGrid(c) && !Impassable(TileAt(ctx.grid, c))
  }

  /** Moving one occupant onto a free cell keeps the occupants distinct. */
  lemma DistinctUpdate(s: seq<Position>, i: nat, v: Position)
    requires Distinct(s) && i < |s| && v !in s
    ensures Distinct(s[i := v])
  {
    var t := s[i := v];
    forall a, b | 0 <= a < b < |t| ensures t[a] != t[b] {
      if a == i {
        assert t[b] == s[b];
      } else if b == i {
        assert t[a] == s[a];
      }
    }
  }

  /** A cell that can be entered is not occupied. */
  lemma EnterableIsFree(ctx: Context, p: Position)
    requires CanEnter(ctx, p)
    ensures p !in Occupants(ctx)
  {
    var occ := Occupants(ctx);
    forall k | 0 <= k < |occ| ensures occ[k] != p {
      if k < |ctx.players| {
        assert occ[k] == ctx.players[k].pos;
      } else {
        assert occ[k] == ctx.deer[k - |ctx.players|].pos;
      }
    }
  }

  /** A hunter's move keeps the occupancy invariant. */
  lemma PlayerMovePreservesValid(ctx: Context, i: nat, m: MoveDirection)
    requires i < |ctx.players| && Valid(ctx)
    ensures Valid(PlayerMove(ctx, i, m).ctx)
  {
    var r := PlayerMove(ctx, i, m).ctx;
    var target := Add(ctx.players[i].pos, Unit(m));
    if CanEnter(ctx, target) {
      EnterableIsFree(ctx, target);
      assert Occupants(r) == Occupants(ctx)[i := target];
      DistinctUpdate(Occupants(ctx), i, target);
    } else {
      assert Occupants(r) == Occupants(ctx);
    }
  }

  /** Taking a picture moves nobody. */
  lemma PhotographPreservesValid(ctx: Context, i: nat)
    requires i < |ctx.players| && Valid(ctx)
    ensures Valid(Photograph(ctx, i))
  {
    var r := Photograph(ctx, i);
    forall j | 0 <= j < |ctx.players| ensures r.players[j].pos == ctx.players[j].pos {
    }
    assert PlayerCells(r.players) == PlayerCells(ctx.players);
    assert Occupants(r) == Occupants(ctx);
  }

  /** Handling any batch of intents keeps the occupancy invariant. */
  lemma {:induction false} HandleEventsPreservesValid(o: Outcome, i: nat, events: seq<ClientEvent>)
    requires i < |o.ctx.players| && Valid(o.ctx)
    ensures Valid(HandleEvents(o, i, events).ctx)
    decreases |events|
  {
    if |events| > 0 {
      var e := events[0];
      var p := o.ctx.players[i];
      if e.playerId == p.id {
        match e.action
        case TakePicture =>
          PhotographPreservesValid(o.ctx, i);
          HandleEventsPreservesValid(Outcome(Photograph(o.ctx, i), o.sent + [Outbound(p.id, PictureTaken)]), i, events[1..]);
        case Move(m) =>
          var moved := PlayerMove(o.ctx, i, m);
          PlayerMovePreservesValid(o.ctx, i, m);
          HandleEventsPreservesValid(Outcome(moved.ctx, o.sent + moved.sent), i, events[1..]);
      } else {
        HandleEventsPreservesValid(o, i, events[1..]);
      }
    }
  }
}

=== FILE: wrappers.dfy ===
/** Failure-compatible Option and Result types used across the model. */
module Wrappers {

  datatype Option<+T> = None | Some(value: T) {
    predicate IsFailure() { None? }

    function PropagateFailure<U>(): Option<U>
      requires None?
    {
      None
    }

    function Extract(): T
      requires Some?
    {
      value
    }
  }

  datatype Result<+R, +E> = Success(value: R) | Failure(error: E) {
    predicate IsFailure() { Failure? }

    function PropagateFailure<U>(): Result<U, E>
      requires Failure?
    {
      Failure(error)
    }

    function Extract(): R
      requires Success?
    {
      value
    }
  }
}
